=== FILE: README.md ===
# Local Farmers — a Dafny model of the backend core and the frontend helpers

This project models the server of the Local Farmers marketplace and two helpers of its web frontend. The server is an Express application that keeps all its state in JSON files.

The model covers:

- **JSON file store.** Files are read, written atomically through a `.tmp` sibling, and updated read-modify-write under a per-path lock.
- **Expiring-entry caches.** They are built on the file store and used by every external-data route.
- **Data bootstrap.** The documents the application expects are seeded on first start.
- **Accounts and sessions.** This covers salted password hashes, seven-day sessions, and the authentication and vendor guards.
- **HTTP routes:**
  - sign-up, login, `me` and logout;
  - the vendor profile and product routes;
  - the public product catalogue;
  - the market overview;
  - the external-data routes: soil, USDA markets, market news, FAOSTAT, photo search and product image.
- **Product-photo lookup.** Query planning, normalisation and per-query caching.
- **Upstream clients.** These are the FAOSTAT, Pexels and USDA farmers-market clients, each given how its HTTP exchange ended.
- **Frontend helpers.** The request helper (`apiFetch`) and the soil-quality label.

Each module follows one source file:

| Source file | Dafny module |
|---|---|
| `lib/fileStore.js` | `FileStore`, plus `FileLock` for the lock table |
| `lib/cacheStore.js` | `CacheStore` |
| `lib/bootstrap.js` | `Bootstrap` |
| `lib/auth.js` | `Sessions` |
| `middleware/auth.js` | `AuthGuard` |
| `routes/auth.js` | `AuthRoutes` |
| `routes/vendor.js` | `VendorRoutes` |
| `routes/products.js` | `ProductCatalog` |
| `routes/markets.js` | `Markets` |
| `routes/external.js` | `ExternalRoutes` |
| `lib/productMedia.js` | `ProductMedia` |
| `lib/external/faostat.js` | `Faostat` |
| `lib/external/pexels.js` | `Pexels` |
| `lib/external/usdaLocalFood.js` | `UsdaLocalFood` |
| frontend `api.js` | `ApiClient` |
| frontend `quality.js` | `Quality` |

Shared vocabulary lives in a few support modules:

- `Records` holds the stored documents. `Records.Doc` is the union of the document shapes, including a JSON `null` document.
- `JsValues` holds JavaScript values: truthiness, `||`, and `Number(...)`.
- `Http` holds handler responses.
- `DataPaths` holds the file paths.
- `CacheKeys` holds the cache keys and lifetimes.
- `Text` holds the regular-expression string operations.
- `Seqs` holds sequence utilities.
- `Wrappers` holds `Option` and `Result`.

How effects are modelled:

- **Disk.** The disk is a map from paths to file states: a document, an unparsable file, or a file that refuses access. Every operation returns the new disk with its answer.
- **Clock, randomness and crypto.** Clock readings, random ids and tokens, and password hashes are parameters.
- **Network.** Each HTTP exchange with an upstream service is a parameter that says how the request ended.
- **Host number conversions.** `Number(text)` and `String(number)` are parameters (`JsValues.Host`).

## Model

| member | source | states |
|---|---|---|
| FileStore.WriteJsonFile | local-farmers-backendd/src/lib/fileStore.js:15-21 | A write succeeds exactly when neither the file nor its `.tmp` sibling refuses access. On success the file holds the new document, the sibling is gone and no other path changes. On failure the error is an I/O failure and the file keeps its old state. When the sibling accepts the document and only the rename fails, the complete `.tmp` file stays behind. |
| FileStore.FailedWriteIsInvisible | local-farmers-backendd/src/lib/fileStore.js:10-21 | After a failed write a reader of the file sees what it saw before. The `.tmp` file left behind neither makes the file writable nor blocks it, so a retry fails the same way. |
| FileStore.WriteIsAtomic | local-farmers-backendd/src/lib/fileStore.js:15-21 | While the temporary sibling is written, a reader of the file still sees the old content. After the rename the reader sees the whole new document. |
| FileStore.WriteThenRead | local-farmers-backendd/src/lib/fileStore.js:10-21 | A successful write is read back unchanged, and the file stays writable. |
| FileStore.RewriteIsNoop | local-farmers-backendd/src/lib/fileStore.js:15-21 | Writing back exactly what a file holds leaves the disk as it was. |
| FileStore.ReadJson | local-farmers-backendd/src/lib/fileStore.js:42-52 | An existing file answers its content, or its parse or access error, and nothing is written. A missing file without a default answers "not found". A missing file with a default gets the default written and answered. If that write fails, the file stays missing and the error propagates. |
| FileStore.WriteJson | local-farmers-backendd/src/lib/fileStore.js:54-55 | A locked write stores the document and touches no other path. A failed one leaves the file as it was, with the complete `.tmp` sibling left behind when only the rename failed. |
| FileStore.Load | local-farmers-backendd/src/lib/fileStore.js:59-67 | The transform receives the parsed file. A missing file gives the default when one is supplied and "not found" otherwise. |
| FileStore.Update | local-farmers-backendd/src/lib/fileStore.js:57-85 | A read failure or a throwing transform writes nothing and propagates. An envelope's `data` is persisted; any other return re-persists the current content. The answer is `result` when present, otherwise the whole return value. A refused write leaves the file as it was and at most its `.tmp` sibling behind. |
| FileStore.UpdateAllIsFold | local-farmers-backendd/src/lib/fileStore.js:57-85 | Updates run one after another leave the file holding the fold of their transforms, in submission order, over the initial content. Each update gets an answer. |
| FileStore.Transact | local-farmers-backendd/src/lib/fileStore.js:57-85 | A data-and-result transform stores its next content and answers its result. A load failure or a throw leaves the disk unchanged. A refused write leaves the file unchanged and at most its `.tmp` sibling behind. |
| FileStore.TransactIsUpdate | local-farmers-backendd/src/lib/fileStore.js:57-85 | The transactional form is `updateJson` with a transform that always returns both `data` and `result`: same disk, same answer. |
| FileLock.Enter | local-farmers-backendd/src/lib/fileStore.js:24-29 | Entering stores the derived promise, not `current`, as the path's table entry, and queues the call behind its predecessor. |
| FileLock.AsWrittenNeverDrains | local-farmers-backendd/src/lib/fileStore.js:29-38 | As written, once a path has been used its table entry is never deleted, whatever the interleaving of calls and completions. |
| FileLock.OneCallLeaksEntry | local-farmers-backendd/src/lib/fileStore.js:29-38 | One call that completes leaves the entry behind as written. The corrected comparison removes it. |
| FileLock.CorrectedDrainsWhenIdle | local-farmers-backendd/src/lib/fileStore.js:29-38 | When the comparison uses the stored promise, the path has a table entry if and only if some call on it is unfinished. |
| FileLock.QueueIsFifo | local-farmers-backendd/src/lib/fileStore.js:24-33 | Given that each completion finishes the earliest unfinished call (the event model assumes this of the promise chaining), the unfinished calls are always the most recent ones, consecutive and in call order. |
| FileLock.PendingIgnoresEntry | local-farmers-backendd/src/lib/fileStore.js:29-38 | The faulty comparison changes only the table entry. The queue of waiting calls is the same as with the correction. |
| CacheStore.PruneExpired | local-farmers-backendd/src/lib/cacheStore.js:10-20 | Pruning keeps exactly the entries whose deadline is present, parses and lies after now. Every survivor is live and comes from the list, and every live entry survives. |
| CacheStore.PruneKeepsExactlyLive | local-farmers-backendd/src/lib/cacheStore.js:10-20 | Each live entry is kept as often as it occurs; every other entry is dropped. |
| CacheStore.PruneConcat | local-farmers-backendd/src/lib/cacheStore.js:10-20 | Pruning keeps order: it distributes over concatenation. |
| CacheStore.PruneLater | local-farmers-backendd/src/lib/cacheStore.js:10-20 | Pruning at a later time subsumes pruning at an earlier one, so pruning twice at one instant is pruning once. |
| CacheStore.FindAfterPrune | local-farmers-backendd/src/lib/cacheStore.js:22-33 | A lookup in the pruned list finds the value of the first live entry with the key in the original list. |
| CacheStore.PruneKeepsLookups | local-farmers-backendd/src/lib/cacheStore.js:22-33 | Pruning changes no lookup. |
| CacheStore.CacheGet | local-farmers-backendd/src/lib/cacheStore.js:22-33 | A lookup answers the first live value with the key, or null. The pruned list is persisted whether or not it hits. Read and write failures propagate. |
| CacheStore.CacheSet | local-farmers-backendd/src/lib/cacheStore.js:35-53 | After a store exactly one entry has the key: the new one, last, expiring at now plus the lifetime. The other keys' live entries precede it in order. The answer is the stored value. |
| CacheStore.SetThenGet | local-farmers-backendd/src/lib/cacheStore.js:22-53 | A stored value is found by a later lookup before it expires. From its expiry on the lookup answers null and drops the entry. |
| CacheStore.GetOnStored | local-farmers-backendd/src/lib/cacheStore.js:22-33 | On a stored cache list a lookup answers the first live match and leaves the pruned list. |
| CacheStore.SetTwiceKeepsSecond | local-farmers-backendd/src/lib/cacheStore.js:35-53 | Storing one key twice keeps only the second value. |
| CacheStore.GetOrSetCache | local-farmers-backendd/src/lib/cacheStore.js:55-67 | A hit answers the cached value and never calls the fetcher. A miss calls it. A non-null fresh value is stored; a null one is answered but not stored. A throwing fetcher propagates. |
| CacheStore.HitIgnoresFetcher | local-farmers-backendd/src/lib/cacheStore.js:56-59 | On a hit the outcome does not depend on the fetcher at all. |
| CacheStore.GetLeavesStoreUsable | local-farmers-backendd/src/lib/cacheStore.js:22-53 | After a successful lookup a store into the same cache file succeeds. |
| CacheStore.StoredRunHitsLater | local-farmers-backendd/src/lib/cacheStore.js:55-67 | Once a miss has stored a fresh value, a later run before the entry expires is a cache hit with that value and does not call its fetcher. |
| CacheKeys.CommodityKeyInjective | local-farmers-backendd/src/routes/external.js:83 | Different commodities are cached under different keys. |
| CacheKeys.ProductPhotoKeyInjective | local-farmers-backendd/src/lib/productMedia.js:57 | Different product-photo queries in one locale are cached under different keys. |
| CacheKeys.ZipAndCoordsDisjoint | local-farmers-backendd/src/routes/external.js:56 | A zip search and a coordinate search never share a cache entry. |
| Bootstrap.EnsureFile | local-farmers-backendd/src/lib/bootstrap.js:6-15 | An existing file is kept whatever it holds. A missing file is written with its default. Any other access error propagates with nothing written. |
| Bootstrap.EnsureAllKeepsExisting | local-farmers-backendd/src/lib/bootstrap.js:17-44 | Seeding never changes a file that already exists, whether or not it succeeds. |
| Bootstrap.EnsureAllCreates | local-farmers-backendd/src/lib/bootstrap.js:17-44 | After a successful run every listed document exists and is accessible. Each one that was missing holds its default. |
| Bootstrap.EnsureAllNoop | local-farmers-backendd/src/lib/bootstrap.js:6-15 | When every document exists and is accessible, seeding changes nothing. |
| Bootstrap.DefaultFilesSeparate | local-farmers-backendd/src/lib/bootstrap.js:21-43 | The ten seeded documents live at ten different paths, none of them a temporary sibling. |
| Bootstrap.BootstrapIdempotent | local-farmers-backendd/src/lib/bootstrap.js:17-44 | Bootstrapping twice is bootstrapping once. |
| Bootstrap.BootstrapFresh | local-farmers-backendd/src/lib/bootstrap.js:21-43 | On an empty data directory every document gets its default. The markets document holds the single Central Market. |
| Sessions.SplitHash | local-farmers-backendd/src/lib/auth.js:22 | The fields bound from a stored hash are the text before the first `:` and the text up to the next `:`. Neither contains `:`. |
| Sessions.VerifyPassword | local-farmers-backendd/src/lib/auth.js:18-32 | A password is accepted exactly when the stored hash has a `:` and non-empty salt and key fields, and the derived key matches. An accepted hash is non-empty and does not start with `:`. |
| Sessions.HashRoundTrip | local-farmers-backendd/src/lib/auth.js:12-32 | A hash built as `salt:key` verifies a password exactly when the password derives `key` under that salt. |
| Sessions.ActiveSessions | local-farmers-backendd/src/lib/auth.js:48-51 | The active sessions are exactly those whose expiry parses and lies after the pruning time. |
| Sessions.CreateSession | local-farmers-backendd/src/lib/auth.js:34-62 | A new session carries the token, the user's id and role, and expires seven days after creation. A `null` document throws. Read and write failures propagate. |
| Sessions.GetSession | local-farmers-backendd/src/lib/auth.js:64-84 | An absent token answers null without touching the store. Otherwise the expired sessions are dropped and persisted, and the first active session carrying the token is answered. |
| Sessions.Lookup | local-farmers-backendd/src/lib/auth.js:77 | The session found is active and carries the token. None is found exactly when no active session carries it. |
| Sessions.LookupPruned | local-farmers-backendd/src/lib/auth.js:72-77 | Looking up in already-pruned sessions finds the same session, and pruning twice is pruning once. |
| Sessions.RevokeSession | local-farmers-backendd/src/lib/auth.js:86-99 | An absent token does nothing. Otherwise the sessions file afterwards holds exactly the stored sessions that do not carry the token, expired or not, in their stored order. A read failure or a `null` document propagates with nothing written. A refused write leaves the file as it was, with the filtered list left in its `.tmp` sibling when only the rename failed. |
| Sessions.WithoutConcat | local-farmers-backendd/src/lib/auth.js:92-93 | Revoking works piecewise over a concatenation, so the kept sessions stay in their stored order. |
| Sessions.WithoutCounts | local-farmers-backendd/src/lib/auth.js:92-93 | Revoking keeps every other session exactly as many times as it was stored, and no copy of one carrying the token. |
| Sessions.CreateThenGet | local-farmers-backendd/src/lib/auth.js:34-84 | A session just created is found by its token until it expires and not afterwards, provided no older session carried the same token. |
| Sessions.RevokeThenGet | local-farmers-backendd/src/lib/auth.js:64-99 | After a revocation the token finds no session at any time. |
| Sessions.GetTwice | local-farmers-backendd/src/lib/auth.js:64-84 | Two lookups at one instant answer the same, and the second writes back what the first left. |
| AuthGuard.UserById | local-farmers-backendd/src/middleware/auth.js:17 | The user found has the session's user id. None is found exactly when no user has that id. |
| AuthGuard.GetUserFromRequest | local-farmers-backendd/src/middleware/auth.js:5-18 | No cookie means no user and nothing touched. A user is answered only for a live session with the cookie's token, and has that session's user id. For a live session the answer is the stored user with the session's user id, or none; a users file that cannot be read, or that holds no user list, is a failure. |
| AuthGuard.SessionUserAdmitted | local-farmers-backendd/src/middleware/auth.js:5-31 | A live session whose user is stored admits exactly that user through the authentication guard. |
| AuthGuard.CreatedSessionAdmits | local-farmers-backendd/src/middleware/auth.js:5-31 | A session just created for a stored user admits that user until its seven-day lifetime ends. |
| AuthGuard.RequireAuth | local-farmers-backendd/src/middleware/auth.js:20-31 | The guard admits exactly when a user is found, and passes that user on. No cookie gives 401. A store failure gives 500. |
| AuthGuard.RequireVendor | local-farmers-backendd/src/middleware/auth.js:33-47 | Only a user whose role is `vendor` is admitted. No cookie gives 401. |
| AuthGuard.VendorRefinesAuth | local-farmers-backendd/src/middleware/auth.js:20-47 | The vendor guard admits exactly the vendors the authentication guard admits. A non-vendor gets 403. Every refusal of the authentication guard is repeated unchanged. |
| AuthRoutes.ValidateSignup | local-farmers-backendd/src/routes/auth.js:24-38 | A sign-up body is refused exactly when the username is empty or not text, or the password is not text of at least six characters, or the role is not customer or vendor, or the trimmed username is outside 3–32 characters. Lengths are JavaScript lengths: UTF-16 code units, two for a character outside the basic multilingual plane. Otherwise the trimmed username is used. |
| AuthRoutes.AstralPasswordAccepted | local-farmers-backendd/src/routes/auth.js:28-30 | A password of three characters outside the basic multilingual plane is six code units long and passes. |
| AuthRoutes.LongAstralNameRejected | local-farmers-backendd/src/routes/auth.js:35-38 | A username of seventeen characters outside the basic multilingual plane is 34 code units long and is refused. |
| AuthRoutes.Signup | local-farmers-backendd/src/routes/auth.js:22-73 | An invalid body gets 400 with nothing written. Otherwise the status is 500 when the users file cannot be read, is `null` or cannot be written. It is 409 when a stored name equals the new one ignoring case, and 201 otherwise. 201 appends the user and answers the id, username and role. |
| AuthRoutes.SignupKeepsNamesUnique | local-farmers-backendd/src/routes/auth.js:49-59 | A successful sign-up keeps usernames unique ignoring letter case. |
| AuthRoutes.SecondSignupConflicts | local-farmers-backendd/src/routes/auth.js:49-63 | Once a name is taken, signing up again with any letter-case variant is refused with 409, or fails with 500 if the store cannot be written. |
| AuthRoutes.SignupOnClash | local-farmers-backendd/src/routes/auth.js:49-63 | A name clashing with a stored one never creates an account. |
| AuthRoutes.StepOnClash | local-farmers-backendd/src/routes/auth.js:54-56 | The sign-up transform refuses a clashing name and persists the content unchanged. |
| AuthRoutes.FindByName | local-farmers-backendd/src/routes/auth.js:83-85 | The account found matches the given name ignoring case. None is found exactly when no account matches. |
| AuthRoutes.Login | local-farmers-backendd/src/routes/auth.js:75-113 | A missing username or password gets 400. 200 means the account exists and the password verifies. An unknown user or a wrong password gets 401 `Invalid credentials.`; so does a non-text username when no user is stored, while with stored users it throws and gets 500. A users file that cannot be read gets 500. For a stored account whose password verifies, the answer is 200 with the account exactly when creating the session succeeds, and 500 otherwise. A 200 sets the `lf_session` cookie with the new token and a seven-day lifetime, and only a 200 sets a cookie. |
| AuthRoutes.SignupStores | local-farmers-backendd/src/routes/auth.js:49-69 | After a successful sign-up the users document holds the old users plus the new one, and a name search finds the new one. |
| AuthRoutes.FindAppended | local-farmers-backendd/src/routes/auth.js:83-85 | A user appended with a name that clashes with no earlier one is the one found by that name. |
| AuthRoutes.LoginFinds | local-farmers-backendd/src/routes/auth.js:75-113 | With a stored account and a verifying password, login answers 200 with that account exactly when the session is created. On a working session store it is always 200. |
| AuthRoutes.SignupThenLogin | local-farmers-backendd/src/routes/auth.js:22-113 | After signing up, logging in with the same credentials answers the new account exactly when the session is created. On a working session store it is always 200. |
| AuthRoutes.Me | local-farmers-backendd/src/routes/auth.js:115-130 | An admitted user gets 200 with their id, username and role. Otherwise the answer is 401 or 500. |
| AuthRoutes.Logout | local-farmers-backendd/src/routes/auth.js:132-144 | Logout answers 204, clearing the cookie, exactly when revoking the cookie's session succeeds; otherwise 500. With a cookie and a working session store it is 204. Without a cookie it touches nothing. |
| AuthRoutes.LogoutThenMe | local-farmers-backendd/src/routes/auth.js:115-144 | After a successful logout the same cookie no longer authenticates. |
| VendorRoutes.ToNumberOrNull | local-farmers-backendd/src/routes/vendor.js:11-17 | `null`, `undefined` and the empty string give null. Anything else gives its number when that number is finite, and null otherwise. |
| VendorRoutes.ProfileOf | local-farmers-backendd/src/routes/vendor.js:22 | The profile found is owned by the caller. None is found exactly when no vendor is owned by the caller. |
| VendorRoutes.LookupProfile | local-farmers-backendd/src/routes/vendor.js:21-22 | The lookup succeeds exactly when the vendors document reads and holds an array, and then answers the caller's profile. |
| VendorRoutes.GetProfile | local-farmers-backendd/src/routes/vendor.js:19-27 | The answer is the caller's profile or null. A failure gives 500. |
| VendorRoutes.Updated | local-farmers-backendd/src/routes/vendor.js:44-53 | An update keeps the id, owner and creation time and sets the farm name and update time. Display name, coordinates and bio change only when given (truthy, non-null and non-nullish respectively). |
| VendorRoutes.Created | local-farmers-backendd/src/routes/vendor.js:60-69 | A first profile belongs to the caller. Its display name defaults to the username and its bio to the empty string. |
| VendorRoutes.ReplaceOwned | local-farmers-backendd/src/routes/vendor.js:54-56 | Every vendor owned by the caller is replaced by the update; every other vendor is kept in place. |
| VendorRoutes.UpsertProfile | local-farmers-backendd/src/routes/vendor.js:29-78 | A farm name that is missing or not text gets 400 before any write. With a valid name the answer is 200 exactly when the vendors file can be read, is not `null` and can be written, and 500 otherwise. A 200 updates the caller's existing profile or appends a new one, touching only the vendors file. |
| VendorRoutes.UpsertKeepsOthers | local-farmers-backendd/src/routes/vendor.js:39-72 | An upsert leaves every other user's profile unchanged and in place, adds at most one profile, and keeps one profile per user. |
| VendorRoutes.ListOwnProducts | local-farmers-backendd/src/routes/vendor.js:80-127 | Without a profile the list is empty; a vendors file that fails gives 500. With a profile the answer is 500 exactly when the products file cannot be read, holds no array, or must take new photos and cannot. Otherwise it is the vendor's own products with photos filled in, and the photos found are merged into the stored products. |
| VendorRoutes.OwnedBy | local-farmers-backendd/src/routes/vendor.js:89-91 | The listed products are exactly the stored products of the vendor. |
| VendorRoutes.ValidRating | local-farmers-backendd/src/routes/vendor.js:135-140 | A rating is accepted exactly when its number is finite and within 1 to 5. |
| VendorRoutes.NewProduct | local-farmers-backendd/src/routes/vendor.js:149-159 | A new product carries the given id, the given rating and the creation time, and belongs to the caller's vendor. Category defaults to `general` and unit to `unit`. It is available unless the body says exactly `false`. |
| VendorRoutes.CreateProduct | local-farmers-backendd/src/routes/vendor.js:129-171 | A missing name, a bad rating and a missing profile each get 400, in that order; a vendors file that fails gives 500. With a profile the answer is 201 exactly when the products file can be read, is not `null` and can be written. A 201 appends the new product last and answers it. |
| VendorRoutes.CreatedJoinsOwnList | local-farmers-backendd/src/routes/vendor.js:129-171 | After a 201 the stored products are the earlier ones plus the new one, and the vendor's own products are its earlier ones, in order, followed by the new one. |
| VendorRoutes.OwnedIndex | local-farmers-backendd/src/routes/vendor.js:188-190 | The index found is the first product with the id that the vendor owns, or -1 exactly when there is none. |
| VendorRoutes.DeleteProduct | local-farmers-backendd/src/routes/vendor.js:173-206 | Only the caller's own product can be deleted. An unknown id, or another vendor's product, gets 404 with the list unchanged. With a profile the answer is 200 or 404 exactly when the products file can be read, is not `null` and can be written; a vendors file that fails gives 500. |
| VendorRoutes.DeleteRemovesOne | local-farmers-backendd/src/routes/vendor.js:186-196 | A delete removes exactly one product, the caller's, and keeps every other product: as a multiset the list loses just that entry. |
| ProductCatalog.VendorsById | local-farmers-backendd/src/routes/products.js:12-14 | Every vendor's id is in the map, and the map holds only listed vendors under their own ids. |
| ProductCatalog.LastWithId | local-farmers-backendd/src/routes/products.js:12-14 | The reference lookup: the last vendor in the list with the id, and none exactly when no vendor has it. |
| ProductCatalog.VendorsByIdIsLast | local-farmers-backendd/src/routes/products.js:12-17 | A lookup in the map finds exactly the last vendor with the id, because a later vendor overwrites an earlier one. |
| ProductCatalog.Join | local-farmers-backendd/src/routes/products.js:16-30 | There is one entry per product, in order, with all its fields. The vendor summary is that of the last vendor with the product's vendor id, and null exactly when no vendor has it. |
| ProductCatalog.ListCatalog | local-farmers-backendd/src/routes/products.js:8-36 | The catalogue is the join of the stored products with the stored vendors. The answer is 200 exactly when both files can be read and hold their arrays, and 500 otherwise. |
| ProductCatalog.Hydrate | local-farmers-backendd/src/routes/vendor.js:92-109 | Each product that lacks a complete photo gets the one found for its name, if any. Every other product is unchanged. |
| ProductCatalog.ImageUpdates | local-farmers-backendd/src/routes/vendor.js:92-109 | Only ids of products that needed a photo are updated, and every product that needed and got one is. |
| ProductCatalog.MergeImages | local-farmers-backendd/src/routes/vendor.js:111-121 | Entries whose id has an update get that image; every other entry and every other field is kept. |
| ProductCatalog.MergeIdempotent | local-farmers-backendd/src/routes/vendor.js:111-121 | Merging the same updates twice is merging once. |
| ProductCatalog.HydrateIsMerge | local-farmers-backendd/src/routes/vendor.js:92-121 | With unique ids, merging the update map into the list reproduces what the handler answered. |
| ProductCatalog.UpdateOfUnique | local-farmers-backendd/src/routes/vendor.js:95-105 | With unique ids, a product's id is updated exactly when the product needed and got a photo, and then with that photo. |
| Markets.ProjectAll | local-farmers-backendd/src/routes/markets.js:50-71 | One projected product per stored product, in order, keeping its listed fields. The vendor summary is that of the last vendor with its id, or null. |
| Markets.SelectProducts | local-farmers-backendd/src/routes/markets.js:157-173 | A market lists at most six products, all from the pool. When any product qualifies (no coordinates on either side, or within 60 km), it lists the first min(6, qualifying) qualifying products in pool order; otherwise it lists the first six of the pool. |
| Markets.NoCoordinatesListsFirstSix | local-farmers-backendd/src/routes/markets.js:157-173 | A market without coordinates lists the first six products, regardless of distance. |
| Markets.EnoughNearbyFillsSix | local-farmers-backendd/src/routes/markets.js:157-190 | When six or more products qualify, exactly six qualifying products are listed. |
| Markets.NewsImageQuery | local-farmers-backendd/src/routes/markets.js:122-129 | The photo query for a news item is never empty. For a top commodity it is the lowercased commodity. Otherwise it is the commodity when truthy, else `legume proaspete`. |
| Markets.WithImages | local-farmers-backendd/src/routes/markets.js:117-133 | Each news value is kept with a photo, and a null value stays null. |
| Markets.Present | local-farmers-backendd/src/routes/markets.js:188 | The news kept are exactly the non-null items. |
| Markets.MarketNews | local-farmers-backendd/src/routes/markets.js:188 | A market shows at most three news items: a prefix of the non-null ones. |
| Markets.SoilViewOf | local-farmers-backendd/src/routes/markets.js:181-187 | Null soil stays null. A soil report shows its pH, organic carbon and quality score. |
| Markets.Enrich | local-farmers-backendd/src/routes/markets.js:175-191 | A market view keeps the market's id, name and counts, shares the statistics, and shows at most three news items and the products the selection rule picks for that market. |
| Markets.FetchNews | local-farmers-backendd/src/routes/markets.js:104-115 | One cached news value per commodity. |
| Markets.SoilOf | local-farmers-backendd/src/routes/markets.js:145-155 | A market without coordinates gets null and leaves the disk untouched. A market with coordinates gets the soil value cached for seven days under `soil:<lat>,<lng>`: the live cached value, otherwise the fetched one, stored when not null. |
| Markets.CachedValue | local-farmers-backendd/src/lib/cacheStore.js:55-67 | One cached lookup answers a live cached value without fetching. On a miss it answers the fetched value and stores it when it is not null. Failures of the cache file or of the fetcher propagate. |
| Markets.FetchSoil | local-farmers-backendd/src/routes/markets.js:143-155 | One soil value per market, in order. Each market without coordinates gets null. |
| Markets.ReadInputs | local-farmers-backendd/src/routes/markets.js:41-49 | The markets, vendors and products are read in that order, each missing document created empty. |
| Markets.WriteBackImages | local-farmers-backendd/src/routes/markets.js:92-102 | With no photos found nothing is written. Otherwise the stored products get the found photos merged in, and the write succeeds exactly when the products file can be read, is not `null` and can be written. |
| Markets.FetchFeeds | local-farmers-backendd/src/routes/markets.js:104-155 | News for each top commodity, then the statistics, then soil for each market, each stage on the disk the previous one left. The feeds are exactly those stages' answers, with photos added to the news. Markets without coordinates get no soil. |
| Markets.FetchStats | local-farmers-backendd/src/routes/markets.js:135-141 | The statistics are the FAOSTAT value cached for thirty days under the key for tomatoes in Romania. |
| Markets.StatsFromCache | local-farmers-backendd/src/routes/markets.js:135-141 | While the statistics are cached and live, the overview shows the cached value whatever the fetcher would produce. |
| Markets.BuildViews | local-farmers-backendd/src/routes/markets.js:143-193 | There is one view per market, in order. All views share the news and the statistics, and each view lists the products the selection rule picks for its market from the shared pool. |
| Markets.ListMarkets | local-farmers-backendd/src/routes/markets.js:39-199 | The overview has one view per stored market, in order. A 200 answers exactly the views built from the fetched feeds: each view shows the fetched news (at most three items), the shared statistics, its market's soil value and the products the selection rule picks from the hydrated pool. A market without coordinates has no soil. The answer is 200 exactly when the input files can be read, the found photos can be written back and the feeds can be fetched; any failure gives 500. |
| Pexels.SearchRequest | local-farmers-backendd/src/lib/external/pexels.js:17-30 | A request is made exactly when an API key is set, with that key and the configured or default base URL. The query, page size and, only when non-empty, the locale are sent as parameters. |
| Pexels.NormalizePhoto | local-farmers-backendd/src/lib/external/pexels.js:3-15 | A photo keeps its id and page URL. A missing alt text becomes the default. The photographer, the photographer link and each of the three image sizes keep a non-empty delivered text and are null otherwise, all sizes null when no source set was delivered. |
| Pexels.NormalizeKeepsNormalized | local-farmers-backendd/src/lib/external/pexels.js:3-15 | A photo already in normal form, offered again as a raw photo, normalises to itself, so normalisation loses nothing it keeps. |
| Pexels.NormalizePhotos | local-farmers-backendd/src/lib/external/pexels.js:3-15 | Every photo is normalised, in order. |
| Pexels.FetchPexels | local-farmers-backendd/src/lib/external/pexels.js:17-60 | The answer always carries the query. Its photos are the normalised delivered photos when a key is set and the reply has a photo array with no null element. Otherwise there are none: failed or timed-out requests, and a null element that makes normalising throw (a malformed base URL is left out). |
| Pexels.NullPhotoEmptiesAnswer | local-farmers-backendd/src/lib/external/pexels.js:48-57 | A single null element anywhere in the photo array empties the whole answer. |
| Faostat.NumericOrNull | local-farmers-backendd/src/lib/external/faostat.js:12-21 | A finite number, or text converting to one, gives that number. Anything else gives null. |
| Faostat.NonZeroOrNull | local-farmers-backendd/src/lib/external/faostat.js:51-54 | Zero counts as missing. |
| Faostat.PointOf | local-farmers-backendd/src/lib/external/faostat.js:50-59 | A record yields a point exactly when its first truthy year field and its first truthy value field are non-zero numbers, and then yields those numbers. |
| Faostat.ZeroValueDropped | local-farmers-backendd/src/lib/external/faostat.js:53-56 | A record whose value is zero yields no point, even with a valid year. |
| Faostat.Points | local-farmers-backendd/src/lib/external/faostat.js:49-60 | The points are exactly those the records yield. |
| Faostat.PointsConcat | local-farmers-backendd/src/lib/external/faostat.js:49-60 | The points of two consecutive runs of records are the points of the first run followed by those of the second, so the points keep record order. |
| Faostat.Insert | local-farmers-backendd/src/lib/external/faostat.js:61 | Inserting into a year-sorted series keeps it sorted and makes it one point longer. It starts with the new point or with the old first point. |
| Faostat.InsertPermutes | local-farmers-backendd/src/lib/external/faostat.js:61 | Inserting adds exactly the new point: the result is a permutation of the series plus that point. |
| Faostat.SortByYear | local-farmers-backendd/src/lib/external/faostat.js:61 | The sorted series is a permutation of the points, ascending by year. |
| Faostat.InsertStable | local-farmers-backendd/src/lib/external/faostat.js:61 | Inserting puts the new point after the points of its year already present. |
| Faostat.SortIsStable | local-farmers-backendd/src/lib/external/faostat.js:61 | The sort is stable: the points of any one year keep their record order. |
| Faostat.KeepsLatest | local-farmers-backendd/src/lib/external/faostat.js:62 | Cutting to the last six points keeps the latest years. |
| Faostat.SeriesOf | local-farmers-backendd/src/lib/external/faostat.js:49-62 | The series is sorted by year, has min(6, points) points, and is a sub-multiset of the records' points. |
| Faostat.CutIsSubMultiset | local-farmers-backendd/src/lib/external/faostat.js:62 | Keeping the last six points keeps only points of the series being cut. |
| Faostat.CutKeepsLatest | local-farmers-backendd/src/lib/external/faostat.js:61-62 | Of a year-sorted series, every point the cut drops is no later than every point it keeps. |
| Faostat.SeriesKeepsLatest | local-farmers-backendd/src/lib/external/faostat.js:49-62 | Every point of the records that the series leaves out is no later than every point it keeps. |
| Faostat.UsableRows | local-farmers-backendd/src/lib/external/faostat.js:38-47 | Rows are used only from a delivered, non-empty records array (`data`, else `results`) with no null element. |
| Faostat.FetchFaostat | local-farmers-backendd/src/lib/external/faostat.js:23-78 | The answer always names the item and country and has a non-empty, year-sorted series. A failure, no usable rows or no points give the fallback; otherwise the series comes from the records. |
| ProductMedia.NormalizeName | local-farmers-backendd/src/lib/productMedia.js:7-14 | A normalised name has only lowercase letters, digits and single spaces, and is trimmed. |
| ProductMedia.NormalizeFixed | local-farmers-backendd/src/lib/productMedia.js:7-14 | Text already in normal form is its own normalisation. |
| ProductMedia.NormalizeIdempotent | local-farmers-backendd/src/lib/productMedia.js:7-14 | Normalising twice is normalising once. |
| ProductMedia.StripUnitsClean | local-farmers-backendd/src/lib/productMedia.js:19 | After unit stripping no unit token remains as a whole word. |
| ProductMedia.StripUnitsFixed | local-farmers-backendd/src/lib/productMedia.js:19 | Text without unit words is left as it is. |
| ProductMedia.CleanQuery | local-farmers-backendd/src/lib/productMedia.js:16-21 | A cleaned query has no digits and no unit word, and is single-spaced and trimmed. |
| ProductMedia.CleanQueryFixed | local-farmers-backendd/src/lib/productMedia.js:16-21 | Text that is already clean is left as it is. |
| ProductMedia.CleanKeepsOthers | local-farmers-backendd/src/lib/productMedia.js:16-21 | Every non-space character of a cleaned query occurs in the text cleaned. |
| ProductMedia.QuantityAndUnitCleanToEmpty | local-farmers-backendd/src/lib/productMedia.js:16-21 | A name that is only a quantity and a unit (`2 kg`) cleans to the empty query. |
| ProductMedia.StepKeyInjective | local-farmers-backendd/src/lib/productMedia.js:47 | In one locale, different queries have different de-duplication keys. |
| ProductMedia.Dedupe | local-farmers-backendd/src/lib/productMedia.js:45-53 | De-duplication keeps only listed steps with new keys, no two sharing a key, and keeps the first step when new. |
| ProductMedia.DedupeKeys | local-farmers-backendd/src/lib/productMedia.js:45-53 | Every new key survives: the kept steps carry exactly the keys of the listed steps that were not already seen. |
| ProductMedia.DedupeConcat | local-farmers-backendd/src/lib/productMedia.js:45-53 | De-duplicating two runs of steps is de-duplicating the first, then the second against the keys seen so far: the filter keeps the first step of each key, in order. |
| ProductMedia.DedupeSingle | local-farmers-backendd/src/lib/productMedia.js:45-53 | A single step is kept exactly when its key is new. |
| ProductMedia.DedupeFresh | local-farmers-backendd/src/lib/productMedia.js:45-53 | Steps whose keys are new and pairwise different are all kept, in order. |
| ProductMedia.CandidatesEndWithFallback | local-farmers-backendd/src/lib/productMedia.js:28-43 | The candidate queries all use `ro-RO`, end with the fallback, and name it nowhere before the last two places. |
| ProductMedia.ResolveQueryPlan | local-farmers-backendd/src/lib/productMedia.js:23-54 | A missing or non-text name plans only the fallback. Otherwise the plan is the trimmed name (when non-empty), then its normalisation (when non-empty and different), then its cleaning (when non-empty and different from the normalisation), in that order, and then the fallback unless one of them already is the fallback. No query repeats, the locale is `ro-RO`, and the plan ends with the fallback. |
| ProductMedia.TriedDistinct | local-farmers-backendd/src/lib/productMedia.js:33-41 | The name, its normalisation and its cleaning, as pushed, have pairwise different keys. |
| ProductMedia.StepsShape | local-farmers-backendd/src/lib/productMedia.js:33-53 | De-duplicating the pushed candidates keeps every pushed query in order and adds the fallback exactly when no pushed query is the fallback. |
| ProductMedia.PlanShape | local-farmers-backendd/src/lib/productMedia.js:28-53 | The plan of a trimmed name is its pushed candidates, in push order, followed by the fallback unless one of them is the fallback. |
| ProductMedia.CleanedIsNormal | local-farmers-backendd/src/lib/productMedia.js:7-21 | When cleaning the normalised name gives back the name, normalising had already given it back. |
| ProductMedia.PlanQueriesDistinct | local-farmers-backendd/src/lib/productMedia.js:45-53 | The plan repeats no query. |
| ProductMedia.PlanQueriesFromCandidates | local-farmers-backendd/src/lib/productMedia.js:28-43 | Each planned query is the name, its normalisation, its cleaning or the fallback, and a non-empty name comes first. |
| ProductMedia.PlanEndsWithFallback | local-farmers-backendd/src/lib/productMedia.js:43-53 | The fallback survives de-duplication as the last step. |
| ProductMedia.FallbackIsClean | local-farmers-backendd/src/lib/productMedia.js:25 | The fallback query is its own normalisation and its own cleaning. |
| ProductMedia.GetCachedPexels | local-farmers-backendd/src/lib/productMedia.js:56-70 | A cached search with photos answers its first photo. Otherwise a fresh one-photo search with photos is cached for a week and its first photo answered. Otherwise the answer is null. |
| ProductMedia.FreshPhotoIsCached | local-farmers-backendd/src/lib/productMedia.js:56-70 | A freshly fetched photo is answered again from the cache, whatever the service replies, until the week is over. |
| ProductMedia.TryPlan | local-farmers-backendd/src/lib/productMedia.js:73-80 | The first step that finds a photo ends the search. An empty plan finds nothing. |
| ProductMedia.ColdCacheFindsFirstSearchPhoto | local-farmers-backendd/src/lib/productMedia.js:72-80 | On a cache without photos for the plan, the search answers the first photo any step's search returns. |
| ProductMedia.ImageOf | local-farmers-backendd/src/lib/productMedia.js:81-93 | An image exists exactly when the photo has a medium, large or landscape URL (first present wins). The alt text falls back to `<name> photo`, and absent credits become null. |
| ProductMedia.CompletePhotoSatisfiesCatalog | local-farmers-backendd/src/lib/productMedia.js:81-93 | A photo with a size, a page URL and a photographer gives an image after which the product needs no new photo. |
| ProductMedia.ImageFound | local-farmers-backendd/src/lib/productMedia.js:81-93 | A store failure during the search propagates with its disk, and finding no photo gives null. A found photo gives its image record. |
| ProductMedia.ColdCacheImage | local-farmers-backendd/src/lib/productMedia.js:72-94 | On a cold cache the image is that of the first photo any planned search returns. |
| ProductMedia.GetProductImage | local-farmers-backendd/src/lib/productMedia.js:71-93 | The image is that of the first photo the plan's searches find, or null. A store failure propagates with its disk. An image always carries a URL and an alt text. |
| UsdaLocalFood.NumberRun | local-farmers-backendd/src/lib/external/usdaLocalFood.js:4 | The leading run holds only digits and dots, and is followed by neither. |
| UsdaLocalFood.ParseMarketName | local-farmers-backendd/src/lib/external/usdaLocalFood.js:3-12 | The name is always trimmed. A distance is found exactly when a non-empty digit-and-dot run is followed by whitespace and the rest is a single line; then the distance is that run converted and the name is the rest, trimmed. Without one the name is the whole text, trimmed. |
| UsdaLocalFood.ParseDistanceAndName | local-farmers-backendd/src/lib/external/usdaLocalFood.js:3-12 | A distance, a space and a one-line trimmed name parse back into that distance and name. |
| UsdaLocalFood.PlainNameHasNoDistance | local-farmers-backendd/src/lib/external/usdaLocalFood.js:3-12 | A name not starting with a digit or a dot has no distance. |
| UsdaLocalFood.SearchFor | local-farmers-backendd/src/lib/external/usdaLocalFood.js:43-51 | A truthy zip searches by zip. Otherwise two non-zero coordinates search by location. Otherwise, and only then, nothing is searched. |
| UsdaLocalFood.AddressOf | local-farmers-backendd/src/lib/external/usdaLocalFood.js:31-38 | A falsy id or a failed detail request leaves the address null. A delivered non-empty address is the address; an address given is always such a delivered one. |
| UsdaLocalFood.MarketRecords | local-farmers-backendd/src/lib/external/usdaLocalFood.js:57-67 | There is one record per result, in order, with the result's id, its parsed name and distance, and its address. |
| UsdaLocalFood.ResultsOf | local-farmers-backendd/src/lib/external/usdaLocalFood.js:53-55 | At most the first ten results of a delivered `results` array are used. None are used when the payload has no array or the search failed. |
| UsdaLocalFood.FetchUsdaMarkets | local-farmers-backendd/src/lib/external/usdaLocalFood.js:40-74 | The answer is always a list of at most ten markets with non-empty names. No search, or a name that throws, gives the empty list. Otherwise the named records of the first ten results are kept in order. |
| UsdaLocalFood.AnsweredAreFirstTen | local-farmers-backendd/src/lib/external/usdaLocalFood.js:54-70 | Every market answered comes from the first ten results, and every such result whose name parses to a non-empty one is answered. |
| ExternalRoutes.ToFinite | local-farmers-backendd/src/routes/external.js:14-17 | The conversion gives the number when it is finite and null otherwise. |
| ExternalRoutes.Run | local-farmers-backendd/src/routes/external.js:19-117 | A rejected request gets 400 with its message and nothing touched. Otherwise the cached-or-fetched value is answered with 200, and any store or fetch failure gives 500. |
| ExternalRoutes.RunAnswersWhenStoreUsable | local-farmers-backendd/src/routes/external.js:28-35 | With a working store the route answers the cached value when there is one, otherwise what the fetcher produced. |
| ExternalRoutes.RunRepeatsWithinTtl | local-farmers-backendd/src/routes/external.js:28-35 | A value fetched on a miss is answered again within its lifetime, whatever the fetcher would now produce. |
| ExternalRoutes.SoilPlan | local-farmers-backendd/src/routes/external.js:19-39 | The request is rejected exactly when a coordinate is not a finite number. Otherwise the soil report is cached for seven days under `soil:<lat>,<lng>`. |
| ExternalRoutes.ResolveZip | local-farmers-backendd/src/routes/external.js:46-48 | A truthy zip is used as given. Otherwise five or more digits in `location` stand in for it. Otherwise there is no zip. |
| ExternalRoutes.NonZero | local-farmers-backendd/src/routes/external.js:65-66 | A zero coordinate becomes null. |
| ExternalRoutes.UsdaMarketsPlan | local-farmers-backendd/src/routes/external.js:41-74 | The request is rejected exactly when there is neither a zip nor two finite coordinates. The market list is cached for a day under `zip:<zip>`, or under `coords:<lat>,<lng>` without a zip. |
| ExternalRoutes.LocationDigitsServeAsZip | local-farmers-backendd/src/routes/external.js:46-64 | The digits found in `location` are both the search zip and the cache key. |
| ExternalRoutes.ZeroLatitudeSearchesNothing | local-farmers-backendd/src/routes/external.js:50-67 | A latitude of 0 passes validation but no search is made, and the empty list is what gets cached under the coordinates. |
| ExternalRoutes.UsdaMarketsAlwaysAnswer | local-farmers-backendd/src/routes/external.js:41-74 | With a working store a validated request always answers 200, with a possibly empty list. |
| ExternalRoutes.NewsPlan | local-farmers-backendd/src/routes/external.js:76-95 | A falsy commodity is rejected. Otherwise the news is cached for six hours under `commodity:<c>`. |
| ExternalRoutes.NewsKeysSeparateCommodities | local-farmers-backendd/src/routes/external.js:83 | Different commodities never share a cache entry. |
| ExternalRoutes.FaostatPlan | local-farmers-backendd/src/routes/external.js:97-117 | A falsy item or country is rejected. Otherwise the statistics are cached for thirty days under `item:<i>\|country:<c>`. |
| ExternalRoutes.FaostatColdAnswer | local-farmers-backendd/src/routes/external.js:97-117 | On a miss the route answers 200 with a year-sorted, non-empty series for the item and country, however the upstream request ends. |
| ExternalRoutes.FaostatRepeatsWithinTtl | local-farmers-backendd/src/routes/external.js:97-117 | A series fetched on a miss is answered again for thirty days, even when the upstream service later fails. |
| ExternalRoutes.PhotoQuery | local-farmers-backendd/src/routes/external.js:121 | The search text is `q` when truthy, otherwise `farmers market`. |
| ExternalRoutes.SafePerPage | local-farmers-backendd/src/routes/external.js:122-123 | The page size is always positive: the requested number when finite and positive, otherwise 1. |
| ExternalRoutes.PhotoRequest | local-farmers-backendd/src/routes/external.js:131 | With an API key the search sends the query, the safe page size and the `ro-RO` locale. |
| ExternalRoutes.PexelsRoute | local-farmers-backendd/src/routes/external.js:119-145 | A cached search with photos is answered as is. Otherwise the fresh search is answered, and cached for a day only when it has photos. Store failures give 500. |
| ExternalRoutes.PexelsWithoutKey | local-farmers-backendd/src/routes/external.js:126-141 | Without an API key a miss answers an empty search and stores nothing. |
| ExternalRoutes.PexelsRepeatsWithinTtl | local-farmers-backendd/src/routes/external.js:119-145 | A search with photos is answered again from the cache for a day, whatever the service would now reply. |
| ExternalRoutes.PhotoKeyMeetsProductKey | local-farmers-backendd/src/routes/external.js:125 | A photo search for `product:ro-RO:<x>` is cached under the same key as the product-photo search for `<x>:<n>`. The two caches share one file. |
| ExternalRoutes.ProductImageRoute | local-farmers-backendd/src/routes/external.js:147-159 | A falsy name is rejected. Otherwise the answer is the name with the product image found for it, or 500 on a store failure. |
| ExternalRoutes.ProductImageCold | local-farmers-backendd/src/routes/external.js:147-159 | On a cold cache the route answers the image of the first photo any planned search returns, or null. |
| Quality.QualityLabel | local-farmers-frontendd/src/lib/quality.js:1-15 | Non-numbers and NaN are `unknown`. Finite scores fall into weak (below 40), ok (40–60), good (60–80) and `awsome` (80 and up), each as an if-and-only-if. +∞ is `awsome` and −∞ is `weak`. |
| Quality.LabelTextInjective | local-farmers-frontendd/src/lib/quality.js:1-15 | Different labels show different texts. |
| Quality.RankMonotonic | local-farmers-frontendd/src/lib/quality.js:1-15 | A higher score never gets a lower band. |
| ApiClient.ApiBase | local-farmers-frontendd/src/lib/api.js:1-4 | The base is the configured URL when non-empty, else `http://localhost:3000`, with one trailing slash removed. |
| ApiClient.ApiBaseStripsOneSlash | local-farmers-frontendd/src/lib/api.js:1-4 | Only one trailing slash is removed. |
| ApiClient.ApiBaseDefault | local-farmers-frontendd/src/lib/api.js:1-4 | Without a configured URL the base is the local default. |
| ApiClient.ApiUrl | local-farmers-frontendd/src/lib/api.js:8-10 | A path starting with `http` is used as is. Otherwise it is the base, one `/` and the path without its own leading `/`. |
| ApiClient.LeadingSlashOptional | local-farmers-frontendd/src/lib/api.js:8-10 | The leading slash of a relative path makes no difference. |
| ApiClient.HttpPrefixedPathNotJoined | local-farmers-frontendd/src/lib/api.js:8-10 | A relative path that merely begins with the letters `http` is not joined to the base. |
| ApiClient.FetchOptions | local-farmers-frontendd/src/lib/api.js:11-22 | Credentials default to `include`. Every other caller option reaches `fetch` with its value, `method` and a kept `body` included; only a `body` on a GET without a body is dropped. The caller's headers sit over a JSON content type. |
| ApiClient.FetchOptionsIdempotent | local-farmers-frontendd/src/lib/api.js:11-22 | Building options from built options changes nothing. |
| ApiClient.ApiFetch | local-farmers-frontendd/src/lib/api.js:6-25 | An absolute URL is requested as given, and a relative path hangs off the base with one slash. Credentials default to `include`. Every other caller option, `method` included, is passed on with its value, and a GET without a body sends no `body`. The headers are the caller's plus `Content-Type`, which is JSON unless the caller sets it. |
| ApiClient.LowerCaseContentTypeKeepsDefault | local-farmers-frontendd/src/lib/api.js:14-17 | A caller's `content-type` header sits beside the default `Content-Type` instead of replacing it, because header names are case-sensitive keys. |
| Text.Trim | local-farmers-backendd/src/routes/auth.js:18 | Trimming gives the middle of the text between its leading and trailing whitespace. The result starts and ends with non-whitespace. |
| Text.JsLengthConcat | local-farmers-backendd/src/routes/auth.js:28 | The JavaScript length of a concatenation is the sum of the lengths. |
| Text.JsLengthOfBmp | local-farmers-backendd/src/routes/auth.js:28 | Text inside the basic multilingual plane has as many code units as characters. |
| Text.JsLengthOfAstral | local-farmers-backendd/src/routes/auth.js:28 | Text of characters outside the basic multilingual plane has two code units per character. |
| Text.Squish | local-farmers-backendd/src/lib/productMedia.js:13-14 | Collapsing and trimming whitespace gives single-spaced, trimmed text. |
| Text.SquishKeepsText | local-farmers-backendd/src/lib/productMedia.js:13-14 | Squishing keeps every non-space character. |
| Text.SquishFixed | local-farmers-backendd/src/lib/productMedia.js:13-14 | Single-spaced, trimmed text squishes to itself. |
| Text.CollapseKeepsOrder | local-farmers-backendd/src/lib/productMedia.js:13 | Collapsing whitespace runs keeps the non-whitespace characters in order. |
| Text.TrimKeepsOrder | local-farmers-backendd/src/lib/productMedia.js:14 | Trimming keeps the non-whitespace characters in order. |
| Text.SquishKeepsOrder | local-farmers-backendd/src/lib/productMedia.js:13-14 | Collapsing and trimming keeps exactly the non-whitespace characters, in order. |
| Text.DigitsOf | local-farmers-backendd/src/routes/external.js:47 | The digits of the text, and only they, in order. |
| Text.DigitsOfConcat | local-farmers-backendd/src/routes/external.js:47 | The digits of a concatenation are the digits of the first part followed by those of the second, so digits keep their order. |
| Text.Lower | local-farmers-backendd/src/routes/markets.js:124 | Lowercasing maps each character to its lowercase form. |

## Left out

- **Unicode.** Strings are ASCII-only in their case and whitespace behaviour (lengths, by contrast, are counted in UTF-16 code units, as JavaScript does). Unicode `\s`, Unicode case mapping, and the NFD decomposition with accent stripping in `normalizeName` (`lib/productMedia.js:10-11`) are not modelled.
- **Floating point.** Numbers are mathematical reals plus NaN and ±∞. The haversine distance in `routes/markets.js:23-37` is a parameter, and rating rounding (`toFixed(1)`) is not modelled. `ProductCatalog`/`VendorRoutes` keep the rating as given.
- **Host conversions.** `Number(text)`, `String(number)` and the rendering of arrays in query strings (`objectText`) are host conversions passed in as parameters, not defined. Objects and arrays convert to NaN in `JsValues.ToNumber`.
- **Date parsing.** ISO date strings are modelled as optional millisecond timestamps; an unparsable date is an absent one.
- **Crypto.** Password hashing with scrypt, random salts, tokens and UUIDs are parameters. The key comparison of `verifyPassword` is a parameter, and hex decoding and its length check are inside it.
- **Network.** Fetch, timeouts, URL encoding and environment variables are parameters describing how each exchange ended. The soil and market-news clients (`lib/external/soilgrids.js`, `lib/external/usdaMyMarketNews.js`) are not part of this model; their results are parameters.
- **Directory creation.** `mkdir` and `ensureDir` always succeed in the model.
- **Serialisation and cookie options.** JSON serialisation (a NaN distance is written as `null`) and the HTTP cookie attributes other than name, value and lifetime are not modelled.
- **Concurrency.** The file store treats the calls on one path as serialised. That the chaining in `lib/fileStore.js:24-33` runs the actions one at a time, each after its predecessor settles, is an assumption of the lock's event model (a `Finish` always ends the earliest unfinished call), not derived from promise semantics; `FileLock.QueueIsFifo` states what follows from it. Interleavings of calls on different paths, and the concurrent `Promise.all` photo lookups and cache reads in the vendor and market routes, are modelled as running one after another in list order.
- **Clock.** `Markets.ListMarkets` uses one clock reading for every cache lookup and store.
- ProductMedia.GetCachedPexels: uses one clock reading for the cache lookup and for the store after the search, whereas the source reads the clock again when it stores (`lib/productMedia.js:58,64`), so a stored entry's expiry is measured from the lookup time.
- ProductMedia.TryPlan: uses the same clock reading for every step of the plan and every cache lookup and store in it; the source reads the clock anew at each one.
- VendorRoutes.ListOwnProducts: the photo lookup is the parameter `imageFor`, which never fails and does not write the photo cache. In the source `getProductImage` can throw (a cache file that cannot be read or written, `lib/productMedia.js:58,64`), which makes the route answer 500 (`routes/vendor.js:102`); that path and the cache writes are not modelled.
- VendorRoutes.CreateProduct: the photo lookup is the parameter `imageFor`, which never fails and does not write the photo cache. In the source the lookup can throw and the route then answers 500 (`routes/vendor.js:148`); that path and the cache writes are not modelled.
- ExternalRoutes.FaostatPlan: takes the statistics client as never throwing. A malformed `FAOSTAT_BASE_URL` makes `new URL` throw before the client's `try` (`lib/external/faostat.js:25`), and the route would then answer 500 through its error handler; that path is not modelled.
- Faostat.FetchFaostat: assumes the configured base URL parses. A malformed one throws at `lib/external/faostat.js:25`, outside the `try`, instead of giving the fallback series.
- Pexels.FetchPexels: assumes the configured base URL parses. With a key set, a malformed `PEXELS_BASE_URL` throws at `lib/external/pexels.js:25`, outside the `try`, instead of answering no photos.
- **Product-photo lookup inside other routes.** In `Markets` and `ProductCatalog` the lookup is a parameter `imageFor`, and its cache effects are not threaded. `ProductMedia.GetProductImage` and `ExternalRoutes.ProductImageRoute` model it with its cache.
- **Null array elements.** A `null` element in the USDA `results` array makes the client throw and answer the empty list; the model takes results as records with an id and a name.
- **Wiring and pages.** The application wiring (`app.js`, `server.js`), the cookie parser and the React pages are not part of this model.
- Markets.FetchNews: states only that one value per commodity is answered. Each value is what `Markets.CachedValue` gives for its key on the disk the previous lookups left, but that is not repeated in this contract.
- Markets.FetchSoil: states one value per market and null without coordinates. Each other value is what `Markets.SoilOf` gives on the disk the previous lookups left, but that is not repeated in this contract.

Where the written behaviour and the code disagree, the model follows the code. In particular, a transform of `updateJson` that returns a bare value, or an object without a `data` member, has the current content written back unchanged (`lib/fileStore.js:70-75`), not that value. Also, the lock-table entry of a path is never removed (see Findings).

## Findings

| source | as written | input that shows it | evidently intended | confidence | as-written member | corrected member |
|---|---|---|---|---|---|---|
| local-farmers-backendd/src/lib/fileStore.js:29-38 | The lock table stores the derived promise `previous.then(() => current)`, but the cleanup deletes the entry only when it equals `current`, which it never does. | One `withFileLock` call on a fresh path that completes leaves the path's entry in the table for good. | The entry is removed when the last pending call on the path finishes, so the table drains when the path is idle. | not executed | FileLock.OneCallLeaksEntry | FileLock.CorrectedDrainsWhenIdle |

=== FILE: api_client.dfy ===
/** The frontend's request helper: where the API lives, how a path becomes a
    URL, and the options every request is sent with.  The request itself is
    not modelled; `ApiFetch` returns the URL and options it would pass on. */
module ApiClient {
  import opened Wrappers
  import opened JsValues

  const DefaultApiBase: string := "http://localhost:3000"

  predicate StartsWith(s: string, prefix: string) {
    |prefix| <= |s| && s[..|prefix|] == prefix
  }

  predicate EndsWithSlash(s: string) {
    |s| > 0 && s[|s| - 1] == '/'
  }

  /** `getApiBase`: the configured URL when non-empty, otherwise the local
      default, without one trailing slash. */
  function ApiBase(configured: Option<string>): (r: string)
    ensures var raw := if configured.Some? && configured.value != "" then configured.value else DefaultApiBase;
      && (EndsWithSlash(raw) ==> r + "/" == raw)
      && (!EndsWithSlash(raw) ==> r == raw)
  {
    var raw := if configured.Some? && configured.value != "" then configured.value else DefaultApiBase;
    if EndsWithSlash(raw) then raw[..|raw| - 1] else raw
  }

  /** Only one trailing slash is removed: a base configured with two keeps one. */
  lemma ApiBaseStripsOneSlash(u: string)
    ensures ApiBase(Some(u + "//")) == u + "/"
  {
    assert (u + "//")[..|u + "//"| - 1] == u + "/";
  }

  /** Without a configured URL the base is the local default. */
  lemma ApiBaseDefault(configured: Option<string>)
    requires configured.None? || configured.value == ""
    ensures ApiBase(configured) == DefaultApiBase
  {
  }

  /** The URL a path is requested at: a path starting with `http` as is;
      otherwise the base, one `/`, and the path without its own leading `/`. */
  function ApiUrl(base: string, path: string): (url: string)
    ensures StartsWith(path, "http") ==> url == path
    ensures !StartsWith(path, "http") ==>
              url == base + "/" + (if StartsWith(path, "/") then path[1..] else path)
  {
    if StartsWith(path, "http") then path
    else if StartsWith(path, "/") then base + path
    else base + "/" + path
  }

  /** The leading slash of a relative path is optional. */
  lemma LeadingSlashOptional(base: string, path: string)
    requires !StartsWith(path, "http") && !StartsWith(path, "/")
    ensures ApiUrl(base, "/" + path) == ApiUrl(base, path)
  {
    assert ("/" + path)[1..] == path;
  }

  /** A relative path that merely begins with the letters `http` is taken for
      an absolute URL and not joined to the base. */
  lemma HttpPrefixedPathNotJoined(base: string, rest: string)
    ensures ApiUrl(base, "http" + rest) == "http" + rest
  {
    assert ("http" + rest)[..4] == "http";
  }

  /** The options a caller passes: every option other than `headers` in
      `fields` (an option given as `undefined` maps to `Undefined`), and the
      caller's headers, empty when absent. */
  datatype Options = Options(fields: map<string, Value>, headers: map<string, string>)

  /** `options.body === undefined && method === 'GET'`. */
  predicate DropsBody(o: Options) {
    && ("body" !in o.fields || o.fields["body"] == Undefined)
    && "method" in o.fields && o.fields["method"] == Str("GET")
  }

  /** The options `apiFetch` sends: credentials `include` unless the caller
      sets them, the caller's other options, the caller's headers over a
      JSON content type, and no `body` entry for a GET without a body. */
  function FetchOptions(o: Options): (r: Options)
    ensures "credentials" in r.fields
    ensures r.fields["credentials"] == if "credentials" in o.fields then o.fields["credentials"] else Str("include")
    ensures forall k :: k in o.fields && k != "headers" && !(k == "body" && DropsBody(o)) ==>
              k in r.fields && r.fields[k] == o.fields[k]
    ensures forall k :: k in r.fields ==> k != "headers" && (k in o.fields || k == "credentials")
    ensures "body" in r.fields <==> "body" in o.fields && !DropsBody(o)
    ensures r.headers.Keys == o.headers.Keys + {"Content-Type"}
    ensures forall h :: h in o.headers ==> r.headers[h] == o.headers[h]
    ensures "Content-Type" !in o.headers ==> r.headers["Content-Type"] == "application/json"
  {
    var spread := (map["credentials" := Str("include")] + o.fields) - {"headers"};
    var fields := if DropsBody(o) then spread - {"body"} else spread;
    Options(fields, map["Content-Type" := "application/json"] + o.headers)
  }

  /** Building the options from options it built changes nothing. */
  lemma FetchOptionsIdempotent(o: Options)
    ensures FetchOptions(FetchOptions(o)) == FetchOptions(o)
  {
    var r := FetchOptions(o);
    var rr := FetchOptions(r);
    assert DropsBody(r) ==> "body" !in r.fields;
    assert rr.fields == r.fields;
    assert rr.headers == r.headers;
  }

  /** Header names are case-sensitive keys: a caller's `content-type` sits
      beside the default `Content-Type` instead of replacing it. */
  lemma LowerCaseContentTypeKeepsDefault(o: Options)
    requires "content-type" in o.headers && "Content-Type" !in o.headers
    ensures var r := FetchOptions(o);
      r.headers["Content-Type"] == "application/json" && r.headers["content-type"] == o.headers["content-type"]
  {
  }

  /** A request: the URL and the options handed to `fetch`. */
  datatype Request = Request(url: string, options: Options)

  /** `apiFetch(path, options)` with the configured API URL `configured`. */
  function ApiFetch(configured: Option<string>, path: string, o: Options): (r: Request)
    // an absolute URL is requested as given
    ensures StartsWith(path, "http") ==> r.url == path
    // a relative path hangs off the base with exactly one slash between them
    ensures !StartsWith(path, "http") ==>
              r.url == ApiBase(configured) + "/" + (if StartsWith(path, "/") then path[1..] else path)
    // cookies go along unless the caller decides otherwise
    ensures "credentials" in r.options.fields
    ensures r.options.fields["credentials"] ==
              if "credentials" in o.fields then o.fields["credentials"] else Str("include")
    // the caller's headers win over the JSON content type
    ensures forall h :: h in o.headers ==> h in r.options.headers && r.options.headers[h] == o.headers[h]
    ensures "Content-Type" in r.options.headers
    ensures "Content-Type" !in o.headers ==> r.options.headers["Content-Type"] == "application/json"
    ensures "body" in r.options.fields <==> "body" in o.fields && !DropsBody(o)
    // every other option the caller gives, `method` and a kept `body` included, reaches `fetch` as given
    ensures forall k :: k in o.fields && k != "headers" && !(k == "body" && DropsBody(o)) ==>
              k in r.options.fields && r.options.fields[k] == o.fields[k]
    ensures forall k :: k in r.options.fields ==> k in o.fields || k == "credentials"
    ensures r.options.headers.Keys == o.headers.Keys + {"Content-Type"}
  {
    Request(ApiUrl(ApiBase(configured), path), FetchOptions(o))
  }
}

=== FILE: auth_guard.dfy ===
/** The authentication middleware: resolving the user behind the session
    cookie, and the two guards that admit a request or answer it. */
module AuthGuard {
  import opened Wrappers
  import opened Records
  import opened FileStore
  import opened Http
  import DataPaths
  import Seqs
  import Sessions

  const EmptyUsers: Doc := UsersDoc([])

  /** The users array of the document, or `None` when `usersData.users.find`
      throws: unlike the session code there is no array check, so a `null`
      document and a document without a `users` array both throw. */
  function UserList(d: Doc): Option<seq<User>> {
    if d.UsersDoc? then Some(d.users) else None
  }

  /** The first user with the given id. */
  function UserById(users: seq<User>, id: string): (r: Option<User>)
    ensures r.None? <==> forall i :: 0 <= i < |users| ==> users[i].id != id
    ensures r.Some? ==> r.value in users && r.value.id == id
  {
    Seqs.Find(users, (u: User) => u.id == id)
  }

  /** `getUserFromRequest`: no cookie answers `null` without touching the
      store; an unknown or expired token answers `null` after the session
      lookup; otherwise the users document is read (created empty when
      missing) and the session's user, if still present, is answered. */
  function GetUserFromRequest(disk: AppDisk, cookie: Sessions.Token, now: int): (o: Outcome<Doc, Option<User>>)
    ensures !Sessions.Present(cookie) ==> o == Outcome(disk, Ok(None))
    ensures Sessions.Present(cookie) && Sessions.GetSession(disk, cookie, now).answer.Err? ==>
              o == Outcome(disk, Err(Sessions.GetSession(disk, cookie, now).answer.error))
    ensures Sessions.Present(cookie) && Sessions.GetSession(disk, cookie, now).answer == Ok(None) ==>
              o == Outcome(Sessions.GetSession(disk, cookie, now).disk, Ok(None))
    ensures Sessions.Present(cookie) && Sessions.GetSession(disk, cookie, now).answer.Ok? &&
            Sessions.GetSession(disk, cookie, now).answer.value.Some? ==>
              var got := Sessions.GetSession(disk, cookie, now);
              var read := ReadJson(got.disk, DataPaths.Users, Some(EmptyUsers));
              && (read.answer.Err? ==> o == Outcome(read.disk, Err(read.answer.error)))
              && (read.answer.Ok? && !read.answer.value.UsersDoc? ==> o == Outcome(read.disk, Err(Thrown)))
              && (read.answer.Ok? && read.answer.value.UsersDoc? ==>
                    o == Outcome(read.disk, Ok(UserById(read.answer.value.users, got.answer.value.value.userId))))
    ensures o.answer.Ok? && o.answer.value.Some? ==>
              && Sessions.Present(cookie)
              && var session := Sessions.GetSession(disk, cookie, now).answer;
              && session.Ok? && session.value.Some?
              && session.value.value.token == cookie.value
              && o.answer.value.value.id == session.value.value.userId
  {
    if !Sessions.Present(cookie) then Outcome(disk, Ok(None))
    else
      var got := Sessions.GetSession(disk, cookie, now);
      match got.answer
      case Err(e) => Outcome(disk, Err(e))
      case Ok(None) => Outcome(got.disk, Ok(None))
      case Ok(Some(session)) =>
        var read := ReadJson(got.disk, DataPaths.Users, Some(EmptyUsers));
        match read.answer
        case Err(e) => Outcome(read.disk, Err(e))
        case Ok(doc) =>
          match UserList(doc)
          case None => Outcome(read.disk, Err(Thrown))
          case Some(users) => Outcome(read.disk, Ok(UserById(users, session.userId)))
  }

  /** A live session whose user is stored authenticates: the guard admits
      exactly the stored user with the session's user id. */
  lemma SessionUserAdmitted(disk: AppDisk, token: string, now: int, users: seq<User>, user: User)
    requires token != ""
    requires Sessions.GetSession(disk, Some(token), now).answer.Ok?
    requires Sessions.GetSession(disk, Some(token), now).answer.value.Some?
    requires Sessions.GetSession(disk, Some(token), now).answer.value.value.userId == user.id
    requires DataPaths.Users in disk && disk[DataPaths.Users] == Holds(UsersDoc(users))
    requires UserById(users, user.id) == Some(user)
    ensures RequireAuth(disk, Some(token), now).verdict == Admit(user)
  {
    var got := Sessions.GetSession(disk, Some(token), now);
    assert Sessions.Current(disk).Ok? && Sessions.Current(disk).value != NullDoc &&
           Writable(disk, DataPaths.Sessions);
    assert got.disk[DataPaths.Users] == disk[DataPaths.Users] by {
      assert DataPaths.Users != DataPaths.Sessions;
      assert DataPaths.Users != TempPath(DataPaths.Sessions);
    }
  }

  /** A session just created for a stored user admits that user on every
      request carrying its token until the session expires. */
  lemma CreatedSessionAdmits(disk: AppDisk, user: User, id: string, token: string, now: int, pruneAt: int,
                             t: int, users: seq<User>)
    requires token != ""
    requires Sessions.CreateSession(disk, user, id, token, now, pruneAt).answer.Ok?
    requires forall s :: s in Sessions.SessionList(Sessions.Current(disk).value).value ==> s.token != token
    requires DataPaths.Users in disk && disk[DataPaths.Users] == Holds(UsersDoc(users))
    requires UserById(users, user.id) == Some(user)
    requires t < now + Sessions.SessionTtlMs
    ensures RequireAuth(Sessions.CreateSession(disk, user, id, token, now, pruneAt).disk, Some(token), t).verdict
              == Admit(user)
  {
    var c := Sessions.CreateSession(disk, user, id, token, now, pruneAt);
    Sessions.CreateThenGet(disk, user, id, token, now, pruneAt, t);
    assert c.disk[DataPaths.Users] == disk[DataPaths.Users] by {
      assert DataPaths.Users != DataPaths.Sessions;
      assert DataPaths.Users != TempPath(DataPaths.Sessions);
    }
    SessionUserAdmitted(c.disk, token, t, users, user);
  }

  /** What a guard does with a request: let it through with the user, or
      answer it. */
  datatype Verdict = Admit(user: User) | Refuse(response: Response<()>)

  /** A guarded request: the disk afterwards and the verdict. */
  datatype Guarded = Guarded(disk: AppDisk, verdict: Verdict)

  /** `requireAuth`: 401 without a user; any failure goes to the error handler (500). */
  function RequireAuth(disk: AppDisk, cookie: Sessions.Token, now: int): (g: Guarded)
    ensures g.disk == GetUserFromRequest(disk, cookie, now).disk
    ensures g.verdict.Admit? <==> GetUserFromRequest(disk, cookie, now).answer.Ok? &&
                                  GetUserFromRequest(disk, cookie, now).answer.value.Some?
    ensures g.verdict.Admit? ==> g.verdict.user == GetUserFromRequest(disk, cookie, now).answer.value.value
    ensures !Sessions.Present(cookie) ==> g == Guarded(disk, Refuse(Reject(401, "Unauthorized")))
    ensures GetUserFromRequest(disk, cookie, now).answer.Err? ==> g.verdict == Refuse(InternalError())
  {
    var u := GetUserFromRequest(disk, cookie, now);
    match u.answer
    case Err(_) => Guarded(u.disk, Refuse(InternalError()))
    case Ok(None) => Guarded(u.disk, Refuse(Reject(401, "Unauthorized")))
    case Ok(Some(user)) => Guarded(u.disk, Admit(user))
  }

  /** `requireVendor`: as `requireAuth`, and 403 for a user whose role is not `vendor`. */
  function RequireVendor(disk: AppDisk, cookie: Sessions.Token, now: int): (g: Guarded)
    ensures g.disk == GetUserFromRequest(disk, cookie, now).disk
    ensures g.verdict.Admit? ==> g.verdict.user.role == "vendor"
    ensures !Sessions.Present(cookie) ==> g == Guarded(disk, Refuse(Reject(401, "Unauthorized")))
  {
    var u := GetUserFromRequest(disk, cookie, now);
    match u.answer
    case Err(_) => Guarded(u.disk, Refuse(InternalError()))
    case Ok(None) => Guarded(u.disk, Refuse(Reject(401, "Unauthorized")))
    case Ok(Some(user)) =>
      if user.role != "vendor" then Guarded(u.disk, Refuse(Reject(403, "Forbidden")))
      else Guarded(u.disk, Admit(user))
  }

  /** The vendor guard is the authentication guard plus a role check: it
      admits exactly the users the authentication guard admits whose role is
      `vendor`, turns the other admitted users into 403, and otherwise answers
      as the authentication guard does. */
  lemma VendorRefinesAuth(disk: AppDisk, cookie: Sessions.Token, now: int)
    ensures var a := RequireAuth(disk, cookie, now);
      var v := RequireVendor(disk, cookie, now);
      && v.disk == a.disk
      && (v.verdict.Admit? <==> a.verdict.Admit? && a.verdict.user.role == "vendor")
      && (v.verdict.Admit? ==> v.verdict.user == a.verdict.user)
      && (a.verdict.Admit? && a.verdict.user.role != "vendor" ==>
            v.verdict == Refuse(Reject(403, "Forbidden")))
      && (a.verdict.Refuse? ==> v.verdict == a.verdict)
  {
  }
}

=== FILE: auth_routes.dfy ===
/** The account routes: sign-up, login, the current user, and logout.  The
    password hash, the user id and the session's id and token are produced by
    crypto code outside the model and arrive as parameters. */
module AuthRoutes {
  import opened Wrappers
  import opened JsValues
  import opened Records
  import opened FileStore
  import opened Http
  import DataPaths
  import Seqs
  import Text
  import Sessions
  import AuthGuard

  /** What the account routes answer about a user: never the hash. */
  datatype UserView = UserView(id: string, username: string, role: string)

  function ViewOf(u: User): UserView {
    UserView(u.id, u.username, u.role)
  }

  /** The body fields a sign-up or login request carries (`Undefined` when absent). */
  datatype Credentials = Credentials(username: Value, password: Value, role: Value)

  predicate IsValidRole(role: Value) {
    role == Str("customer") || role == Str("vendor")
  }

  /** Two usernames clash when they are equal ignoring letter case. */
  predicate SameName(a: string, b: string) {
    Text.Lower(a) == Text.Lower(b)
  }

  /** Usernames are unique ignoring case: the invariant sign-up maintains. */
  ghost predicate NamesUnique(users: seq<User>) {
    forall i, j :: 0 <= i < j < |users| ==> !SameName(users[i].username, users[j].username)
  }

  /** The users array the sign-up transform works on: the stored array, `[]`
      when the document has none, or `None` when the document is `null`. */
  function UsersOrEmpty(d: Doc): Option<seq<User>> {
    match d
    case UsersDoc(us) => Some(us)
    case NullDoc => None
    case _ => Some([])
  }

  /** The validation of a sign-up body, in the order the handler checks; the
      trimmed username when it passes. */
  function ValidateSignup(c: Credentials): (r: Result<string, string>)
    ensures r.Ok? ==> c.username.Str? && c.password.Str? && Text.JsLength(c.password.s) >= 6 && IsValidRole(c.role)
    ensures r.Ok? ==> r.value == Text.Trim(c.username.s) && 3 <= Text.JsLength(r.value) <= 32
    ensures r.Err? <==> !(c.username.Str? && c.username.s != "" && c.password.Str? &&
                          Text.JsLength(c.password.s) >= 6 && IsValidRole(c.role) &&
                          3 <= Text.JsLength(Text.Trim(c.username.s)) <= 32)
  {
    if !Truthy(c.username) || !c.username.Str? then Err("Username is required.")
    else if !Truthy(c.password) || !c.password.Str? || Text.JsLength(c.password.s) < 6 then
      Err("Password must be at least 6 characters.")
    else if !IsValidRole(c.role) then Err("Role must be customer or vendor.")
    else
      var normalized := Text.Trim(c.username.s);
      if Text.JsLength(normalized) < 3 || Text.JsLength(normalized) > 32 then
        Err("Username must be 3-32 characters.")
      else Ok(normalized)
  }

  /** Lengths are counted in UTF-16 code units: three characters outside the
      basic multilingual plane make a password of six units, which passes. */
  lemma AstralPasswordAccepted(username: string, password: string, role: Value)
    requires IsValidRole(role) && username != ""
    requires forall c :: c in username ==> c as int < 0x1_0000
    requires 3 <= |Text.Trim(username)| <= 32
    requires |password| == 3 && forall i :: 0 <= i < |password| ==> password[i] as int >= 0x1_0000
    ensures ValidateSignup(Credentials(Str(username), Str(password), role)) == Ok(Text.Trim(username))
  {
    Text.JsLengthOfAstral(password);
    Text.TrimmedBmp(username);
  }

  /** Seventeen characters outside the basic multilingual plane are 34 code
      units, too long for a username. */
  lemma LongAstralNameRejected(username: string, password: Value, role: Value)
    requires |username| == 17 && forall i :: 0 <= i < |username| ==> username[i] as int >= 0x1_0000
    ensures ValidateSignup(Credentials(Str(username), password, role)).Err?
  {
    assert forall i :: 0 <= i < |username| ==> !Text.IsSpace(username[i]);
    assert Text.Trim(username) == username;
    Text.JsLengthOfAstral(username);
  }

  /** Some stored user has `name` ignoring letter case. */
  predicate Clashes(users: seq<User>, name: string) {
    exists i :: 0 <= i < |users| && SameName(users[i].username, name)
  }

  /** What the sign-up transform answers. */
  datatype SignupResult = Created(user: User) | Conflict

  /** The sign-up transform: refuse a name equal to an existing one ignoring
      case (persisting the content unchanged), otherwise append the user. */
  function SignupStep(d: Doc, user: User): Option<(Doc, SignupResult)> {
    match UsersOrEmpty(d)
    case None => None
    case Some(users) =>
      if Clashes(users, user.username) then Some((d, Conflict))
      else Some((UsersDoc(users + [user]), Created(user)))
  }

  /** The status a valid sign-up for `name` answers: 500 when the users file
      does not load as a users document or refuses the write, 409 when a
      stored name clashes with `name`, and 201 otherwise. */
  function SignupStatus(disk: AppDisk, name: string): int {
    var load := Load(disk, DataPaths.Users, Some(UsersDoc([])));
    if !(load.Ok? && UsersOrEmpty(load.value).Some? && Writable(disk, DataPaths.Users)) then 500
    else
      var users := UsersOrEmpty(load.value).value;
      if Clashes(users, name) then 409 else 201
  }

  /** The sign-up transaction on the users file: it fails exactly when the
      file does not load as a users document or refuses the write; otherwise
      a clashing name is refused and a fresh one is appended. */
  function StoreSignup(disk: AppDisk, user: User): (o: Outcome<Doc, SignupResult>)
    ensures o.answer.Err? <==> SignupStatus(disk, user.username) == 500
    ensures o.answer == Ok(Conflict) <==> SignupStatus(disk, user.username) == 409
    ensures o.answer == Ok(Created(user)) <==> SignupStatus(disk, user.username) == 201
    ensures SignupStatus(disk, user.username) == 201 ==>
              var users := UsersOrEmpty(Load(disk, DataPaths.Users, Some(UsersDoc([]))).value).value;
              DataPaths.Users in o.disk && o.disk[DataPaths.Users] == Holds(UsersDoc(users + [user]))
  {
    Transact(disk, DataPaths.Users, Some(UsersDoc([])), (d: Doc) => SignupStep(d, user))
  }

  /** `POST /signup`. */
  function Signup(disk: AppDisk, c: Credentials, id: string, passwordHash: string, now: int)
    : (h: Handled<UserView>)
    ensures ValidateSignup(c).Err? ==> h == Handled(disk, Reject(400, ValidateSignup(c).error))
    ensures h.response.status == 201 ==>
              && ValidateSignup(c).Ok?
              && var load := Load(disk, DataPaths.Users, Some(UsersDoc([])));
              && load.Ok? && UsersOrEmpty(load.value).Some?
              && var users := UsersOrEmpty(load.value).value;
              && var user := User(id, ValidateSignup(c).value, passwordHash, c.role.s, now);
              && !Clashes(users, user.username)
              && h.response.body == Json(ViewOf(user))
              && DataPaths.Users in h.disk && h.disk[DataPaths.Users] == Holds(UsersDoc(users + [user]))
    ensures h.response.status == 409 ==>
              && h.response.body == ErrorMessage("Username already exists.")
              && ValidateSignup(c).Ok?
              && var load := Load(disk, DataPaths.Users, Some(UsersDoc([])));
              && load.Ok? && UsersOrEmpty(load.value).Some?
              && var users := UsersOrEmpty(load.value).value;
              && Clashes(users, ValidateSignup(c).value)
    ensures ValidateSignup(c).Ok? ==> h.response.status == SignupStatus(disk, ValidateSignup(c).value)
    ensures h.response.status in {201, 400, 409, 500}
  {
    match ValidateSignup(c)
    case Err(message) => Handled(disk, Reject(400, message))
    case Ok(normalized) =>
      var user := User(id, normalized, passwordHash, c.role.s, now);
      var o := StoreSignup(disk, user);
      match o.answer
      case Err(_) => Handled(o.disk, InternalError())
      case Ok(Conflict) => Handled(o.disk, Reject(409, "Username already exists."))
      case Ok(Created(u)) => Handled(o.disk, Response(201, Json(ViewOf(u))))
  }

  /** A successful sign-up keeps usernames unique ignoring case. */
  lemma SignupKeepsNamesUnique(disk: AppDisk, c: Credentials, id: string, passwordHash: string, now: int)
    requires Load(disk, DataPaths.Users, Some(UsersDoc([]))).Ok?
    requires UsersOrEmpty(Load(disk, DataPaths.Users, Some(UsersDoc([]))).value).Some?
    requires NamesUnique(UsersOrEmpty(Load(disk, DataPaths.Users, Some(UsersDoc([]))).value).value)
    requires Signup(disk, c, id, passwordHash, now).response.status == 201
    ensures var after := Signup(disk, c, id, passwordHash, now).disk;
      DataPaths.Users in after && after[DataPaths.Users].Holds? &&
      NamesUnique(UsersOrEmpty(after[DataPaths.Users].doc).value)
  {
    var users := UsersOrEmpty(Load(disk, DataPaths.Users, Some(UsersDoc([]))).value).value;
    var user := User(id, ValidateSignup(c).value, passwordHash, c.role.s, now);
    SignupAppends(disk, c, id, passwordHash, now, users, user);
    AppendKeepsUnique(users, user);
  }

  /** Appending a user whose name clashes with none keeps the names unique. */
  lemma AppendKeepsUnique(users: seq<User>, user: User)
    requires NamesUnique(users) && !Clashes(users, user.username)
    ensures NamesUnique(users + [user])
  {
    var all := users + [user];
    forall i, j | 0 <= i < j < |all|
      ensures !SameName(all[i].username, all[j].username)
    {
      if j < |users| {
        assert all[i] == users[i] && all[j] == users[j];
      } else {
        assert all[i] == users[i] && all[j] == user;
      }
    }
  }

  /** Once a name is taken, signing up again with any letter-case variant of it
      is refused with 409 (or fails with 500 if the store cannot be written). */
  lemma SecondSignupConflicts(disk: AppDisk, c1: Credentials, c2: Credentials, id1: string, id2: string,
                              hash1: string, hash2: string, t1: int, t2: int)
    requires Signup(disk, c1, id1, hash1, t1).response.status == 201
    requires ValidateSignup(c2).Ok?
    requires SameName(ValidateSignup(c2).value, ValidateSignup(c1).value)
    ensures Signup(Signup(disk, c1, id1, hash1, t1).disk, c2, id2, hash2, t2).response.status in {409, 500}
  {
    FirstSignupBlocks(disk, c1, id1, hash1, t1, ValidateSignup(c2).value);
    StatusOfClash(Signup(disk, c1, id1, hash1, t1).disk, c2, id2, hash2, t2);
  }

  /** After a sign-up, every letter-case variant of its name clashes. */
  lemma FirstSignupBlocks(disk: AppDisk, c: Credentials, id: string, hash: string, t: int, name: string)
    requires Signup(disk, c, id, hash, t).response.status == 201
    requires SameName(name, ValidateSignup(c).value)
    ensures SignupStatus(Signup(disk, c, id, hash, t).disk, name) in {409, 500}
  {
    var users := UsersOrEmpty(Load(disk, DataPaths.Users, Some(UsersDoc([]))).value).value;
    var user := User(id, ValidateSignup(c).value, hash, c.role.s, t);
    SignupAppends(disk, c, id, hash, t, users, user);
    ClashAtEnd(Signup(disk, c, id, hash, t).disk, users, user, name);
  }

  /** A valid sign-up whose name is refused by the store is never created. */
  lemma StatusOfClash(disk: AppDisk, c: Credentials, id: string, hash: string, t: int)
    requires ValidateSignup(c).Ok? && SignupStatus(disk, ValidateSignup(c).value) in {409, 500}
    ensures Signup(disk, c, id, hash, t).response.status in {409, 500}
  {
  }

  /** A name clashing with the last stored user is never created. */
  lemma ClashAtEnd(disk: AppDisk, users: seq<User>, user: User, name: string)
    requires DataPaths.Users in disk && disk[DataPaths.Users] == Holds(UsersDoc(users + [user]))
    requires SameName(name, user.username)
    ensures SignupStatus(disk, name) in {409, 500}
  {
    assert (users + [user])[|users|] == user;
    ClashStatus(disk, users + [user], |users|, name);
  }

  /** A sign-up answered 201 stores the loaded users followed by the new one. */
  lemma SignupAppends(disk: AppDisk, c: Credentials, id: string, hash: string, t: int,
                      users: seq<User>, user: User)
    requires Signup(disk, c, id, hash, t).response.status == 201
    requires users == UsersOrEmpty(Load(disk, DataPaths.Users, Some(UsersDoc([]))).value).value
    requires user == User(id, ValidateSignup(c).value, hash, c.role.s, t)
    ensures !Clashes(users, user.username)
    ensures var after := Signup(disk, c, id, hash, t).disk;
      DataPaths.Users in after && after[DataPaths.Users] == Holds(UsersDoc(users + [user]))
  {
  }

  /** Sign-up with a name that clashes with a stored one never creates an account. */
  lemma SignupOnClash(disk: AppDisk, c: Credentials, users: seq<User>, k: nat,
                      id: string, hash: string, t: int)
    requires ValidateSignup(c).Ok?
    requires DataPaths.Users in disk && disk[DataPaths.Users] == Holds(UsersDoc(users))
    requires k < |users| && SameName(users[k].username, ValidateSignup(c).value)
    ensures Signup(disk, c, id, hash, t).response.status in {409, 500}
  {
    ClashStatus(disk, users, k, ValidateSignup(c).value);
    StatusOfClash(disk, c, id, hash, t);
  }

  /** A name clashing with a stored user is never created. */
  lemma ClashStatus(disk: AppDisk, users: seq<User>, k: nat, name: string)
    requires DataPaths.Users in disk && disk[DataPaths.Users] == Holds(UsersDoc(users))
    requires k < |users| && SameName(users[k].username, name)
    ensures SignupStatus(disk, name) in {409, 500}
  {
    assert Load(disk, DataPaths.Users, Some(UsersDoc([]))) == Ok(UsersDoc(users));
  }

  /** The sign-up transform refuses a clashing name and keeps the content. */
  lemma StepOnClash(users: seq<User>, user: User, k: nat)
    requires k < |users| && SameName(users[k].username, user.username)
    ensures SignupStep(UsersDoc(users), user) == Some((UsersDoc(users), Conflict))
  {
  }

  /** The account found by a login: the first whose name equals the given
      one ignoring case (the given name is not trimmed). */
  function FindByName(users: seq<User>, name: string): (r: Option<User>)
    ensures r.None? <==> forall i :: 0 <= i < |users| ==> !SameName(users[i].username, name)
    ensures r.Some? ==> r.value in users && SameName(r.value.username, name)
  {
    Seqs.Find(users, (u: User) => SameName(u.username, name))
  }

  /** The checks `verifyPassword` makes on the stored hash before deriving any key. */
  predicate HashWellFormed(h: string) {
    ':' in h && Sessions.SplitHash(h).0 != "" && Sessions.SplitHash(h).1 != ""
  }

  /** The cookie a login sets: `lf_session`, the token, a seven-day lifetime. */
  datatype Cookie = Cookie(name: string, value: string, maxAge: int)

  /** A login's outcome: the handled request and the cookie it sets, if any. */
  datatype LoginResult = LoginResult(handled: Handled<UserView>, cookie: Option<Cookie>)

  /** `POST /login`.  A username that is not a string throws (500) as soon as
      the search calls `toLowerCase` on it, which it does only when there is
      at least one stored user; a password that is not a string throws the
      same way, except that a malformed stored hash is refused before the
      password is used. */
  function Login(disk: AppDisk, c: Credentials, keyMatches: (string, string, string) -> bool,
                 sessionId: string, token: string, now: int, pruneAt: int): (r: LoginResult)
    ensures !Truthy(c.username) || !Truthy(c.password) ==>
              r == LoginResult(Handled(disk, Reject(400, "Username and password are required.")), None)
    ensures r.cookie.Some? <==> r.handled.response.status == 200
    ensures r.handled.response.status == 200 ==>
              && c.username.Str? && c.password.Str?
              && ReadJson(disk, DataPaths.Users, Some(UsersDoc([]))).answer.Ok?
              && var users := AuthGuard.UserList(ReadJson(disk, DataPaths.Users, Some(UsersDoc([]))).answer.value);
              && users.Some?
              && var user := FindByName(users.value, c.username.s);
              && user.Some?
              && Sessions.VerifyPassword(c.password.s, user.value.passwordHash, keyMatches)
              && r.handled.response.body == Json(ViewOf(user.value))
              && r.cookie == Some(Cookie(Sessions.SessionCookieName, token, Sessions.SessionTtlMs))
    ensures Truthy(c.username) && Truthy(c.password) ==>
              var read := ReadJson(disk, DataPaths.Users, Some(UsersDoc([])));
              && (read.answer.Err? ==> r == LoginResult(Handled(read.disk, InternalError()), None))
              && (read.answer.Ok? && AuthGuard.UserList(read.answer.value).None? ==>
                    r == LoginResult(Handled(read.disk, InternalError()), None))
              && (read.answer.Ok? && AuthGuard.UserList(read.answer.value) == Some([]) ==>
                    r == LoginResult(Handled(read.disk, Reject(401, "Invalid credentials.")), None))
              && (read.answer.Ok? && AuthGuard.UserList(read.answer.value).Some? &&
                  |AuthGuard.UserList(read.answer.value).value| > 0 && !c.username.Str? ==>
                    r == LoginResult(Handled(read.disk, InternalError()), None))
    ensures Truthy(c.username) && Truthy(c.password) && c.username.Str? && c.password.Str? ==>
              var read := ReadJson(disk, DataPaths.Users, Some(UsersDoc([])));
              read.answer.Ok? && AuthGuard.UserList(read.answer.value).Some? &&
              (|| FindByName(AuthGuard.UserList(read.answer.value).value, c.username.s).None?
               || !Sessions.VerifyPassword(c.password.s,
                     FindByName(AuthGuard.UserList(read.answer.value).value, c.username.s).value.passwordHash,
                     keyMatches)) ==>
                r == LoginResult(Handled(read.disk, Reject(401, "Invalid credentials.")), None)
    // a name that finds an account whose hash verifies the password answers
    // 200 exactly when the session is stored, and 500 otherwise
    ensures Truthy(c.username) && Truthy(c.password) && c.username.Str? && c.password.Str? ==>
              var read := ReadJson(disk, DataPaths.Users, Some(UsersDoc([])));
              read.answer.Ok? && AuthGuard.UserList(read.answer.value).Some? &&
              FindByName(AuthGuard.UserList(read.answer.value).value, c.username.s).Some? &&
              Sessions.VerifyPassword(c.password.s,
                FindByName(AuthGuard.UserList(read.answer.value).value, c.username.s).value.passwordHash,
                keyMatches) ==>
                var user := FindByName(AuthGuard.UserList(read.answer.value).value, c.username.s).value;
                var s := Sessions.CreateSession(read.disk, user, sessionId, token, now, pruneAt);
                && r.handled.disk == s.disk
                && (s.answer.Ok? ==> r.handled.response == Response(200, Json(ViewOf(user))))
                && (s.answer.Err? ==> r.handled.response == InternalError())
    ensures r.handled.response.status in {200, 400, 401, 500}
  {
    if !Truthy(c.username) || !Truthy(c.password) then
      LoginResult(Handled(disk, Reject(400, "Username and password are required.")), None)
    else
      var read := ReadJson(disk, DataPaths.Users, Some(UsersDoc([])));
      if read.answer.Err? then LoginResult(Handled(read.disk, InternalError()), None)
      else match AuthGuard.UserList(read.answer.value)
        case None => LoginResult(Handled(read.disk, InternalError()), None)
        case Some(users) =>
          if !c.username.Str? then
            if |users| == 0 then LoginResult(Handled(read.disk, Reject(401, "Invalid credentials.")), None)
            else LoginResult(Handled(read.disk, InternalError()), None)
          else match FindByName(users, c.username.s)
            case None => LoginResult(Handled(read.disk, Reject(401, "Invalid credentials.")), None)
            case Some(user) =>
              if !HashWellFormed(user.passwordHash) then
                LoginResult(Handled(read.disk, Reject(401, "Invalid credentials.")), None)
              else if !c.password.Str? then LoginResult(Handled(read.disk, InternalError()), None)
              else if !keyMatches(c.password.s, Sessions.SplitHash(user.passwordHash).0,
                                  Sessions.SplitHash(user.passwordHash).1) then
                LoginResult(Handled(read.disk, Reject(401, "Invalid credentials.")), None)
              else
                var s := Sessions.CreateSession(read.disk, user, sessionId, token, now, pruneAt);
                if s.answer.Err? then LoginResult(Handled(s.disk, InternalError()), None)
                else LoginResult(Handled(s.disk, Response(200, Json(ViewOf(user)))),
                                 Some(Cookie(Sessions.SessionCookieName, s.answer.value.token, Sessions.SessionTtlMs)))
  }

  /** After a successful sign-up the users document holds the old users
      followed by the new one, and a lookup by the stored name finds the new
      one, since no older name clashes with it. */
  lemma SignupStores(disk: AppDisk, c: Credentials, id: string, passwordHash: string, now: int)
    requires Signup(disk, c, id, passwordHash, now).response.status == 201
    ensures var user := User(id, ValidateSignup(c).value, passwordHash, c.role.s, now);
      var users := UsersOrEmpty(Load(disk, DataPaths.Users, Some(UsersDoc([]))).value).value;
      var after := Signup(disk, c, id, passwordHash, now).disk;
      && ReadJson(after, DataPaths.Users, Some(UsersDoc([]))).answer == Ok(UsersDoc(users + [user]))
      && FindByName(users + [user], user.username) == Some(user)
  {
    var h := Signup(disk, c, id, passwordHash, now);
    var user := User(id, ValidateSignup(c).value, passwordHash, c.role.s, now);
    var users := UsersOrEmpty(Load(disk, DataPaths.Users, Some(UsersDoc([]))).value).value;
    assert h.disk[DataPaths.Users] == Holds(UsersDoc(users + [user]));
    FindAppended(users, user);
  }

  /** A name that clashes with no earlier user is found at the end. */
  lemma FindAppended(users: seq<User>, user: User)
    requires forall i :: 0 <= i < |users| ==> !SameName(users[i].username, user.username)
    ensures FindByName(users + [user], user.username) == Some(user)
  {
    var all := users + [user];
    var found := FindByName(all, user.username);
    assert all[|users|] == user;
    var k :| 0 <= k < |all| && all[k] == found.value;
    if k < |users| {
      assert all[k] == users[k];
    }
  }

  /** The sessions file loads as a sessions document and accepts a write. */
  predicate SessionStoreWorks(disk: AppDisk) {
    Sessions.Current(disk).Ok? && Sessions.Current(disk).value != NullDoc &&
    Writable(disk, DataPaths.Sessions)
  }

  /** A login whose name finds `user` and whose password verifies against the
      stored hash answers that user with a session cookie exactly when
      creating the session succeeds, which a working sessions file ensures. */
  lemma LoginFinds(disk: AppDisk, c: Credentials, users: seq<User>, user: User,
                   keyMatches: (string, string, string) -> bool,
                   sessionId: string, token: string, now: int, pruneAt: int)
    requires c.username.Str? && c.username.s != "" && c.password.Str? && c.password.s != ""
    requires ReadJson(disk, DataPaths.Users, Some(UsersDoc([]))).answer == Ok(UsersDoc(users))
    requires FindByName(users, c.username.s) == Some(user)
    requires Sessions.VerifyPassword(c.password.s, user.passwordHash, keyMatches)
    ensures var r := Login(disk, c, keyMatches, sessionId, token, now, pruneAt);
      var read := ReadJson(disk, DataPaths.Users, Some(UsersDoc([])));
      var s := Sessions.CreateSession(read.disk, user, sessionId, token, now, pruneAt);
      && r.handled.response.status in {200, 500}
      && (r.handled.response.status == 200 <==> s.answer.Ok?)
      && (r.handled.response.status == 200 ==> r.handled.response.body == Json(ViewOf(user)))
      && (SessionStoreWorks(read.disk) ==> r.handled.response.status == 200)
  {
    var read := ReadJson(disk, DataPaths.Users, Some(UsersDoc([])));
    assert AuthGuard.UserList(read.answer.value) == Some(users);
    assert HashWellFormed(user.passwordHash);
    var s := Sessions.CreateSession(read.disk, user, sessionId, token, now, pruneAt);
    assert Login(disk, c, keyMatches, sessionId, token, now, pruneAt).handled ==
             if s.answer.Err? then Handled(s.disk, InternalError())
             else Handled(s.disk, Response(200, Json(ViewOf(user))));
  }

  /** Signing up and then logging in with the same (already trimmed) name and
      a password that matches the stored hash reaches the new account: the
      login answers it with a session cookie, unless the session store fails. */
  lemma SignupThenLogin(disk: AppDisk, c: Credentials, id: string, salt: string, key: string, now: int,
                        keyMatches: (string, string, string) -> bool,
                        sessionId: string, token: string, later: int, pruneAt: int)
    requires salt != "" && key != "" && ':' !in salt && ':' !in key
    requires Signup(disk, c, id, Sessions.FormatHash(salt, key), now).response.status == 201
    requires Text.Trim(c.username.s) == c.username.s
    requires keyMatches(c.password.s, salt, key)
    ensures var after := Signup(disk, c, id, Sessions.FormatHash(salt, key), now).disk;
      var r := Login(after, c, keyMatches, sessionId, token, later, pruneAt);
      var user := User(id, c.username.s, Sessions.FormatHash(salt, key), c.role.s, now);
      && r.handled.response.status in {200, 500}
      && (r.handled.response.status == 200 <==>
            Sessions.CreateSession(after, user, sessionId, token, later, pruneAt).answer.Ok?)
      && (r.handled.response.status == 200 ==>
            r.handled.response.body == Json(UserView(id, c.username.s, c.role.s)))
      && (SessionStoreWorks(after) ==> r.handled.response.status == 200)
  {
    var hash := Sessions.FormatHash(salt, key);
    var after := Signup(disk, c, id, hash, now).disk;
    var users := UsersOrEmpty(Load(disk, DataPaths.Users, Some(UsersDoc([]))).value).value;
    var user := User(id, c.username.s, hash, c.role.s, now);
    SignupStores(disk, c, id, hash, now);
    Sessions.HashRoundTrip(c.password.s, salt, key, keyMatches);
    LoginFinds(after, c, users + [user], user, keyMatches, sessionId, token, later, pruneAt);
  }

  /** `GET /me`: the current user's view, or 401. */
  function Me(disk: AppDisk, cookie: Sessions.Token, now: int): (h: Handled<UserView>)
    ensures AuthGuard.RequireAuth(disk, cookie, now).verdict.Admit? ==>
              h == Handled(AuthGuard.RequireAuth(disk, cookie, now).disk,
                           Response(200, Json(ViewOf(AuthGuard.RequireAuth(disk, cookie, now).verdict.user))))
    ensures AuthGuard.RequireAuth(disk, cookie, now).verdict.Refuse? ==>
              h.response.status in {401, 500}
  {
    var u := AuthGuard.GetUserFromRequest(disk, cookie, now);
    match u.answer
    case Err(_) => Handled(u.disk, InternalError())
    case Ok(None) => Handled(u.disk, Reject(401, "Unauthorized"))
    case Ok(Some(user)) => Handled(u.disk, Response(200, Json(ViewOf(user))))
  }

  /** `POST /logout`: revoke the cookie's session when there is a cookie,
      clear the cookie and answer 204; a failing revocation is a 500. */
  function Logout(disk: AppDisk, cookie: Sessions.Token): (r: (Handled<()>, bool))
    ensures !Sessions.Present(cookie) ==> r == (Handled(disk, Response(204, NoBody)), true)
    ensures r.1 <==> r.0.response.status == 204
    ensures r.0.response.status == 204 <==> Sessions.RevokeSession(disk, cookie).answer.Ok?
    ensures Sessions.Present(cookie) && SessionStoreWorks(disk) ==> r.0.response.status == 204
    ensures r.0.disk == Sessions.RevokeSession(disk, cookie).disk
  {
    var revoked := Sessions.RevokeSession(disk, cookie);
    if revoked.answer.Err? then (Handled(revoked.disk, InternalError()), false)
    else (Handled(revoked.disk, Response(204, NoBody)), true)
  }

  /** After a logout that succeeded, the cookie's token no longer authenticates. */
  lemma LogoutThenMe(disk: AppDisk, token: string, now: int)
    requires token != ""
    requires Logout(disk, Some(token)).0.response.status == 204
    ensures Me(Logout(disk, Some(token)).0.disk, Some(token), now).response ==
              Reject(401, "Unauthorized") ||
            Me(Logout(disk, Some(token)).0.disk, Some(token), now).response == InternalError()
  {
    Sessions.RevokeThenGet(disk, token, now);
  }
}

=== FILE: bootstrap.dfy ===
/** Start-up seeding of the data directory: every document the backend uses is
    created with its default content when it does not exist, and left alone
    when it does.  Creating the directories themselves is not modelled (a path
    is just a key of the disk). */
module Bootstrap {
  import opened Wrappers
  import opened Records
  import opened FileStore
  import DataPaths

  /** The one market the markets document starts with. */
  const CentralMarket: Market := Market("m1", "Central Market", Some(44.4268), Some(26.1025), 3, 12, 48)

  /** The documents and their default contents, in the order they are ensured. */
  const DefaultFiles: seq<(Path, Doc)> := [
    (DataPaths.Users, UsersDoc([])),
    (DataPaths.Vendors, VendorsDoc([])),
    (DataPaths.Products, ProductsDoc([])),
    (DataPaths.Sessions, SessionsDoc([])),
    (DataPaths.Markets, MarketsDoc([CentralMarket])),
    (DataPaths.SoilCache, CacheDoc([])),
    (DataPaths.UsdaMarketsCache, CacheDoc([])),
    (DataPaths.UsdaNewsCache, CacheDoc([])),
    (DataPaths.FaostatCache, CacheDoc([])),
    (DataPaths.PexelsCache, CacheDoc([]))
  ]

  /** A path of the form `<something>.tmp`, as every temporary sibling is. */
  predicate IsTemp(q: Path) {
    |q| >= 4 && q[|q| - 4..] == ".tmp"
  }

  /** Paths are pairwise different and none is a temporary sibling. */
  predicate Separate(files: seq<(Path, Doc)>) {
    && (forall i, j :: 0 <= i < j < |files| ==> files[i].0 != files[j].0)
    && (forall i :: 0 <= i < |files| ==> !IsTemp(files[i].0))
  }

  /** `ensureFile`: an existing file is kept whatever it holds; a missing one
      is written with the default; any other access error propagates. */
  function EnsureFile(disk: AppDisk, p: Path, default: Doc): (o: Outcome<Doc, ()>)
    ensures p in disk && !disk[p].Blocked? ==> o == Outcome(disk, Ok(()))
    ensures p in disk && disk[p].Blocked? ==> o == Outcome(disk, Err(IOFailure))
    ensures p !in disk && Writable(disk, p) ==>
              o.answer.Ok? && p in o.disk && o.disk[p] == Holds(default) && OnlyTouches(disk, o.disk, p)
    ensures p !in disk && !Writable(disk, p) ==> o == Outcome(FailedWrite(disk, p, default), Err(IOFailure))
  {
    if p in disk then
      if disk[p].Blocked? then Outcome(disk, Err(IOFailure)) else Outcome(disk, Ok(()))
    else WriteJson(disk, p, default)
  }

  /** Ensure each file in order, stopping at the first failure. */
  function EnsureAll(disk: AppDisk, files: seq<(Path, Doc)>): Outcome<Doc, ()>
    decreases |files|
  {
    if |files| == 0 then Outcome(disk, Ok(()))
    else
      var first := EnsureFile(disk, files[0].0, files[0].1);
      if first.answer.Err? then first else EnsureAll(first.disk, files[1..])
  }

  /** `bootstrapData`. */
  function BootstrapData(disk: AppDisk): Outcome<Doc, ()> {
    EnsureAll(disk, DefaultFiles)
  }

  /** Seeding never changes a file that already exists, succeed or fail: only
      missing documents and temporary siblings are written. */
  lemma {:induction false} EnsureAllKeepsExisting(disk: AppDisk, files: seq<(Path, Doc)>)
    ensures var o := EnsureAll(disk, files);
      forall q :: q in disk && !IsTemp(q) ==> q in o.disk && o.disk[q] == disk[q]
    decreases |files|
  {
    if |files| > 0 {
      var first := EnsureFile(disk, files[0].0, files[0].1);
      if first.answer.Ok? {
        EnsureAllKeepsExisting(first.disk, files[1..]);
        forall q | q in disk && !IsTemp(q)
          ensures q in first.disk && first.disk[q] == disk[q]
        {
          assert IsTemp(TempPath(files[0].0));
        }
      }
    }
  }

  /** After a successful run every listed document exists and is readable
      without an access error, and each one that was missing holds its default. */
  lemma {:induction false} EnsureAllCreates(disk: AppDisk, files: seq<(Path, Doc)>)
    requires Separate(files)
    ensures var o := EnsureAll(disk, files);
      o.answer.Ok? ==>
        forall i :: 0 <= i < |files| ==>
          && files[i].0 in o.disk && !o.disk[files[i].0].Blocked?
          && (files[i].0 !in disk ==> o.disk[files[i].0] == Holds(files[i].1))
    decreases |files|
  {
    if |files| > 0 {
      var first := EnsureFile(disk, files[0].0, files[0].1);
      if first.answer.Ok? {
        var rest := files[1..];
        assert Separate(rest);
        EnsureAllCreates(first.disk, rest);
        EnsureAllKeepsExisting(first.disk, rest);
        var o := EnsureAll(first.disk, rest);
        forall i | 1 <= i < |files|
          ensures files[i].0 in disk <==> files[i].0 in first.disk
          ensures files[i].0 in disk ==> first.disk[files[i].0] == disk[files[i].0]
        {
          assert files[i].0 != files[0].0;
          assert files[i].0 != TempPath(files[0].0) by {
            assert IsTemp(TempPath(files[0].0));
          }
        }
        assert EnsureAll(disk, files) == o;
        if o.answer.Ok? {
          forall i | 0 <= i < |files|
            ensures files[i].0 in o.disk && !o.disk[files[i].0].Blocked?
            ensures files[i].0 !in disk ==> o.disk[files[i].0] == Holds(files[i].1)
          {
            if i > 0 {
              assert files[i] == rest[i - 1];
            } else {
              assert !IsTemp(files[0].0);
            }
          }
        }
      }
    }
  }

  /** When every listed document exists and is accessible, seeding changes nothing. */
  lemma {:induction false} EnsureAllNoop(disk: AppDisk, files: seq<(Path, Doc)>)
    requires forall i :: 0 <= i < |files| ==> files[i].0 in disk && !disk[files[i].0].Blocked?
    ensures EnsureAll(disk, files) == Outcome(disk, Ok(()))
    decreases |files|
  {
    if |files| > 0 {
      EnsureAllNoop(disk, files[1..]);
    }
  }

  /** The default document list names ten different, non-temporary paths. */
  lemma DefaultFilesSeparate()
    ensures Separate(DefaultFiles)
  {
    var lengths := [15, 17, 18, 18, 17, 20, 28, 25, 23, 22];
    forall i | 0 <= i < |DefaultFiles|
      ensures |DefaultFiles[i].0| == lengths[i] && DefaultFiles[i].0[lengths[i] - 1] == 'n'
    {
    }
    assert DataPaths.Vendors[5] != DataPaths.Markets[5];
    assert DataPaths.Products[5] != DataPaths.Sessions[5];
  }

  /** Bootstrapping twice is bootstrapping once: after a successful run the
      second run answers success and writes nothing. */
  lemma BootstrapIdempotent(disk: AppDisk)
    requires BootstrapData(disk).answer.Ok?
    ensures BootstrapData(BootstrapData(disk).disk) == Outcome(BootstrapData(disk).disk, Ok(()))
  {
    DefaultFilesSeparate();
    EnsureAllCreates(disk, DefaultFiles);
    EnsureAllNoop(BootstrapData(disk).disk, DefaultFiles);
  }

  /** On a fresh data directory every document is created with its default;
      in particular the markets document holds the single Central Market. */
  lemma BootstrapFresh(disk: AppDisk)
    requires forall i :: 0 <= i < |DefaultFiles| ==> DefaultFiles[i].0 !in disk
    requires BootstrapData(disk).answer.Ok?
    ensures var after := BootstrapData(disk).disk;
      && DataPaths.Markets in after && after[DataPaths.Markets] == Holds(MarketsDoc([CentralMarket]))
      && (forall i :: 0 <= i < |DefaultFiles| ==>
            DefaultFiles[i].0 in after && after[DefaultFiles[i].0] == Holds(DefaultFiles[i].1))
  {
    DefaultFilesSeparate();
    EnsureAllCreates(disk, DefaultFiles);
    assert DefaultFiles[4] == (DataPaths.Markets, MarketsDoc([CentralMarket]));
  }
}

=== FILE: cache_keys.dfy ===
/** The cache keys and lifetimes the routes and the product-photo lookup use.
    Numbers are rendered into keys by the host's number-to-string conversion. */
module CacheKeys {
  import opened JsValues

  const Hour: int := 1000 * 60 * 60
  const Day: int := 24 * Hour

  /** Soil reports live 7 days, USDA market lists 1 day, market news 6 hours,
      FAOSTAT series 30 days, photo searches 1 day and product photos 7 days. */
  const SoilTtl: int := 7 * Day
  const UsdaMarketsTtl: int := Day
  const NewsTtl: int := 6 * Hour
  const FaostatTtl: int := 30 * Day
  const PexelsTtl: int := Day
  const ProductImageTtl: int := 7 * Day

  /** `soil:<lat>,<lng>`. */
  function SoilKey(lat: real, lng: real, host: Host): string {
    "soil:" + host.show(lat) + "," + host.show(lng)
  }

  /** `commodity:<c>`. */
  function CommodityKey(commodity: string): string {
    "commodity:" + commodity
  }

  /** `item:<i>|country:<c>`. */
  function FaostatKey(item: string, country: string): string {
    "item:" + item + "|country:" + country
  }

  /** `zip:<z>`. */
  function ZipKey(zip: string): string {
    "zip:" + zip
  }

  /** `coords:<lat>,<lng>`. */
  function CoordsKey(lat: real, lng: real, host: Host): string {
    "coords:" + host.show(lat) + "," + host.show(lng)
  }

  /** `pexels:<query>:<perPage>`. */
  function PexelsKey(query: string, perPage: real, host: Host): string {
    "pexels:" + query + ":" + host.show(perPage)
  }

  /** `pexels:product:<locale or "default">:<query>`. */
  function ProductPhotoKey(locale: string, query: string): string {
    "pexels:product:" + (if locale == "" then "default" else locale) + ":" + query
  }

  /** Different commodities are cached under different keys. */
  lemma {:induction false} CommodityKeyInjective(a: string, b: string)
    ensures CommodityKey(a) == CommodityKey(b) <==> a == b
  {
    if CommodityKey(a) == CommodityKey(b) {
      assert a == CommodityKey(a)[10..];
      assert b == CommodityKey(b)[10..];
    }
  }

  /** Different product-photo queries in one locale are cached under different keys. */
  lemma {:induction false} ProductPhotoKeyInjective(locale: string, a: string, b: string)
    ensures ProductPhotoKey(locale, a) == ProductPhotoKey(locale, b) <==> a == b
  {
    var prefix := "pexels:product:" + (if locale == "" then "default" else locale) + ":";
    assert ProductPhotoKey(locale, a) == prefix + a;
    assert ProductPhotoKey(locale, b) == prefix + b;
    if ProductPhotoKey(locale, a) == ProductPhotoKey(locale, b) {
      assert a == (prefix + a)[|prefix|..];
      assert b == (prefix + b)[|prefix|..];
    }
  }

  /** A zip search and a coordinate search never share a USDA cache entry. */
  lemma ZipAndCoordsDisjoint(zip: string, lat: real, lng: real, host: Host)
    ensures ZipKey(zip) != CoordsKey(lat, lng, host)
  {
    assert ZipKey(zip)[0] == 'z';
    assert CoordsKey(lat, lng, host)[0] == 'c';
  }
}

=== FILE: cache_store.dfy ===
/** The time-to-live cache kept in a document `{ entries: [...] }`.  Every
    operation is one `updateJson` transaction that first drops the expired
    entries, so expiry is lazy: an entry disappears at the first access after
    its deadline. */
module CacheStore {
  import opened Wrappers
  import opened Records
  import opened FileStore
  import Seqs

  /** The default content of a cache document. */
  const EmptyCache: Doc := CacheDoc([])

  /** `normalizeEntries`: the `entries` array, or none when the document has no
      such array (including `null`). */
  function NormalizeEntries(d: Doc): seq<CacheSlot> {
    if d.CacheDoc? then d.entries else []
  }

  /** An entry survives pruning at `now`: it is not blank, its deadline is
      present and parses, and the deadline is strictly after `now`. */
  predicate Live(s: CacheSlot, now: int) {
    s.Entry? && s.expiresAt.Some? && s.expiresAt.value > now
  }

  /** `pruneExpired`: the live entries, in their original order. */
  function PruneExpired(entries: seq<CacheSlot>, now: int): (r: seq<CacheSlot>)
    ensures |r| <= |entries|
    ensures forall i :: 0 <= i < |r| ==> Live(r[i], now)
    ensures forall i :: 0 <= i < |entries| && Live(entries[i], now) ==> entries[i] in r
    ensures forall x :: x in r ==> x in entries
  {
    Seqs.Filter(entries, (s: CacheSlot) => Live(s, now))
  }

  /** Pruning keeps each live entry as often as it occurs and drops every other. */
  lemma PruneKeepsExactlyLive(entries: seq<CacheSlot>, now: int, x: CacheSlot)
    ensures multiset(PruneExpired(entries, now))[x] == if Live(x, now) then multiset(entries)[x] else 0
  {
    Seqs.FilterMultiset(entries, (s: CacheSlot) => Live(s, now), x);
  }

  /** Pruning keeps order: it distributes over concatenation. */
  lemma PruneConcat(a: seq<CacheSlot>, b: seq<CacheSlot>, now: int)
    ensures PruneExpired(a + b, now) == PruneExpired(a, now) + PruneExpired(b, now)
  {
    Seqs.FilterConcat(a, b, (s: CacheSlot) => Live(s, now));
  }

  /** Pruning at a later time subsumes pruning at an earlier one; in particular
      pruning twice at the same time is pruning once. */
  lemma PruneLater(entries: seq<CacheSlot>, earlier: int, later: int)
    requires earlier <= later
    ensures PruneExpired(PruneExpired(entries, earlier), later) == PruneExpired(entries, later)
  {
    Seqs.FilterFilter(entries, (s: CacheSlot) => Live(s, earlier), (s: CacheSlot) => Live(s, later),
                      (s: CacheSlot) => Live(s, later));
  }

  /** `activeEntries.find(e => e.key === key)`, then `hit ? hit.value : null`. */
  function FindValue(active: seq<CacheSlot>, key: string): Payload {
    if |active| == 0 then Nothing
    else if active[0].Entry? && active[0].key == key then active[0].value
    else FindValue(active[1..], key)
  }

  /** Reference meaning of a lookup: the value of the first entry of the
      unpruned list that is live and has the key, or `null`. */
  function FirstLiveValue(entries: seq<CacheSlot>, key: string, now: int): Payload {
    if |entries| == 0 then Nothing
    else if Live(entries[0], now) && entries[0].key == key then entries[0].value
    else FirstLiveValue(entries[1..], key, now)
  }

  /** Looking the key up in the pruned list finds the first live entry with the key. */
  lemma {:induction false} FindAfterPrune(entries: seq<CacheSlot>, key: string, now: int)
    ensures FindValue(PruneExpired(entries, now), key) == FirstLiveValue(entries, key, now)
  {
    if |entries| > 0 {
      FindAfterPrune(entries[1..], key, now);
    }
  }

  /** Pruning changes no lookup: the first live entry with a key is the same
      before and after. */
  lemma {:induction false} PruneKeepsLookups(entries: seq<CacheSlot>, key: string, now: int)
    ensures FirstLiveValue(PruneExpired(entries, now), key, now) == FirstLiveValue(entries, key, now)
  {
    if |entries| > 0 {
      PruneKeepsLookups(entries[1..], key, now);
      if Live(entries[0], now) {
        var r := PruneExpired(entries, now);
        assert r == [entries[0]] + PruneExpired(entries[1..], now);
        assert r[1..] == PruneExpired(entries[1..], now);
      }
    }
  }

  /** The transform of `getCacheEntry`: persist the pruned list, answer the hit. */
  function GetStep(d: Doc, key: string, now: int): (Doc, Payload) {
    var active := PruneExpired(NormalizeEntries(d), now);
    (CacheDoc(active), FindValue(active, key))
  }

  /** `getCacheEntry`: answers the value of the first unexpired entry with the
      key, or `null`; the pruned list is persisted whether or not it hits. */
  function CacheGet(disk: AppDisk, p: Path, key: string, now: int): (o: Outcome<Doc, Payload>)
    ensures Load(disk, p, Some(EmptyCache)).Err? ==>
              o == Outcome(disk, Err(Load(disk, p, Some(EmptyCache)).error))
    ensures Load(disk, p, Some(EmptyCache)).Ok? && !Writable(disk, p) ==>
              var entries := NormalizeEntries(Load(disk, p, Some(EmptyCache)).value);
              o == Outcome(FailedWrite(disk, p, CacheDoc(PruneExpired(entries, now))), Err(IOFailure))
    ensures Load(disk, p, Some(EmptyCache)).Ok? && Writable(disk, p) ==>
              var entries := NormalizeEntries(Load(disk, p, Some(EmptyCache)).value);
              && o.answer == Ok(FirstLiveValue(entries, key, now))
              && p in o.disk && o.disk[p] == Holds(CacheDoc(PruneExpired(entries, now)))
              && Writable(o.disk, p) && OnlyTouches(disk, o.disk, p)
  {
    var o := Transact(disk, p, Some(EmptyCache), (d: Doc) => Some(GetStep(d, key, now)));
    if Load(disk, p, Some(EmptyCache)).Ok? then
      FindAfterPrune(NormalizeEntries(Load(disk, p, Some(EmptyCache)).value), key, now);
      o
    else o
  }

  /** The entry `setCacheEntry` appends. */
  function NewEntry(key: string, value: Payload, ttl: int, now: int): CacheSlot {
    Entry(key, value, Some(now + ttl))
  }

  /** The live entries of `entries` whose key is not `key`, in order. */
  function OthersLive(entries: seq<CacheSlot>, key: string, now: int): (r: seq<CacheSlot>)
    ensures forall i :: 0 <= i < |r| ==> Live(r[i], now) && r[i].key != key
    ensures forall i :: 0 <= i < |entries| && Live(entries[i], now) && entries[i].key != key ==>
              entries[i] in r
    ensures forall x :: x in r ==> x in entries
  {
    Seqs.Filter(entries, (s: CacheSlot) => Live(s, now) && s.key != key)
  }

  /** The transform of `setCacheEntry`. */
  function SetStep(d: Doc, key: string, value: Payload, ttl: int, now: int): (Doc, Payload) {
    var active := OthersLive(NormalizeEntries(d), key, now);
    (CacheDoc(active + [NewEntry(key, value, ttl, now)]), value)
  }

  /** `setCacheEntry`: afterwards exactly one entry has the key, the new one,
      last, expiring at `now + ttl`; the other keys' live entries precede it
      unchanged; the answer is the stored value. */
  function CacheSet(disk: AppDisk, p: Path, key: string, value: Payload, ttl: int, now: int)
    : (o: Outcome<Doc, Payload>)
    ensures Load(disk, p, Some(EmptyCache)).Err? ==>
              o == Outcome(disk, Err(Load(disk, p, Some(EmptyCache)).error))
    ensures Load(disk, p, Some(EmptyCache)).Ok? && !Writable(disk, p) ==>
              var entries := NormalizeEntries(Load(disk, p, Some(EmptyCache)).value);
              var kept := OthersLive(entries, key, now) + [NewEntry(key, value, ttl, now)];
              o == Outcome(FailedWrite(disk, p, CacheDoc(kept)), Err(IOFailure))
    ensures Load(disk, p, Some(EmptyCache)).Ok? && Writable(disk, p) ==>
              var entries := NormalizeEntries(Load(disk, p, Some(EmptyCache)).value);
              && o.answer == Ok(value)
              && p in o.disk && o.disk[p].Holds? && o.disk[p].doc.CacheDoc?
              && Writable(o.disk, p) && OnlyTouches(disk, o.disk, p)
              && var stored := o.disk[p].doc.entries;
              && |stored| > 0
              && stored[|stored| - 1] == Entry(key, value, Some(now + ttl))
              && (forall i :: 0 <= i < |stored| - 1 ==> Live(stored[i], now) && stored[i].key != key)
              && stored[..|stored| - 1] == OthersLive(entries, key, now)
  {
    Transact(disk, p, Some(EmptyCache), (d: Doc) => Some(SetStep(d, key, value, ttl, now)))
  }

  /** The entries a successful `setCacheEntry` leaves in the document. */
  function StoredAfterSet(o: Outcome<Doc, Payload>, p: Path): seq<CacheSlot>
    requires p in o.disk && o.disk[p].Holds?
  {
    NormalizeEntries(o.disk[p].doc)
  }

  /** Set at time `t`, then get at `t2`: before the deadline the value comes back;
      from the deadline on the answer is `null` and the lookup's write drops the
      entry from the document. */
  lemma SetThenGet(disk: AppDisk, p: Path, key: string, value: Payload, ttl: int, t: int, t2: int)
    requires CacheSet(disk, p, key, value, ttl, t).answer.Ok?
    ensures var after := CacheSet(disk, p, key, value, ttl, t).disk;
      var got := CacheGet(after, p, key, t2);
      && got.answer.Ok?
      && (t2 < t + ttl ==> got.answer.value == value)
      && (t2 >= t + ttl ==>
            got.answer.value == Nothing &&
            forall s :: s in StoredAfterSet(got, p) ==> s.key != key)
  {
    var after := CacheSet(disk, p, key, value, ttl, t).disk;
    var stored := after[p].doc.entries;
    var n := |stored| - 1;
    assert stored == stored[..n] + [stored[n]];
    FirstLiveOnlyMatch(stored[..n], stored[n], key, t2);
    GetOnStored(after, p, key, t2);
    if t2 >= t + ttl {
      ExpiredKeyGone(stored, key, t2);
    }
  }

  /** When the only entry with a key is the last one and it has expired,
      pruning leaves no entry with that key. */
  lemma ExpiredKeyGone(stored: seq<CacheSlot>, key: string, now: int)
    requires |stored| > 0 && stored[|stored| - 1].Entry? && stored[|stored| - 1].key == key
    requires !Live(stored[|stored| - 1], now)
    requires forall i :: 0 <= i < |stored| - 1 ==> stored[i].Entry? && stored[i].key != key
    ensures forall s :: s in PruneExpired(stored, now) ==> s.Entry? && s.key != key
  {
    forall s | s in PruneExpired(stored, now)
      ensures s.Entry? && s.key != key
    {
      var i :| 0 <= i < |stored| && stored[i] == s;
      assert i < |stored| - 1;
    }
  }

  /** A lookup on a document that holds a cache list answers its first live
      match and leaves the pruned list. */
  lemma GetOnStored(disk: AppDisk, p: Path, key: string, now: int)
    requires p in disk && disk[p].Holds? && disk[p].doc.CacheDoc? && Writable(disk, p)
    ensures var got := CacheGet(disk, p, key, now);
      && got.answer == Ok(FirstLiveValue(disk[p].doc.entries, key, now))
      && p in got.disk && got.disk[p] == Holds(CacheDoc(PruneExpired(disk[p].doc.entries, now)))
  {
    assert Load(disk, p, Some(EmptyCache)) == Ok(disk[p].doc);
  }

  /** When the only entry with the key is the last one, a lookup answers its
      value exactly when it is live. */
  lemma {:induction false} FirstLiveOnlyMatch(others: seq<CacheSlot>, last: CacheSlot, key: string, now: int)
    requires last.Entry? && last.key == key
    requires forall i :: 0 <= i < |others| ==> !(others[i].Entry? && others[i].key == key)
    ensures FirstLiveValue(others + [last], key, now) == if Live(last, now) then last.value else Nothing
  {
    if |others| == 0 {
      assert others + [last] == [last];
    } else {
      assert (others + [last])[1..] == others[1..] + [last];
      FirstLiveOnlyMatch(others[1..], last, key, now);
    }
  }

  /** Setting the same key twice keeps only the second value. */
  lemma SetTwiceKeepsSecond(disk: AppDisk, p: Path, key: string, v1: Payload, v2: Payload,
                            ttl: int, t1: int, t2: int)
    requires CacheSet(disk, p, key, v1, ttl, t1).answer.Ok?
    ensures var first := CacheSet(disk, p, key, v1, ttl, t1);
      var second := CacheSet(first.disk, p, key, v2, ttl, t2);
      && second.answer.Ok?
      && var stored := StoredAfterSet(second, p);
      && (forall i :: 0 <= i < |stored| && stored[i].Entry? && stored[i].key == key ==>
            i == |stored| - 1 && stored[i].value == v2)
  {
    var first := CacheSet(disk, p, key, v1, ttl, t1);
    assert Load(first.disk, p, Some(EmptyCache)).Ok?;
    assert Writable(first.disk, p);
  }

  /** Where a `getOrSetCache` answer came from. */
  datatype Source = FromCache | Fresh

  /** What the fetcher passed to `getOrSetCache` does when called: produce a
      value (possibly `null`), or throw. */
  datatype Produced = Produced(value: Payload) | ProducerThrew

  /** The answer `{ value, source }` of `getOrSetCache`. */
  datatype Fetched = Fetched(value: Payload, source: Source)

  /** A `getOrSetCache` run: the store outcome and whether the fetcher was called. */
  datatype CacheRun = CacheRun(outcome: Outcome<Doc, Fetched>, fetcherCalled: bool)

  /** `getOrSetCache`: a non-null hit is answered from the cache without calling
      the fetcher; on a miss the fetcher is called once, a non-null value is
      stored (at the later time `later`), and the fetched value is answered as
      fresh even when it is null. */
  function GetOrSetCache(disk: AppDisk, p: Path, key: string, ttl: int, now: int, later: int,
                         fetcher: Produced): (r: CacheRun)
    ensures CacheGet(disk, p, key, now).answer.Err? ==>
              r == CacheRun(Outcome(disk, Err(CacheGet(disk, p, key, now).answer.error)), false)
    ensures CacheGet(disk, p, key, now).answer.Ok? && CacheGet(disk, p, key, now).answer.value != Nothing ==>
              r == CacheRun(Outcome(CacheGet(disk, p, key, now).disk,
                                    Ok(Fetched(CacheGet(disk, p, key, now).answer.value, FromCache))), false)
    ensures CacheGet(disk, p, key, now).answer == Ok(Nothing) ==> r.fetcherCalled
    ensures CacheGet(disk, p, key, now).answer == Ok(Nothing) && fetcher == Produced(Nothing) ==>
              r.outcome == Outcome(CacheGet(disk, p, key, now).disk, Ok(Fetched(Nothing, Fresh)))
    ensures CacheGet(disk, p, key, now).answer == Ok(Nothing) && fetcher.ProducerThrew? ==>
              r.outcome == Outcome(CacheGet(disk, p, key, now).disk, Err(Thrown))
    ensures CacheGet(disk, p, key, now).answer == Ok(Nothing) && fetcher.Produced? && fetcher.value != Nothing ==>
              var put := CacheSet(CacheGet(disk, p, key, now).disk, p, key, fetcher.value, ttl, later);
              r.outcome.disk == put.disk &&
              (put.answer.Ok? ==> r.outcome.answer == Ok(Fetched(fetcher.value, Fresh))) &&
              (put.answer.Err? ==> r.outcome.answer == Err(put.answer.error))
  {
    var got := CacheGet(disk, p, key, now);
    match got.answer
    case Err(e) => CacheRun(Outcome(got.disk, Err(e)), false)
    case Ok(cached) =>
      if cached != Nothing then CacheRun(Outcome(got.disk, Ok(Fetched(cached, FromCache))), false)
      else
        match fetcher
        case ProducerThrew => CacheRun(Outcome(got.disk, Err(Thrown)), true)
        case Produced(v) =>
          if v == Nothing then CacheRun(Outcome(got.disk, Ok(Fetched(v, Fresh))), true)
          else
            var put := CacheSet(got.disk, p, key, v, ttl, later);
            match put.answer
            case Err(e) => CacheRun(Outcome(put.disk, Err(e)), true)
            case Ok(_) => CacheRun(Outcome(put.disk, Ok(Fetched(v, Fresh))), true)
  }

  /** On a hit the fetcher's behaviour is irrelevant: it is never called. */
  lemma HitIgnoresFetcher(disk: AppDisk, p: Path, key: string, ttl: int, now: int, later: int,
                          f1: Produced, f2: Produced)
    requires CacheGet(disk, p, key, now).answer.Ok?
    requires CacheGet(disk, p, key, now).answer.value != Nothing
    ensures GetOrSetCache(disk, p, key, ttl, now, later, f1) == GetOrSetCache(disk, p, key, ttl, now, later, f2)
    ensures !GetOrSetCache(disk, p, key, ttl, now, later, f1).fetcherCalled
  {
  }

  /** After a successful lookup the document holds a cache list and is
      writable, so a store into it succeeds. */
  lemma GetLeavesStoreUsable(disk: AppDisk, p: Path, key: string, now: int,
                             key2: string, value: Payload, ttl: int, t: int)
    requires CacheGet(disk, p, key, now).answer.Ok?
    ensures CacheSet(CacheGet(disk, p, key, now).disk, p, key2, value, ttl, t).answer == Ok(value)
  {
    var got := CacheGet(disk, p, key, now);
    assert Load(got.disk, p, Some(EmptyCache)) == Ok(got.disk[p].doc);
  }

  /** A value a `getOrSetCache` run fetched and stored is answered from the
      cache, without calling the fetcher, by a run for the same key that
      starts before the entry expires. */
  lemma StoredRunHitsLater(disk: AppDisk, p: Path, key: string, ttl: int, now: int, later: int, v: Payload,
                           t2: int, later2: int, f2: Produced)
    requires v != Nothing
    requires CacheGet(disk, p, key, now).answer == Ok(Nothing)
    requires GetOrSetCache(disk, p, key, ttl, now, later, Produced(v)).outcome.answer.Ok?
    requires t2 < later + ttl
    ensures var first := GetOrSetCache(disk, p, key, ttl, now, later, Produced(v)).outcome.disk;
      var second := GetOrSetCache(first, p, key, ttl, t2, later2, f2);
      !second.fetcherCalled && second.outcome.answer == Ok(Fetched(v, FromCache))
  {
    var got := CacheGet(disk, p, key, now);
    var put := CacheSet(got.disk, p, key, v, ttl, later);
    assert put.answer.Ok?;
    SetThenGet(got.disk, p, key, v, ttl, later, t2);
  }
}

=== FILE: data_paths.dfy ===
/** The locations of the backend's documents under its data directory. */
module DataPaths {
  import FileStore

  const Users: FileStore.Path := "data/users.json"
  const Vendors: FileStore.Path := "data/vendors.json"
  const Products: FileStore.Path := "data/products.json"
  const Markets: FileStore.Path := "data/markets.json"
  const Sessions: FileStore.Path := "data/sessions.json"

  const SoilCache: FileStore.Path := "data/cache/soil.json"
  const UsdaMarketsCache: FileStore.Path := "data/cache/usda_markets.json"
  const UsdaNewsCache: FileStore.Path := "data/cache/usda_news.json"
  const FaostatCache: FileStore.Path := "data/cache/faostat.json"
  const PexelsCache: FileStore.Path := "data/cache/pexels.json"
}

=== FILE: external_routes.dfy ===
/** The `/api/external` routes: soil reports, the farmers-market directory,
    market news, commodity statistics, photo search and product images.
    Four of them validate their query and then run a cached lookup; that
    shape is the `Plan` each handler chooses and `Run` carries out.  Query
    values are JavaScript values: a string, `undefined` when absent, or an
    array/object when the parameter is repeated or nested; an array or object
    renders into text as `objectText`, which the model does not compute. */
module ExternalRoutes {
  import opened Wrappers
  import opened JsValues
  import opened Records
  import opened FileStore
  import opened Http
  import DataPaths
  import Text
  import CacheKeys
  import CacheStore
  import UsdaLocalFood
  import Faostat
  import Pexels
  import ProductMedia

  const DefaultPhotoQuery: string := "farmers market"
  const PhotoLocale: string := "ro-RO"

  /** `toNumber`: the `Number(...)` conversion when it is finite, else null. */
  function ToFinite(v: Value, host: Host): (r: Option<real>)
    ensures r.Some? <==> ToNumber(v, host).Finite?
    ensures r.Some? ==> r.value == ToNumber(v, host).v
  {
    var n := ToNumber(v, host);
    if n.Finite? then Some(n.v) else None
  }

  // ---------------------------------------------------------------------------
  // Cached routes
  // ---------------------------------------------------------------------------

  /** What a cached route does with a request: reject it with 400 and a
      message, or look `key` up in the cache document at `path`, calling the
      fetcher on a miss and keeping a non-null result for `ttl`. */
  datatype Plan =
    | Invalid(message: string)
    | Cached(path: Path, key: string, ttl: int, fetcher: CacheStore.Produced)

  /** Carries out a plan: a rejection leaves the data untouched; a lookup
      answers 200 with its value (cached or fetched, possibly null), and any
      failure of the store or the fetcher reaches the error handler as 500. */
  function Run(disk: AppDisk, plan: Plan, now: int, later: int): (h: Handled<Payload>)
    ensures plan.Invalid? ==> h == Handled(disk, Reject(400, plan.message))
    ensures plan.Cached? ==>
              var run := CacheStore.GetOrSetCache(disk, plan.path, plan.key, plan.ttl, now, later, plan.fetcher);
              && h.disk == run.outcome.disk
              && (run.outcome.answer.Ok? ==> h.response == Response(200, Json(run.outcome.answer.value.value)))
              && (run.outcome.answer.Err? ==> h.response == InternalError())
  {
    match plan
    case Invalid(message) => Handled(disk, Reject(400, message))
    case Cached(path, key, ttl, fetcher) =>
      var run := CacheStore.GetOrSetCache(disk, path, key, ttl, now, later, fetcher);
      match run.outcome.answer
      case Ok(fetched) => Handled(run.outcome.disk, Response(200, Json(fetched.value)))
      case Err(_) => Handled(run.outcome.disk, InternalError())
  }

  /** With a readable, writable cache document and a fetcher that does not
      throw, a cached route always answers 200: with the live cached value
      when there is one, otherwise with what the fetcher produced. */
  lemma RunAnswersWhenStoreUsable(disk: AppDisk, plan: Plan, now: int, later: int)
    requires plan.Cached? && plan.fetcher.Produced?
    requires CacheStore.CacheGet(disk, plan.path, plan.key, now).answer.Ok?
    ensures var cached := CacheStore.CacheGet(disk, plan.path, plan.key, now).answer.value;
      Run(disk, plan, now, later).response ==
        Response(200, Json(if cached != Nothing then cached else plan.fetcher.value))
  {
    var got := CacheStore.CacheGet(disk, plan.path, plan.key, now);
    CacheStore.GetLeavesStoreUsable(disk, plan.path, plan.key, now, plan.key, plan.fetcher.value, plan.ttl, later);
  }

  /** After a cold lookup fetched and stored a non-null value, the same route
      asked again before the entry expires answers that value again, whatever
      the fetcher would now produce. */
  lemma RunRepeatsWithinTtl(disk: AppDisk, plan: Plan, now: int, later: int,
                            t2: int, later2: int, fetcher2: CacheStore.Produced)
    requires plan.Cached? && plan.fetcher.Produced? && plan.fetcher.value != Nothing
    requires CacheStore.CacheGet(disk, plan.path, plan.key, now).answer == Ok(Nothing)
    requires Run(disk, plan, now, later).response.status == 200
    requires t2 < later + plan.ttl
    ensures Run(disk, plan, now, later).response == Response(200, Json(plan.fetcher.value))
    ensures Run(Run(disk, plan, now, later).disk, plan.(fetcher := fetcher2), t2, later2).response ==
              Response(200, Json(plan.fetcher.value))
  {
    CacheStore.StoredRunHitsLater(disk, plan.path, plan.key, plan.ttl, now, later, plan.fetcher.value,
                                  t2, later2, fetcher2);
  }

  // ---------------------------------------------------------------------------
  // GET /soilgrids
  // ---------------------------------------------------------------------------

  /** `GET /soilgrids`: both coordinates must convert to finite numbers;
      the report is cached for a week under `soil:<lat>,<lng>`.  `fetch` is
      what the soil service produces for the coordinates. */
  function SoilPlan(lat: Value, lng: Value, host: Host, fetch: (real, real) -> CacheStore.Produced): (p: Plan)
    ensures p.Invalid? <==> ToFinite(lat, host).None? || ToFinite(lng, host).None?
    ensures p.Invalid? ==> p.message == "lat and lng are required."
    ensures p.Cached? ==>
              var a := ToFinite(lat, host).value;
              var b := ToFinite(lng, host).value;
              p == Cached(DataPaths.SoilCache, CacheKeys.SoilKey(a, b, host), CacheKeys.SoilTtl, fetch(a, b))
  {
    match (ToFinite(lat, host), ToFinite(lng, host))
    case (Some(a), Some(b)) => Cached(DataPaths.SoilCache, CacheKeys.SoilKey(a, b, host), CacheKeys.SoilTtl, fetch(a, b))
    case _ => Invalid("lat and lng are required.")
  }

  // ---------------------------------------------------------------------------
  // GET /usda-markets
  // ---------------------------------------------------------------------------

  /** The zip the route searches by: the `zip` parameter when truthy,
      otherwise the digits of a string `location` when there are at least
      five of them, otherwise null. */
  function ResolveZip(zip: Value, location: Value): (r: Value)
    ensures Truthy(zip) ==> r == zip
    ensures !Truthy(zip) && location.Str? && |Text.DigitsOf(location.s)| >= 5 ==>
              r == Str(Text.DigitsOf(location.s))
    ensures Truthy(r) <==> Truthy(zip) || (location.Str? && |Text.DigitsOf(location.s)| >= 5)
  {
    var locationZip := if location.Str? then Text.DigitsOf(location.s) else "";
    if Truthy(zip) then zip
    else if |locationZip| >= 5 then Str(locationZip)
    else Null
  }

  /** `x || null` on a coordinate: zero becomes null. */
  function NonZero(x: Option<real>): (r: Option<real>)
    ensures r.Some? <==> x.Some? && x.value != 0.0
    ensures r.Some? ==> r == x
  {
    if x.Some? && x.value != 0.0 then x else None
  }

  /** The search the fetcher runs for a validated request. */
  function UsdaSearch(resolved: Value, lat: Option<real>, lng: Option<real>): UsdaLocalFood.Search {
    UsdaLocalFood.SearchFor(resolved, NonZero(lat), NonZero(lng))
  }

  /** `GET /usda-markets`: a zip (given, or found in `location`) or two finite
      coordinates are required; the list is cached for a day under
      `zip:<zip>` when there is a zip and under `coords:<lat>,<lng>`
      otherwise.  The directory client never throws, so the fetcher always
      produces a market list. */
  function UsdaMarketsPlan(zip: Value, location: Value, lat: Value, lng: Value, host: Host, objectText: string,
                           reply: UsdaLocalFood.SearchReply, details: Value -> UsdaLocalFood.DetailReply)
    : (p: Plan)
    ensures p.Invalid? <==>
              !Truthy(ResolveZip(zip, location)) && (ToFinite(lat, host).None? || ToFinite(lng, host).None?)
    ensures p.Invalid? ==> p.message == "zip or lat/lng is required."
    ensures p.Cached? ==> p.path == DataPaths.UsdaMarketsCache && p.ttl == CacheKeys.UsdaMarketsTtl
    ensures p.Cached? && Truthy(ResolveZip(zip, location)) ==>
              p.key == CacheKeys.ZipKey(ToText(ResolveZip(zip, location), host, objectText))
    ensures p.Cached? && !Truthy(ResolveZip(zip, location)) ==>
              p.key == CacheKeys.CoordsKey(ToFinite(lat, host).value, ToFinite(lng, host).value, host)
    ensures p.Cached? ==>
              p.fetcher == CacheStore.Produced(UsdaLocalFood.FetchUsdaMarkets(
                             UsdaSearch(ResolveZip(zip, location), ToFinite(lat, host), ToFinite(lng, host)),
                             reply, details, host))
  {
    var resolved := ResolveZip(zip, location);
    var a := ToFinite(lat, host);
    var b := ToFinite(lng, host);
    if !Truthy(resolved) && (a.None? || b.None?) then Invalid("zip or lat/lng is required.")
    else
      var key := if Truthy(resolved) then CacheKeys.ZipKey(ToText(resolved, host, objectText))
                 else CacheKeys.CoordsKey(a.value, b.value, host);
      var markets := UsdaLocalFood.FetchUsdaMarkets(UsdaSearch(resolved, a, b), reply, details, host);
      Cached(DataPaths.UsdaMarketsCache, key, CacheKeys.UsdaMarketsTtl, CacheStore.Produced(markets))
  }

  /** Five or more digits in `location` stand in for a missing zip: the
      request is searched and cached by those digits. */
  lemma LocationDigitsServeAsZip(zip: Value, s: string, lat: Value, lng: Value, host: Host, objectText: string,
                                 reply: UsdaLocalFood.SearchReply, details: Value -> UsdaLocalFood.DetailReply)
    requires !Truthy(zip) && |Text.DigitsOf(s)| >= 5
    ensures var p := UsdaMarketsPlan(zip, Str(s), lat, lng, host, objectText, reply, details);
      && p.Cached?
      && p.key == CacheKeys.ZipKey(Text.DigitsOf(s))
      && UsdaSearch(ResolveZip(zip, Str(s)), ToFinite(lat, host), ToFinite(lng, host)) ==
           UsdaLocalFood.ZipSearch(Str(Text.DigitsOf(s)))
  {
  }

  /** A latitude of exactly zero passes validation but is dropped before the
      search (`lat || null`), so without a zip no search runs and the empty
      list is what gets cached under the coordinates. */
  lemma ZeroLatitudeSearchesNothing(zip: Value, location: Value, lat: Value, lng: Value, host: Host,
                                    objectText: string, reply: UsdaLocalFood.SearchReply,
                                    details: Value -> UsdaLocalFood.DetailReply)
    requires !Truthy(ResolveZip(zip, location))
    requires ToFinite(lat, host) == Some(0.0) && ToFinite(lng, host).Some?
    ensures var p := UsdaMarketsPlan(zip, location, lat, lng, host, objectText, reply, details);
      && p.Cached?
      && p.key == CacheKeys.CoordsKey(0.0, ToFinite(lng, host).value, host)
      && p.fetcher == CacheStore.Produced(MarketList([]))
  {
  }

  /** With a usable cache document, the market directory route answers 200
      however the directory's requests end: failures become an empty or
      partial list, never an error. */
  lemma UsdaMarketsAlwaysAnswer(disk: AppDisk, zip: Value, location: Value, lat: Value, lng: Value, host: Host,
                                objectText: string, reply: UsdaLocalFood.SearchReply,
                                details: Value -> UsdaLocalFood.DetailReply, now: int, later: int)
    requires var p := UsdaMarketsPlan(zip, location, lat, lng, host, objectText, reply, details);
      p.Cached? && CacheStore.CacheGet(disk, p.path, p.key, now).answer.Ok?
    ensures Run(disk, UsdaMarketsPlan(zip, location, lat, lng, host, objectText, reply, details), now, later)
              .response.status == 200
  {
    RunAnswersWhenStoreUsable(disk, UsdaMarketsPlan(zip, location, lat, lng, host, objectText, reply, details),
                              now, later);
  }

  // ---------------------------------------------------------------------------
  // GET /usda-news
  // ---------------------------------------------------------------------------

  /** `GET /usda-news`: a truthy `commodity` is required; the report is
      cached for six hours under `commodity:<commodity>`.  `produced` is what
      the market-news client yields for it. */
  function NewsPlan(commodity: Value, host: Host, objectText: string, produced: CacheStore.Produced): (p: Plan)
    ensures p.Invalid? <==> !Truthy(commodity)
    ensures p.Invalid? ==> p.message == "commodity is required."
    ensures p.Cached? ==>
              p == Cached(DataPaths.UsdaNewsCache, CacheKeys.CommodityKey(ToText(commodity, host, objectText)),
                          CacheKeys.NewsTtl, produced)
  {
    if !Truthy(commodity) then Invalid("commodity is required.")
    else Cached(DataPaths.UsdaNewsCache, CacheKeys.CommodityKey(ToText(commodity, host, objectText)),
                CacheKeys.NewsTtl, produced)
  }

  /** Different commodity texts never share a cache entry. */
  lemma NewsKeysSeparateCommodities(a: string, b: string, host: Host, objectText: string,
                                    pa: CacheStore.Produced, pb: CacheStore.Produced)
    requires a != b && a != "" && b != ""
    ensures NewsPlan(Str(a), host, objectText, pa).key != NewsPlan(Str(b), host, objectText, pb).key
  {
    CacheKeys.CommodityKeyInjective(a, b);
  }

  // ---------------------------------------------------------------------------
  // GET /faostat
  // ---------------------------------------------------------------------------

  /** `GET /faostat`: truthy `item` and `country` are required; the series is
      cached for thirty days under `item:<item>|country:<country>`.  Given a
      base URL that parses, the statistics client does not throw and always
      yields a series. */
  function FaostatPlan(item: Value, country: Value, host: Host, objectText: string, reply: Faostat.Reply)
    : (p: Plan)
    ensures p.Invalid? <==> !Truthy(item) || !Truthy(country)
    ensures p.Invalid? ==> p.message == "item and country are required."
    ensures p.Cached? ==>
              var i := ToText(item, host, objectText);
              var c := ToText(country, host, objectText);
              p == Cached(DataPaths.FaostatCache, CacheKeys.FaostatKey(i, c), CacheKeys.FaostatTtl,
                          CacheStore.Produced(Stats(Faostat.FetchFaostat(i, c, reply, host))))
  {
    if !Truthy(item) || !Truthy(country) then Invalid("item and country are required.")
    else
      var i := ToText(item, host, objectText);
      var c := ToText(country, host, objectText);
      Cached(DataPaths.FaostatCache, CacheKeys.FaostatKey(i, c), CacheKeys.FaostatTtl,
             CacheStore.Produced(Stats(Faostat.FetchFaostat(i, c, reply, host))))
  }

  /** On a cold cache with a usable document the statistics route answers a
      non-empty, year-ordered series for the requested item and country,
      however the upstream request ends. */
  lemma FaostatColdAnswer(disk: AppDisk, item: string, country: string, host: Host, objectText: string,
                          reply: Faostat.Reply, now: int, later: int)
    requires item != "" && country != ""
    requires CacheStore.CacheGet(disk, DataPaths.FaostatCache, CacheKeys.FaostatKey(item, country), now).answer
               == Ok(Nothing)
    ensures var h := Run(disk, FaostatPlan(Str(item), Str(country), host, objectText, reply), now, later);
      && h.response.status == 200 && h.response.body.Json? && h.response.body.value.Stats?
      && var s := h.response.body.value.stats;
      && s.item == item && s.country == country
      && |s.series| > 0 && Faostat.SortedByYear(s.series)
  {
    RunAnswersWhenStoreUsable(disk, FaostatPlan(Str(item), Str(country), host, objectText, reply), now, later);
  }

  /** A series fetched on a cold cache is answered again for thirty days,
      even when the upstream service later fails. */
  lemma FaostatRepeatsWithinTtl(disk: AppDisk, item: string, country: string, host: Host, objectText: string,
                                reply: Faostat.Reply, now: int, later: int,
                                reply2: Faostat.Reply, t2: int, later2: int)
    requires item != "" && country != ""
    requires CacheStore.CacheGet(disk, DataPaths.FaostatCache, CacheKeys.FaostatKey(item, country), now).answer
               == Ok(Nothing)
    requires Run(disk, FaostatPlan(Str(item), Str(country), host, objectText, reply), now, later)
               .response.status == 200
    requires t2 < later + CacheKeys.FaostatTtl
    ensures var first := Run(disk, FaostatPlan(Str(item), Str(country), host, objectText, reply), now, later);
      Run(first.disk, FaostatPlan(Str(item), Str(country), host, objectText, reply2), t2, later2).response
        == first.response
  {
    var p := FaostatPlan(Str(item), Str(country), host, objectText, reply);
    var p2 := FaostatPlan(Str(item), Str(country), host, objectText, reply2);
    assert p2 == p.(fetcher := p2.fetcher);
    RunRepeatsWithinTtl(disk, p, now, later, t2, later2, p2.fetcher);
  }

  // ---------------------------------------------------------------------------
  // GET /pexels
  // ---------------------------------------------------------------------------

  /** The search text: `q` when truthy, otherwise "farmers market". */
  function PhotoQuery(q: Value, host: Host, objectText: string): (r: string)
    ensures Truthy(q) ==> r == ToText(q, host, objectText)
    ensures !Truthy(q) ==> r == DefaultPhotoQuery
  {
    if Truthy(q) then ToText(q, host, objectText) else DefaultPhotoQuery
  }

  /** The page size: `Number(per_page || 1)` when finite and positive,
      otherwise 1. */
  function SafePerPage(perPage: Value, host: Host): (r: real)
    ensures r > 0.0
    ensures !Truthy(perPage) ==> r == 1.0
    ensures Truthy(perPage) && ToNumber(perPage, host).Finite? && ToNumber(perPage, host).v > 0.0 ==>
              r == ToNumber(perPage, host).v
    ensures Truthy(perPage) && !(ToNumber(perPage, host).Finite? && ToNumber(perPage, host).v > 0.0) ==>
              r == 1.0
  {
    var n := ToNumber(Or(perPage, Num(Finite(1.0))), host);
    if n.Finite? && n.v > 0.0 then n.v else 1.0
  }

  /** The cache key of a photo search request. */
  function PhotoKey(q: Value, perPage: Value, host: Host, objectText: string): string {
    CacheKeys.PexelsKey(PhotoQuery(q, host, objectText), SafePerPage(perPage, host), host)
  }

  /** The request the route sends on a miss: the search text, the page size
      and the `ro-RO` locale, or none without an API key. */
  function PhotoRequest(env: Pexels.Env, q: Value, perPage: Value, host: Host, objectText: string)
    : (r: Option<Pexels.Request>)
    ensures r.Some? <==> Filled(env.apiKey)
    ensures r.Some? ==> |r.value.params| == 3
                        && r.value.params[0] == ("query", PhotoQuery(q, host, objectText))
                        && r.value.params[1] == ("per_page", host.show(SafePerPage(perPage, host)))
                        && r.value.params[2] == ("locale", PhotoLocale)
  {
    Pexels.SearchRequest(env, PhotoQuery(q, host, objectText), SafePerPage(perPage, host), PhotoLocale, host)
  }

  /** `GET /pexels`: a cached search is answered only when it has photos;
      otherwise the search runs, its result is cached for a day only when it
      has photos, and it is answered in any case.  `reply` is how the search
      request ends. */
  function PexelsRoute(disk: AppDisk, q: Value, perPage: Value, env: Pexels.Env, reply: Pexels.Reply, host: Host,
                       objectText: string, now: int, later: int): (h: Handled<Payload>)
    ensures var got := CacheStore.CacheGet(disk, DataPaths.PexelsCache, PhotoKey(q, perPage, host, objectText), now);
      && (got.answer.Err? ==> h == Handled(got.disk, InternalError()))
      && (got.answer.Ok? && Pexels.HasPhotos(got.answer.value) ==>
            h == Handled(got.disk, Response(200, Json(got.answer.value))))
    ensures var got := CacheStore.CacheGet(disk, DataPaths.PexelsCache, PhotoKey(q, perPage, host, objectText), now);
      var found := Pexels.FetchPexels(env, PhotoQuery(q, host, objectText), reply);
      got.answer.Ok? && !Pexels.HasPhotos(got.answer.value) ==>
        && (!Pexels.HasPhotos(found) ==> h == Handled(got.disk, Response(200, Json(found))))
        && (Pexels.HasPhotos(found) ==>
              var put := CacheStore.CacheSet(got.disk, DataPaths.PexelsCache, PhotoKey(q, perPage, host, objectText),
                                             found, CacheKeys.PexelsTtl, later);
              h.disk == put.disk && h.response == Response(200, Json(found)))
  {
    var key := PhotoKey(q, perPage, host, objectText);
    var got := CacheStore.CacheGet(disk, DataPaths.PexelsCache, key, now);
    match got.answer
    case Err(_) => Handled(got.disk, InternalError())
    case Ok(cached) =>
      if Pexels.HasPhotos(cached) then Handled(got.disk, Response(200, Json(cached)))
      else
        var found := Pexels.FetchPexels(env, PhotoQuery(q, host, objectText), reply);
        if !Pexels.HasPhotos(found) then Handled(got.disk, Response(200, Json(found)))
        else
          CacheStore.GetLeavesStoreUsable(disk, DataPaths.PexelsCache, key, now, key, found, CacheKeys.PexelsTtl, later);
          var put := CacheStore.CacheSet(got.disk, DataPaths.PexelsCache, key, found, CacheKeys.PexelsTtl, later);
          Handled(put.disk, Response(200, Json(found)))
  }

  /** Without an API key the route answers an empty search for the query and
      stores nothing beyond the lookup's own pruning. */
  lemma PexelsWithoutKey(disk: AppDisk, q: Value, perPage: Value, env: Pexels.Env, reply: Pexels.Reply, host: Host,
                         objectText: string, now: int, later: int)
    requires !Filled(env.apiKey)
    requires var got := CacheStore.CacheGet(disk, DataPaths.PexelsCache, PhotoKey(q, perPage, host, objectText), now);
      got.answer.Ok? && !Pexels.HasPhotos(got.answer.value)
    ensures PexelsRoute(disk, q, perPage, env, reply, host, objectText, now, later) ==
              Handled(CacheStore.CacheGet(disk, DataPaths.PexelsCache, PhotoKey(q, perPage, host, objectText), now).disk,
                      Response(200, Json(PhotoSearch(PhotoQuery(q, host, objectText), []))))
  {
  }

  /** A search with photos, once answered, is answered again from the cache
      for a day, whatever the search service would now reply. */
  lemma PexelsRepeatsWithinTtl(disk: AppDisk, q: Value, perPage: Value, env: Pexels.Env, reply: Pexels.Reply,
                               host: Host, objectText: string, now: int, later: int,
                               env2: Pexels.Env, reply2: Pexels.Reply, t2: int, later2: int)
    requires var got := CacheStore.CacheGet(disk, DataPaths.PexelsCache, PhotoKey(q, perPage, host, objectText), now);
      got.answer.Ok? && !Pexels.HasPhotos(got.answer.value)
    requires Pexels.HasPhotos(Pexels.FetchPexels(env, PhotoQuery(q, host, objectText), reply))
    requires t2 < later + CacheKeys.PexelsTtl
    ensures var first := PexelsRoute(disk, q, perPage, env, reply, host, objectText, now, later);
      && first.response == Response(200, Json(Pexels.FetchPexels(env, PhotoQuery(q, host, objectText), reply)))
      && PexelsRoute(first.disk, q, perPage, env2, reply2, host, objectText, t2, later2).response == first.response
  {
    var key := PhotoKey(q, perPage, host, objectText);
    var got := CacheStore.CacheGet(disk, DataPaths.PexelsCache, key, now);
    var found := Pexels.FetchPexels(env, PhotoQuery(q, host, objectText), reply);
    CacheStore.GetLeavesStoreUsable(disk, DataPaths.PexelsCache, key, now, key, found, CacheKeys.PexelsTtl, later);
    CacheStore.SetThenGet(got.disk, DataPaths.PexelsCache, key, found, CacheKeys.PexelsTtl, later, t2);
  }

  /** The route's keys and the product-photo keys share one cache document
      and can coincide: a search for `product:ro-RO:<x>` with page size `n`
      uses the key of the product-photo search for `<x>:<n>`. */
  lemma PhotoKeyMeetsProductKey(x: string, perPage: Value, host: Host, objectText: string)
    ensures PhotoKey(Str("product:ro-RO:" + x), perPage, host, objectText) ==
              CacheKeys.ProductPhotoKey(PhotoLocale, x + ":" + host.show(SafePerPage(perPage, host)))
  {
    var n := host.show(SafePerPage(perPage, host));
    var key := "pexels:" + ("product:ro-RO:" + x);
    assert key == "pexels:product:ro-RO:" + x;
    assert key + ":" + n == "pexels:product:" + "ro-RO" + ":" + (x + ":" + n);
  }

  // ---------------------------------------------------------------------------
  // GET /product-image
  // ---------------------------------------------------------------------------

  /** The body `{ name, image }`. */
  datatype ProductImageBody = ProductImageBody(name: Value, image: Option<Image>)

  /** `GET /product-image`: a truthy `name` is required; the answer echoes it
      with the photo the product-photo lookup finds, or null.  `replies` is
      how each search the lookup might run ends. */
  function ProductImageRoute(disk: AppDisk, name: Value, env: Pexels.Env, host: Host, objectText: string,
                             replies: ProductMedia.PlanStep -> Pexels.Reply, now: int): (h: Handled<ProductImageBody>)
    ensures !Truthy(name) ==> h == Handled(disk, Reject(400, "name is required."))
    ensures Truthy(name) ==>
              var o := ProductMedia.GetProductImage(disk, env, name, ToText(name, host, objectText), replies, now);
              && h.disk == o.disk
              && (o.answer.Err? ==> h.response == InternalError())
              && (o.answer.Ok? ==> h.response == Response(200, Json(ProductImageBody(name, o.answer.value))))
  {
    if !Truthy(name) then Handled(disk, Reject(400, "name is required."))
    else
      var o := ProductMedia.GetProductImage(disk, env, name, ToText(name, host, objectText), replies, now);
      match o.answer
      case Err(_) => Handled(o.disk, InternalError())
      case Ok(image) => Handled(o.disk, Response(200, Json(ProductImageBody(name, image))))
  }

  /** On a cold cache the route answers the image of the first photo any
      planned search returns, or null when none returns one. */
  lemma ProductImageCold(disk: AppDisk, name: Value, env: Pexels.Env, host: Host, objectText: string,
                         replies: ProductMedia.PlanStep -> Pexels.Reply, now: int)
    requires Truthy(name)
    requires ProductMedia.NoCachedPhotos(disk, ProductMedia.ResolveQueryPlan(name), now)
    ensures var photo := ProductMedia.FirstSearchPhoto(env, ProductMedia.ResolveQueryPlan(name), replies);
      ProductImageRoute(disk, name, env, host, objectText, replies, now).response ==
        Response(200, Json(ProductImageBody(name,
          if photo.Some? then ProductMedia.ImageOf(photo.value, ToText(name, host, objectText)) else None)))
  {
    ProductMedia.ColdCacheImage(disk, env, name, ToText(name, host, objectText), replies, now);
  }
}

=== FILE: faostat.dfy ===
/** The commodity-statistics client: the rows of a delivered payload turned
    into a year series, sorted, cut to the latest six points, with a fixed
    fallback series whenever there is nothing usable.  The HTTP exchange is a
    parameter: the model receives how the request ended. */
module Faostat {
  import opened Wrappers
  import opened JsValues
  import opened Records
  import Seqs

  /** The number of latest points a series keeps. */
  const MaxPoints: nat := 6

  /** The series answered when nothing usable was delivered. */
  const FallbackSeries: seq<YearValue> := [YearValue(2020.0, 120.0), YearValue(2021.0, 115.0)]

  /** `buildFallback`. */
  function Fallback(item: string, country: string): FaostatStats {
    FaostatStats(item, country, FallbackSeries)
  }

  /** One element of the delivered records array: `null` (reading a field of
      it throws), or a record with the six fields the client reads. */
  datatype Row =
    | Absent
    | Row(year: Value, upperYear: Value, yearCode: Value, amount: Value, upperAmount: Value, amountNum: Value)

  /** A member of the payload: an array of rows, or any other value. */
  datatype Member = ArrayOf(rows: seq<Row>) | NotArray(v: Value)

  /** How the request ended: a non-2xx status, a failure (network error,
      timeout abort, unparsable body), or a payload with its `data` and
      `results` members (an absent member is `NotArray(Undefined)`). */
  datatype Reply = NotOk | Failed | Delivered(data: Member, results: Member)

  predicate MemberTruthy(m: Member) {
    m.ArrayOf? || Truthy(m.v)
  }

  /** `toNumber`: a finite number, or a string that converts to a finite
      number; anything else is `null`. */
  function NumericOrNull(v: Value, host: Host): (r: Option<real>)
    ensures r.Some? <==> (v.Num? && v.n.Finite?) || (v.Str? && host.parse(v.s).Finite?)
    ensures r.Some? && v.Num? ==> r.value == v.n.v
    ensures r.Some? && v.Str? ==> r.value == host.parse(v.s).v
  {
    match v
    case Num(Finite(x)) => Some(x)
    case Str(s) => if host.parse(s).Finite? then Some(host.parse(s).v) else None
    case _ => None
  }

  /** `toNumber(...) || null`: zero counts as missing. */
  function NonZeroOrNull(v: Value, host: Host): (r: Option<real>)
    ensures r.Some? <==> NumericOrNull(v, host).Some? && NumericOrNull(v, host).value != 0.0
    ensures r.Some? ==> r == NumericOrNull(v, host)
  {
    var n := NumericOrNull(v, host);
    if n.Some? && n.value != 0.0 then n else None
  }

  /** The point a record yields: its year is the first truthy of `year`,
      `Year`, `year_code`, its value the first truthy of `value`, `Value`,
      `value_num`; a record whose year or value is missing or zero yields none. */
  function PointOf(r: Row, host: Host): (p: Option<YearValue>)
    requires r.Row?
    ensures p.Some? <==> NonZeroOrNull(Or(Or(r.year, r.upperYear), r.yearCode), host).Some? &&
                         NonZeroOrNull(Or(Or(r.amount, r.upperAmount), r.amountNum), host).Some?
    ensures p.Some? ==> p.value.year != 0.0 && p.value.value != 0.0
    ensures p.Some? ==> p.value.year == NumericOrNull(Or(Or(r.year, r.upperYear), r.yearCode), host).value
    ensures p.Some? ==> p.value.value == NumericOrNull(Or(Or(r.amount, r.upperAmount), r.amountNum), host).value
  {
    var year := NonZeroOrNull(Or(Or(r.year, r.upperYear), r.yearCode), host);
    var value := NonZeroOrNull(Or(Or(r.amount, r.upperAmount), r.amountNum), host);
    if year.Some? && value.Some? then Some(YearValue(year.value, value.value)) else None
  }

  /** A record whose value is zero yields no point, even with a valid year. */
  lemma ZeroValueDropped(r: Row, host: Host)
    requires r.Row? && r.amount == Num(Finite(0.0)) && r.upperAmount.Undefined? && r.amountNum.Undefined?
    ensures PointOf(r, host).None?
  {
  }

  /** No row is `null`. */
  predicate AllPresent(rows: seq<Row>) {
    forall i :: 0 <= i < |rows| ==> rows[i].Row?
  }

  /** `records.map(...).filter(Boolean)`: the points of the rows, in row order. */
  function Points(rows: seq<Row>, host: Host): (r: seq<YearValue>)
    requires AllPresent(rows)
    ensures |r| <= |rows|
    ensures forall i :: 0 <= i < |r| ==> r[i].year != 0.0 && r[i].value != 0.0
    ensures forall i :: 0 <= i < |rows| && PointOf(rows[i], host).Some? ==> PointOf(rows[i], host).value in r
    ensures forall x :: x in r ==> exists i :: 0 <= i < |rows| && PointOf(rows[i], host) == Some(x)
  {
    if |rows| == 0 then []
    else
      var rest := Points(rows[1..], host);
      var p := PointOf(rows[0], host);
      assert forall i :: 1 <= i < |rows| ==> rows[i] == rows[1..][i - 1];
      if p.Some? then [p.value] + rest else rest
  }

  /** The points of consecutive row runs are the points of each run, in order. */
  lemma {:induction false} PointsConcat(a: seq<Row>, b: seq<Row>, host: Host)
    requires AllPresent(a) && AllPresent(b)
    ensures AllPresent(a + b)
    ensures Points(a + b, host) == Points(a, host) + Points(b, host)
    decreases |a|
  {
    if |a| == 0 {
      assert a + b == b;
    } else {
      assert (a + b)[1..] == a[1..] + b;
      assert AllPresent(a[1..]);
      PointsConcat(a[1..], b, host);
    }
  }

  /** Ascending by year. */
  predicate SortedByYear(s: seq<YearValue>) {
    forall i, j :: 0 <= i < j < |s| ==> s[i].year <= s[j].year
  }

  /** Insert a point after every point whose year is not larger. */
  function Insert(sorted: seq<YearValue>, x: YearValue): (r: seq<YearValue>)
    requires SortedByYear(sorted)
    ensures SortedByYear(r)
    ensures |r| == |sorted| + 1
    ensures r[0] == x || (|sorted| > 0 && r[0] == sorted[0])
  {
    if |sorted| == 0 then [x]
    else if x.year < sorted[0].year then [x] + sorted
    else
      var rest := Insert(sorted[1..], x);
      assert sorted == [sorted[0]] + sorted[1..];
      assert sorted[0].year <= rest[0].year;
      assert forall j :: 0 <= j < |rest| ==> rest[0].year <= rest[j].year;
      [sorted[0]] + rest
  }

  /** Inserting adds exactly the new point: the result is a permutation of
      the series with the point added. */
  lemma {:induction false} InsertPermutes(sorted: seq<YearValue>, x: YearValue)
    requires SortedByYear(sorted)
    ensures multiset(Insert(sorted, x)) == multiset(sorted) + multiset{x}
    decreases |sorted|
  {
    if |sorted| > 0 && x.year >= sorted[0].year {
      InsertPermutes(sorted[1..], x);
      assert sorted == [sorted[0]] + sorted[1..];
      assert Insert(sorted, x) == [sorted[0]] + Insert(sorted[1..], x);
    }
  }

  /** `sort((a, b) => a.year - b.year)`, which is stable: an insertion sort. */
  function SortByYear(s: seq<YearValue>): (r: seq<YearValue>)
    ensures SortedByYear(r)
    ensures multiset(r) == multiset(s)
    ensures |r| == |s|
  {
    if |s| == 0 then []
    else
      assert s == s[..|s| - 1] + [s[|s| - 1]];
      InsertPermutes(SortByYear(s[..|s| - 1]), s[|s| - 1]);
      Insert(SortByYear(s[..|s| - 1]), s[|s| - 1])
  }

  /** The points of `s` with year `y`, in order. */
  function WithYear(s: seq<YearValue>, y: real): seq<YearValue> {
    if |s| == 0 then []
    else (if s[0].year == y then [s[0]] else []) + WithYear(s[1..], y)
  }

  lemma {:induction false} WithYearConcat(a: seq<YearValue>, b: seq<YearValue>, y: real)
    ensures WithYear(a + b, y) == WithYear(a, y) + WithYear(b, y)
    decreases |a|
  {
    if |a| > 0 {
      WithYearConcat(a[1..], b, y);
      assert (a + b)[1..] == a[1..] + b;
    } else {
      assert a + b == b;
    }
  }

  lemma {:induction false} WithYearNone(s: seq<YearValue>, y: real)
    requires forall i :: 0 <= i < |s| ==> s[i].year != y
    ensures WithYear(s, y) == []
    decreases |s|
  {
    if |s| > 0 {
      WithYearNone(s[1..], y);
    }
  }

  /** Inserting keeps the points of each year in order and puts the new
      point after those already there. */
  lemma {:induction false} InsertStable(sorted: seq<YearValue>, x: YearValue, y: real)
    requires SortedByYear(sorted)
    ensures WithYear(Insert(sorted, x), y) == WithYear(sorted, y) + (if x.year == y then [x] else [])
    decreases |sorted|
  {
    var tail := if x.year == y then [x] else [];
    if |sorted| == 0 {
      WithYearCons(x, [], y);
    } else if x.year < sorted[0].year {
      assert Insert(sorted, x) == [x] + sorted;
      WithYearCons(x, sorted, y);
      if x.year == y {
        WithYearNone(sorted, y);
      }
    } else {
      var rest := Insert(sorted[1..], x);
      assert Insert(sorted, x) == [sorted[0]] + rest;
      InsertStable(sorted[1..], x, y);
      WithYearCons(sorted[0], rest, y);
      WithYearCons(sorted[0], sorted[1..], y);
      assert [sorted[0]] + sorted[1..] == sorted;
    }
  }

  /** The points of a year in `[h] + t`: `h` when it has that year, then those of `t`. */
  lemma WithYearCons(h: YearValue, t: seq<YearValue>, y: real)
    ensures WithYear([h] + t, y) == (if h.year == y then [h] else []) + WithYear(t, y)
  {
    assert ([h] + t)[1..] == t;
  }

  /** The sort is stable: the points of any one year keep their order. */
  lemma {:induction false} SortIsStable(s: seq<YearValue>, y: real)
    ensures WithYear(SortByYear(s), y) == WithYear(s, y)
    decreases |s|
  {
    if |s| > 0 {
      var init := s[..|s| - 1];
      var last := s[|s| - 1];
      SortStep(s);
      SortIsStable(init, y);
      InsertStable(SortByYear(init), last, y);
      WithYearSnoc(s, y);
    }
  }

  /** The points of a year in `s` are those of its front, then its last
      point when it has that year. */
  lemma WithYearSnoc(s: seq<YearValue>, y: real)
    requires |s| > 0
    ensures WithYear(s, y) ==
              WithYear(s[..|s| - 1], y) + (if s[|s| - 1].year == y then [s[|s| - 1]] else [])
  {
    var last := s[|s| - 1];
    assert s == s[..|s| - 1] + [last];
    WithYearConcat(s[..|s| - 1], [last], y);
    assert WithYear([last], y) == (if last.year == y then [last] else []) + WithYear([], y);
  }

  /** Sorting a non-empty sequence inserts its last point into its sorted front. */
  lemma SortStep(s: seq<YearValue>)
    requires |s| > 0
    ensures SortByYear(s) == Insert(SortByYear(s[..|s| - 1]), s[|s| - 1])
  {
  }

  /** Cutting a sorted series to its last six points keeps the latest years:
      every dropped point is no later than every kept one. */
  lemma KeepsLatest(s: seq<YearValue>)
    requires SortedByYear(s)
    ensures var kept := Seqs.TakeLast(s, MaxPoints);
      SortedByYear(kept) &&
      forall i, k :: 0 <= i < |s| - |kept| && 0 <= k < |kept| ==> s[i].year <= kept[k].year
  {
    var kept := Seqs.TakeLast(s, MaxPoints);
    forall i, k | 0 <= i < |s| - |kept| && 0 <= k < |kept|
      ensures s[i].year <= kept[k].year
    {
      assert kept[k] == s[|s| - |kept| + k];
    }
  }

  /** The series built from delivered rows: points in row order, sorted by
      year, cut to the latest six. */
  function SeriesOf(rows: seq<Row>, host: Host): (r: seq<YearValue>)
    requires AllPresent(rows)
    ensures SortedByYear(r)
    ensures |r| <= MaxPoints
    ensures |r| == if |Points(rows, host)| < MaxPoints then |Points(rows, host)| else MaxPoints
    ensures multiset(r) <= multiset(Points(rows, host))
  {
    var sorted := SortByYear(Points(rows, host));
    CutIsSubMultiset(sorted);
    Seqs.TakeLast(sorted, MaxPoints)
  }

  /** The cut keeps only points of the series it cuts. */
  lemma CutIsSubMultiset(s: seq<YearValue>)
    ensures multiset(Seqs.TakeLast(s, MaxPoints)) <= multiset(s)
  {
    SplitLast(s, Seqs.TakeLast(s, MaxPoints));
  }

  /** A sequence is its front followed by its last `|tail|` elements. */
  lemma SplitLast(s: seq<YearValue>, tail: seq<YearValue>)
    requires |tail| <= |s|
    requires forall i :: 0 <= i < |tail| ==> tail[i] == s[|s| - |tail| + i]
    ensures s == s[..|s| - |tail|] + tail
    ensures multiset(s) == multiset(s[..|s| - |tail|]) + multiset(tail)
  {
    assert s[|s| - |tail|..] == tail;
    assert s == s[..|s| - |tail|] + s[|s| - |tail|..];
  }

  /** Cutting a sorted series keeps the latest points: every point the cut
      drops is no later than every point it keeps. */
  lemma CutKeepsLatest(sorted: seq<YearValue>)
    requires SortedByYear(sorted)
    ensures var r := Seqs.TakeLast(sorted, MaxPoints);
      forall x, k :: x in multiset(sorted) - multiset(r) && 0 <= k < |r| ==> x.year <= r[k].year
  {
    var r := Seqs.TakeLast(sorted, MaxPoints);
    KeepsLatest(sorted);
    SplitLast(sorted, r);
    var front := sorted[..|sorted| - |r|];
    forall x, k | x in multiset(sorted) - multiset(r) && 0 <= k < |r|
      ensures x.year <= r[k].year
    {
      assert x in multiset(front);
      var i :| 0 <= i < |front| && front[i] == x;
      assert sorted[i] == x;
    }
  }

  /** The series holds the latest points of the rows: every point it leaves
      out is no later than every point it keeps. */
  lemma SeriesKeepsLatest(rows: seq<Row>, host: Host)
    requires AllPresent(rows)
    ensures var r := SeriesOf(rows, host);
      forall x, k :: x in multiset(Points(rows, host)) - multiset(r) && 0 <= k < |r| ==> x.year <= r[k].year
  {
    var sorted := SortByYear(Points(rows, host));
    CutKeepsLatest(sorted);
    assert SeriesOf(rows, host) == Seqs.TakeLast(sorted, MaxPoints);
  }

  /** `payload?.data || payload?.results || []`. */
  function RecordsOf(data: Member, results: Member): Member {
    if MemberTruthy(data) then data else if MemberTruthy(results) then results else ArrayOf([])
  }

  /** The rows of a delivered payload that the client can use, or `None`
      when it falls back: the records are not an array, the array is empty,
      or some element is `null` (reading its fields throws). */
  function UsableRows(reply: Reply): (r: Option<seq<Row>>)
    ensures r.Some? ==> reply.Delivered? && |r.value| > 0 && AllPresent(r.value)
    ensures r.Some? ==> RecordsOf(reply.data, reply.results) == ArrayOf(r.value)
  {
    if !reply.Delivered? then None
    else
      var records := RecordsOf(reply.data, reply.results);
      if records.ArrayOf? && |records.rows| > 0 && AllPresent(records.rows) then Some(records.rows) else None
  }

  /** `fetchFaostat`: the item and country are echoed; the series is the
      latest six valid points of the delivered records in year order, or the
      fallback series when the request failed, nothing usable was delivered,
      or no record yields a point. */
  function FetchFaostat(item: string, country: string, reply: Reply, host: Host): (r: FaostatStats)
    ensures r.item == item && r.country == country
    ensures |r.series| > 0 && SortedByYear(r.series)
    ensures UsableRows(reply).None? ==> r == Fallback(item, country)
    ensures UsableRows(reply).Some? && |Points(UsableRows(reply).value, host)| == 0 ==> r == Fallback(item, country)
    ensures UsableRows(reply).Some? && |Points(UsableRows(reply).value, host)| > 0 ==>
              r.series == SeriesOf(UsableRows(reply).value, host)
  {
    match UsableRows(reply)
    case None => Fallback(item, country)
    case Some(rows) =>
      var series := SeriesOf(rows, host);
      if |series| == 0 then Fallback(item, country) else FaostatStats(item, country, series)
  }
}

=== FILE: file_lock.dfy ===
/** The per-path promise queue of `withFileLock`, for one path.  Each call
    creates a promise `current` (resolved when its action finishes) and stores
    in the lock table a *derived* promise chained after its predecessor; the
    action runs once its predecessor's chain has settled, so actions on a path
    finish in call order.  Promises are identified by numbers: the k-th call's
    `current` is 2k and its derived promise 2k+1.

    When the action finishes the code deletes the table entry only if the
    entry is still `current`.  The entry is never `current` (it is a derived
    promise), so as written the entry is never deleted.  `LeaveAsWritten`
    models the code; `LeaveCorrected` compares against the promise that was
    actually stored, which drains the entry exactly when the path is idle. */
module FileLock {
  import opened Wrappers

  /** A call that has entered the queue and not finished yet. */
  datatype Waiter = Waiter(current: nat, chained: nat)

  /** The lock table's entry for the path, the unfinished calls in call order
      (the first one is the running action), and how many calls were made. */
  datatype LockState = LockState(entry: Option<nat>, pending: seq<Waiter>, calls: nat)

  /** One call entering the queue, or the running action finishing. */
  datatype Event = Call | Finish

  /** No call has been made: the table has no entry for the path. */
  const Initial: LockState := LockState(None, [], 0)

  /** `withFileLock` entering: the derived promise becomes the table entry. */
  function Enter(s: LockState): (r: LockState)
    ensures r.entry == Some(2 * s.calls + 1)
    ensures r.pending == s.pending + [Waiter(2 * s.calls, 2 * s.calls + 1)]
    ensures r.calls == s.calls + 1
  {
    var w := Waiter(2 * s.calls, 2 * s.calls + 1);
    LockState(Some(w.chained), s.pending + [w], s.calls + 1)
  }

  /** The running action finishing, as written: `locks.get(path) === current`
      decides the delete. */
  function LeaveAsWritten(s: LockState): LockState {
    if |s.pending| == 0 then s
    else
      var w := s.pending[0];
      var entry := if s.entry == Some(w.current) then None else s.entry;
      LockState(entry, s.pending[1..], s.calls)
  }

  /** The running action finishing, corrected: the entry is deleted when it is
      still the promise this call stored. */
  function LeaveCorrected(s: LockState): LockState {
    if |s.pending| == 0 then s
    else
      var w := s.pending[0];
      var entry := if s.entry == Some(w.chained) then None else s.entry;
      LockState(entry, s.pending[1..], s.calls)
  }

  function RunAsWritten(s: LockState, events: seq<Event>): LockState
    decreases |events|
  {
    if |events| == 0 then s
    else
      var s' := if events[0].Call? then Enter(s) else LeaveAsWritten(s);
      RunAsWritten(s', events[1..])
  }

  function RunCorrected(s: LockState, events: seq<Event>): LockState
    decreases |events|
  {
    if |events| == 0 then s
    else
      var s' := if events[0].Call? then Enter(s) else LeaveCorrected(s);
      RunCorrected(s', events[1..])
  }

  /** Invariant of the code as written: every waiter's `current` is even and
      any entry in the table is an odd, derived promise. */
  ghost predicate AsWrittenInvariant(s: LockState) {
    && (forall i :: 0 <= i < |s.pending| ==> s.pending[i].current % 2 == 0)
    && (s.entry.Some? ==> s.entry.value % 2 == 1)
    && (s.calls > 0 ==> s.entry.Some?)
  }

  /** As written, once a path has been used its table entry is never removed,
      whatever the interleaving of calls and completions. */
  lemma {:induction false} AsWrittenNeverDrains(s: LockState, events: seq<Event>)
    requires AsWrittenInvariant(s)
    ensures AsWrittenInvariant(RunAsWritten(s, events))
    ensures s.calls > 0 || Call in events ==> RunAsWritten(s, events).entry.Some?
    decreases |events|
  {
    if |events| > 0 {
      var s' := if events[0].Call? then Enter(s) else LeaveAsWritten(s);
      assert AsWrittenInvariant(s');
      assert events == [events[0]] + events[1..];
      assert events[0].Call? ==> s'.calls > 0;
      AsWrittenNeverDrains(s', events[1..]);
    }
  }

  /** The smallest witness: one call that completes leaves the entry behind,
      while the corrected version removes it. */
  lemma OneCallLeaksEntry()
    ensures RunAsWritten(Initial, [Call, Finish]) == LockState(Some(1), [], 1)
    ensures RunCorrected(Initial, [Call, Finish]) == LockState(None, [], 1)
  {
    assert [Call, Finish][1..] == [Finish];
    assert [Finish][1..] == [];
  }

  /** Invariant of the corrected queue: the entry is present exactly when calls
      are pending, and it is the last pending call's derived promise; derived
      promises increase along the queue and are below every future one. */
  ghost predicate CorrectedInvariant(s: LockState) {
    && (s.entry.None? <==> |s.pending| == 0)
    && (|s.pending| > 0 ==> s.entry == Some(s.pending[|s.pending| - 1].chained))
    && (forall i, j :: 0 <= i < j < |s.pending| ==> s.pending[i].chained < s.pending[j].chained)
    && (forall i :: 0 <= i < |s.pending| ==> s.pending[i].chained < 2 * s.calls + 1)
  }

  /** With the corrected comparison the table entry is removed exactly when the
      last pending call finishes: after any interleaving, the path has an entry
      if and only if some call on it is unfinished. */
  lemma {:induction false} CorrectedDrainsWhenIdle(s: LockState, events: seq<Event>)
    requires CorrectedInvariant(s)
    ensures CorrectedInvariant(RunCorrected(s, events))
    ensures RunCorrected(s, events).entry.None? <==> |RunCorrected(s, events).pending| == 0
    decreases |events|
  {
    if |events| > 0 {
      var s' := if events[0].Call? then Enter(s) else LeaveCorrected(s);
      if events[0].Finish? && |s.pending| > 1 {
        assert s.pending[0].chained < s.pending[|s.pending| - 1].chained;
      }
      assert CorrectedInvariant(s');
      CorrectedDrainsWhenIdle(s', events[1..]);
    }
  }

  /** The actions run in call order: the unfinished calls are always the most
      recent ones, consecutive and in call order, so the running action is the
      earliest unfinished call. */
  lemma {:induction false} QueueIsFifo(s: LockState, events: seq<Event>)
    requires forall i :: 0 <= i < |s.pending| ==> s.pending[i].current == 2 * i + 2 * (s.calls - |s.pending|)
    requires |s.pending| <= s.calls
    ensures var r := RunCorrected(s, events);
      |r.pending| <= r.calls &&
      forall i :: 0 <= i < |r.pending| ==> r.pending[i].current == 2 * i + 2 * (r.calls - |r.pending|)
    decreases |events|
  {
    if |events| > 0 {
      if events[0].Call? {
        QueueIsFifo(Enter(s), events[1..]);
      } else {
        QueueIsFifo(LeaveCorrected(s), events[1..]);
      }
    }
  }

  /** The pending queue does not depend on the table entry or on which
      comparison decides the delete: the correction changes nothing but the
      table. */
  lemma {:induction false} PendingIgnoresEntry(a: LockState, b: LockState, events: seq<Event>)
    requires a.pending == b.pending && a.calls == b.calls
    ensures RunAsWritten(a, events).pending == RunCorrected(b, events).pending
    ensures RunAsWritten(a, events).calls == RunCorrected(b, events).calls
    decreases |events|
  {
    if |events| > 0 {
      if events[0].Call? {
        PendingIgnoresEntry(Enter(a), Enter(b), events[1..]);
      } else {
        PendingIgnoresEntry(LeaveAsWritten(a), LeaveCorrected(b), events[1..]);
      }
    }
  }
}

=== FILE: file_store.dfy ===
/** The file-backed JSON document store: plain read, plain write through a
    temporary sibling file, and the read-modify-write `update` every other layer
    is built on.  The store does not look inside documents, so it is generic over
    the document type `D`.  Each operation is one atomic step on the disk: the
    per-path promise queue that serialises them is modelled separately in
    `FileLock`. */
module FileStore {
  import opened Wrappers

  /** A document's location on disk. */
  type Path = string

  /** What a read of one path finds: a parsable document, content that does not
      parse, or a path whose every access fails with an error other than
      "not found" (a permission error, say).  A path absent from the disk map
      does not exist. */
  datatype FileState<D> = Holds(doc: D) | Garbled | Blocked

  type Disk<D> = map<Path, FileState<D>>

  /** The errors the store propagates: a missing file without a default, content
      that does not parse, a filesystem failure, or an exception thrown by a
      caller-supplied transform. */
  datatype Failure = NotFound | Corrupt | IOFailure | Thrown

  /** The disk after an operation, and what the operation answered. */
  datatype Outcome<D, T> = Outcome(disk: Disk<D>, answer: Result<T, Failure>)

  /** The sibling file a write goes through: `<path>.tmp`. */
  function TempPath(p: Path): (t: Path)
    ensures t != p
    ensures |t| == |p| + 4
  {
    p + ".tmp"
  }

  /** Every path other than `p` and its temporary sibling is as it was. */
  ghost predicate OnlyTouches<D>(before: Disk<D>, after: Disk<D>, p: Path) {
    forall q :: q != p && q != TempPath(p) ==>
      (q in after <==> q in before) && (q in before ==> after[q] == before[q])
  }

  /** `readJsonFile`: read and parse the file at `p`. */
  function ReadJsonFile<D>(disk: Disk<D>, p: Path): Result<D, Failure> {
    if p !in disk then Err(NotFound)
    else match disk[p]
      case Holds(d) => Ok(d)
      case Garbled => Err(Corrupt)
      case Blocked => Err(IOFailure)
  }

  /** A write to `p` can go through: neither the target nor its temporary
      sibling refuses access. */
  predicate Writable<D>(disk: Disk<D>, p: Path) {
    !(p in disk && disk[p].Blocked?) && !(TempPath(p) in disk && disk[TempPath(p)].Blocked?)
  }

  /** First half of a write: the whole serialised document goes to `<p>.tmp`. */
  function WriteTemp<D>(disk: Disk<D>, p: Path, d: D): (r: Disk<D>)
    ensures TempPath(p) in r && r[TempPath(p)] == Holds(d)
    ensures p in r <==> p in disk
    ensures p in disk ==> r[p] == disk[p]
  {
    disk[TempPath(p) := Holds(d)]
  }

  /** Second half of a write: `<p>.tmp` is renamed over `p` in one step. */
  function RenameTemp<D>(disk: Disk<D>, p: Path): (r: Disk<D>)
    requires TempPath(p) in disk
    ensures p in r && r[p] == disk[TempPath(p)]
    ensures TempPath(p) !in r
  {
    (disk - {TempPath(p)})[p := disk[TempPath(p)]]
  }

  /** `<p>.tmp` refuses access, so a write to `p` fails before touching anything. */
  predicate TempBlocked<D>(disk: Disk<D>, p: Path) {
    TempPath(p) in disk && disk[TempPath(p)].Blocked?
  }

  /** What a failed write of `d` to `p` leaves behind.  When `<p>.tmp` refuses
      access nothing changes; otherwise the whole document reaches `<p>.tmp`
      and only the rename over `p` fails, so the complete temporary file stays
      behind.  Either way `p` itself is untouched. */
  function FailedWrite<D>(disk: Disk<D>, p: Path, d: D): (r: Disk<D>)
    ensures OnlyTouches(disk, r, p)
    ensures (p in r <==> p in disk) && (p in disk ==> r[p] == disk[p])
    ensures TempBlocked(disk, p) ==> r == disk
    ensures !TempBlocked(disk, p) ==> TempPath(p) in r && r[TempPath(p)] == Holds(d)
  {
    if TempBlocked(disk, p) then disk else WriteTemp(disk, p, d)
  }

  /** `writeJsonFile`: write to the temporary sibling, then rename it over `p`.
      Each half can fail on its own. */
  function WriteJsonFile<D>(disk: Disk<D>, p: Path, d: D): (o: Outcome<D, ()>)
    ensures o.answer.Ok? <==> Writable(disk, p)
    ensures o.answer.Err? ==> o.answer.error == IOFailure
    ensures o.answer.Ok? ==> p in o.disk && o.disk[p] == Holds(d) && TempPath(p) !in o.disk
    ensures OnlyTouches(disk, o.disk, p)
    // a failure leaves `p` as it was, and the temporary file only when the rename failed
    ensures o.answer.Err? ==> o.disk == FailedWrite(disk, p, d)
  {
    if TempBlocked(disk, p) then Outcome(disk, Err(IOFailure))
    else
      var mid := WriteTemp(disk, p, d);
      if p in disk && disk[p].Blocked? then Outcome(mid, Err(IOFailure))
      else Outcome(RenameTemp(mid, p), Ok(()))
  }

  /** A write is atomic for readers of `p`: at every intermediate state `p`
      holds either its old content or the complete new document, never a
      partial one; and once the write finishes, `p` holds the new document. */
  lemma WriteIsAtomic<D>(disk: Disk<D>, p: Path, d: D)
    requires Writable(disk, p)
    ensures var mid := WriteTemp(disk, p, d);
      ReadJsonFile(mid, p) == ReadJsonFile(disk, p) &&
      ReadJsonFile(RenameTemp(mid, p), p) == Ok(d) &&
      WriteJsonFile(disk, p, d) == Outcome(RenameTemp(mid, p), Ok(()))
  {
  }

  /** A failed write is invisible to readers of `p`, and the temporary file it
      may leave behind does not stand in the way of the next write. */
  lemma FailedWriteIsInvisible<D>(disk: Disk<D>, p: Path, d: D, e: D)
    requires !Writable(disk, p)
    ensures ReadJsonFile(WriteJsonFile(disk, p, d).disk, p) == ReadJsonFile(disk, p)
    ensures Writable(WriteJsonFile(disk, p, d).disk, p) == Writable(disk, p)
    ensures WriteJsonFile(WriteJsonFile(disk, p, d).disk, p, e).answer.Err?
  {
  }

  /** A successful write is read back unchanged. */
  lemma WriteThenRead<D>(disk: Disk<D>, p: Path, d: D)
    requires Writable(disk, p)
    ensures WriteJsonFile(disk, p, d).answer.Ok?
    ensures ReadJsonFile(WriteJsonFile(disk, p, d).disk, p) == Ok(d)
    ensures Writable(WriteJsonFile(disk, p, d).disk, p)
  {
  }

  /** Writing back exactly what a path holds, when no temporary sibling is
      lying around, leaves the disk as it was. */
  lemma {:induction false} RewriteIsNoop<D>(disk: Disk<D>, p: Path, d: D)
    requires p in disk && disk[p] == Holds(d) && TempPath(p) !in disk
    ensures WriteJsonFile(disk, p, d) == Outcome(disk, Ok(()))
  {
    var mid := WriteTemp(disk, p, d);
    assert mid - {TempPath(p)} == disk;
    assert disk[p := Holds(d)] == disk;
  }

  /** `writeJson`: a write under the path's lock. */
  function WriteJson<D>(disk: Disk<D>, p: Path, d: D): (o: Outcome<D, ()>)
    ensures Writable(disk, p) ==> o.answer.Ok? && p in o.disk && o.disk[p] == Holds(d)
    ensures Writable(disk, p) ==> OnlyTouches(disk, o.disk, p)
    ensures !Writable(disk, p) ==> o == Outcome(FailedWrite(disk, p, d), Err(IOFailure))
  {
    WriteJsonFile(disk, p, d)
  }

  /** `readJson`: read `p`; when the file does not exist and a default is
      supplied, write the default through and answer it.  A missing file
      without a default, unparsable content and any other read error are
      propagated without writing anything. */
  function ReadJson<D>(disk: Disk<D>, p: Path, default: Option<D>): (o: Outcome<D, D>)
    ensures p in disk && disk[p].Holds? ==> o == Outcome(disk, Ok(disk[p].doc))
    ensures p in disk && disk[p].Garbled? ==> o == Outcome(disk, Err(Corrupt))
    ensures p in disk && disk[p].Blocked? ==> o == Outcome(disk, Err(IOFailure))
    ensures p !in disk && default.None? ==> o == Outcome(disk, Err(NotFound))
    ensures p !in disk && default.Some? && Writable(disk, p) ==>
              o.answer == Ok(default.value) && p in o.disk && o.disk[p] == Holds(default.value) &&
              OnlyTouches(disk, o.disk, p)
    ensures p !in disk && default.Some? && !Writable(disk, p) ==>
              o == Outcome(FailedWrite(disk, p, default.value), Err(IOFailure))
  {
    match ReadJsonFile(disk, p)
    case Ok(d) => Outcome(disk, Ok(d))
    case Err(e) =>
      if e == NotFound && default.Some? then
        var w := WriteJsonFile(disk, p, default.value);
        if w.answer.Ok? then Outcome(w.disk, Ok(default.value)) else Outcome(w.disk, Err(w.answer.error))
      else Outcome(disk, Err(e))
  }

  /** What a transform hands back to `updateJson`.  `Envelope` is an object
      whose own properties `data` and `result` are present exactly when the
      corresponding field is `Some`; `Bare` is any other value (a scalar, an
      array, `null`); `Threw` is a transform that raised an exception. */
  datatype Returned<D, R> =
    | Threw
    | Envelope(data: Option<D>, result: Option<R>)
    | Bare(value: R)

  /** What `updateJson` answers: the transform's `result` property or its bare
      value, or, for an envelope without a `result` property, the envelope
      object itself. */
  datatype Reply<D, R> = Value(value: R) | EnvelopeItself(data: Option<D>)

  /** The content a transform receives: the parsed file, or the default when
      the file does not exist and a default is supplied. */
  function Load<D>(disk: Disk<D>, p: Path, default: Option<D>): (r: Result<D, Failure>)
    ensures p !in disk && default.Some? ==> r == Ok(default.value)
    ensures p !in disk && default.None? ==> r == Err(NotFound)
    ensures p in disk ==> r == ReadJsonFile(disk, p)
  {
    match ReadJsonFile(disk, p)
    case Ok(d) => Ok(d)
    case Err(e) => if e == NotFound && default.Some? then Ok(default.value) else Err(e)
  }

  /** The content `updateJson` persists after a transform that did not throw:
      the envelope's own `data` property when present; otherwise the content
      the transform was given.  A bare return value is never persisted. */
  function NextContent<D, R>(current: D, ret: Returned<D, R>): (next: D)
    requires !ret.Threw?
  {
    if ret.Envelope? && ret.data.Some? then ret.data.value else current
  }

  /** The value `updateJson` answers after a transform that did not throw. */
  function ReplyOf<D, R>(ret: Returned<D, R>): Reply<D, R>
    requires !ret.Threw?
  {
    match ret
    case Envelope(data, result) => if result.Some? then Value(result.value) else EnvelopeItself(data)
    case Bare(v) => Value(v)
  }

  /** `updateJson`: in one step under the path's lock, load the current content
      (or the default when the file is missing), apply the transform, persist
      the normalised next content and answer the normalised result. */
  function Update<D, R>(disk: Disk<D>, p: Path, default: Option<D>, transform: D -> Returned<D, R>)
    : (o: Outcome<D, Reply<D, R>>)
    // a read failure other than "missing with a default" propagates; nothing is written
    ensures Load(disk, p, default).Err? ==> o == Outcome(disk, Err(Load(disk, p, default).error))
    // a missing file with a default hands the default to the transform
    ensures p !in disk && default.Some? && !transform(default.value).Threw? && Writable(disk, p) ==>
              o.answer.Ok? && p in o.disk &&
              o.disk[p] == Holds(NextContent(default.value, transform(default.value)))
    // a throwing transform writes nothing and the error propagates
    ensures Load(disk, p, default).Ok? && transform(Load(disk, p, default).value).Threw? ==>
              o == Outcome(disk, Err(Thrown))
    // a failing write leaves `p` as it was, and at most the temporary file behind
    ensures Load(disk, p, default).Ok? && !Writable(disk, p) &&
            !transform(Load(disk, p, default).value).Threw? ==>
              var current := Load(disk, p, default).value;
              o == Outcome(FailedWrite(disk, p, NextContent(current, transform(current))), Err(IOFailure))
    ensures Load(disk, p, default).Ok? && Writable(disk, p) &&
            !transform(Load(disk, p, default).value).Threw? ==>
              var current := Load(disk, p, default).value;
              var ret := transform(current);
              && o.answer.Ok?
              && p in o.disk && OnlyTouches(disk, o.disk, p)
              // an envelope's own `data` is persisted
              && (ret.Envelope? && ret.data.Some? ==> o.disk[p] == Holds(ret.data.value))
              // anything else re-persists the unchanged current content
              && (ret.Bare? || ret.data.None? ==> o.disk[p] == Holds(current))
              // the answer is `result` when present, else the whole return value
              && (ret.Envelope? && ret.result.Some? ==> o.answer.value == Value(ret.result.value))
              && (ret.Envelope? && ret.result.None? ==> o.answer.value == EnvelopeItself(ret.data))
              && (ret.Bare? ==> o.answer.value == Value(ret.value))
  {
    match Load(disk, p, default)
    case Err(e) => Outcome(disk, Err(e))
    case Ok(current) =>
      var ret := transform(current);
      if ret.Threw? then Outcome(disk, Err(Thrown))
      else
        var w := WriteJsonFile(disk, p, NextContent(current, ret));
        if w.answer.Ok? then Outcome(w.disk, Ok(ReplyOf(ret))) else Outcome(w.disk, Err(w.answer.error))
  }

  /** The content after applying `ts` in order to `start`, or `None` when one
      of them throws. */
  function FoldContent<D, R>(start: D, ts: seq<D -> Returned<D, R>>): Option<D> {
    if |ts| == 0 then Some(start)
    else
      var ret := ts[0](start);
      if ret.Threw? then None else FoldContent(NextContent(start, ret), ts[1..])
  }

  /** A series of `updateJson` calls on one path, executed in submission order
      as the path's lock queue runs them; it stops at the first failure. */
  function UpdateAll<D, R>(disk: Disk<D>, p: Path, default: Option<D>, ts: seq<D -> Returned<D, R>>)
    : Outcome<D, seq<Reply<D, R>>>
    decreases |ts|
  {
    if |ts| == 0 then Outcome(disk, Ok([]))
    else
      var first := Update(disk, p, default, ts[0]);
      match first.answer
      case Err(e) => Outcome(first.disk, Err(e))
      case Ok(reply) =>
        var rest := UpdateAll(first.disk, p, default, ts[1..]);
        match rest.answer
        case Err(e) => Outcome(rest.disk, Err(e))
        case Ok(replies) => Outcome(rest.disk, Ok([reply] + replies))
  }

  /** Serialisability: when no transform throws and the path accepts writes,
      the calls all succeed and the final content is the fold of the
      transforms, in submission order, over the initial content. */
  lemma {:induction false} UpdateAllIsFold<D, R>(disk: Disk<D>, p: Path, default: Option<D>,
                                                 ts: seq<D -> Returned<D, R>>)
    requires Load(disk, p, default).Ok? && Writable(disk, p)
    requires FoldContent(Load(disk, p, default).value, ts).Some?
    ensures UpdateAll(disk, p, default, ts).answer.Ok?
    ensures |UpdateAll(disk, p, default, ts).answer.value| == |ts|
    ensures |ts| > 0 ==>
              p in UpdateAll(disk, p, default, ts).disk &&
              UpdateAll(disk, p, default, ts).disk[p] ==
                Holds(FoldContent(Load(disk, p, default).value, ts).value)
    decreases |ts|
  {
    if |ts| > 0 {
      var current := Load(disk, p, default).value;
      var first := Update(disk, p, default, ts[0]);
      var next := NextContent(current, ts[0](current));
      assert first.answer.Ok? && p in first.disk && first.disk[p] == Holds(next);
      assert Load(first.disk, p, default) == Ok(next);
      assert Writable(first.disk, p);
      if |ts| > 1 {
        UpdateAllIsFold(first.disk, p, default, ts[1..]);
      }
    }
  }

  /** The single-transaction form every consumer of the store uses: a step that
      either throws (`None`) or returns the next content and the result. */
  function Transact<D, R>(disk: Disk<D>, p: Path, default: Option<D>, step: D -> Option<(D, R)>)
    : (o: Outcome<D, R>)
    ensures Load(disk, p, default).Err? ==> o == Outcome(disk, Err(Load(disk, p, default).error))
    ensures Load(disk, p, default).Ok? && step(Load(disk, p, default).value).None? ==>
              o == Outcome(disk, Err(Thrown))
    ensures (Load(disk, p, default).Ok? && step(Load(disk, p, default).value).Some? &&
             !Writable(disk, p)) ==>
              o == Outcome(FailedWrite(disk, p, step(Load(disk, p, default).value).value.0), Err(IOFailure))
    ensures Load(disk, p, default).Ok? && Writable(disk, p) &&
            step(Load(disk, p, default).value).Some? ==>
              var out := step(Load(disk, p, default).value).value;
              o.answer == Ok(out.1) && p in o.disk && o.disk[p] == Holds(out.0) &&
              TempPath(p) !in o.disk && OnlyTouches(disk, o.disk, p)
  {
    match Load(disk, p, default)
    case Err(e) => Outcome(disk, Err(e))
    case Ok(current) =>
      match step(current)
      case None => Outcome(disk, Err(Thrown))
      case Some(out) =>
        var w := WriteJsonFile(disk, p, out.0);
        if w.answer.Ok? then Outcome(w.disk, Ok(out.1)) else Outcome(w.disk, Err(w.answer.error))
  }

  /** The transform `Transact` runs, as an `updateJson` transform returning
      `{ data, result }`. */
  function AsEnvelope<D, R>(out: Option<(D, R)>): Returned<D, R> {
    match out
    case None => Threw
    case Some(pair) => Envelope(Some(pair.0), Some(pair.1))
  }

  /** `Transact` is `updateJson` with a transform that always returns both
      `data` and `result`: same disk, same answer. */
  lemma TransactIsUpdate<D, R>(disk: Disk<D>, p: Path, default: Option<D>, step: D -> Option<(D, R)>)
    ensures var u := Update(disk, p, default, (d: D) => AsEnvelope(step(d)));
      var t := Transact(disk, p, default, step);
      && u.disk == t.disk
      && (t.answer.Ok? <==> u.answer.Ok?)
      && (t.answer.Ok? ==> u.answer.value == Value(t.answer.value))
      && (t.answer.Err? ==> u.answer.error == t.answer.error)
  {
  }
}

=== FILE: http.dfy ===
/** What a route handler sends back, reduced to a status code and a body, and
    the data directory it leaves behind. */
module Http {
  import opened Records

  datatype Body<T> = ErrorMessage(error: string) | Json(value: T) | NoBody

  datatype Response<T> = Response(status: nat, body: Body<T>)

  /** A handled request: the disk afterwards and the response. */
  datatype Handled<T> = Handled(disk: AppDisk, response: Response<T>)

  /** The application's error handler: any error passed to `next` becomes 500. */
  function InternalError<T>(): Response<T> {
    Response(500, ErrorMessage("Internal Server Error"))
  }

  function Reject<T>(status: nat, message: string): Response<T> {
    Response(status, ErrorMessage(message))
  }
}

=== FILE: js_values.dfy ===
/** The JavaScript values that arrive in request bodies, query strings and
    third-party payloads, with the language's truthiness and `Number(...)`
    conversion.  Numbers are modelled by their exact real value; IEEE rounding
    is not modelled. */
module JsValues {

  /** A JavaScript number: a finite value, or one of the three non-finite ones. */
  datatype Number = Finite(v: real) | NaN | Infinity | NegInfinity {

    /** `Number.isFinite`. */
    predicate IsFinite() {
      Finite?
    }
  }

  /** A JSON-compatible value as a handler receives it.  `Composite` stands for
      any object or array; its contents are not inspected by the modelled code. */
  datatype Value =
    | Undefined
    | Null
    | Bool(b: bool)
    | Num(n: Number)
    | Str(s: string)
    | Composite

  /** JavaScript truthiness. */
  predicate Truthy(v: Value) {
    match v
    case Undefined => false
    case Null => false
    case Bool(b) => b
    case Num(n) => (n.Finite? && n.v != 0.0) || n.Infinity? || n.NegInfinity?
    case Str(s) => |s| > 0
    case Composite => true
  }

  /** `a || b`: the first operand when it is truthy, otherwise the second. */
  function Or(a: Value, b: Value): (r: Value)
    ensures Truthy(a) ==> r == a
    ensures !Truthy(a) ==> r == b
  {
    if Truthy(a) then a else b
  }

  /** `value === null || value === undefined`. */
  predicate IsNullish(v: Value) {
    v.Undefined? || v.Null?
  }

  /** The two number conversions the host performs on text: `Number(text)` and
      `String(number)`.  They are parameters of the model, not defined by it. */
  datatype Host = Host(parse: string -> Number, show: real -> string)

  /** `Number(value)`.  Objects and arrays convert to NaN in the model. */
  function ToNumber(v: Value, host: Host): (r: Number)
    ensures v.Num? ==> r == v.n
    ensures v.Str? ==> r == host.parse(v.s)
    ensures v.Null? ==> r == Finite(0.0)
    ensures v.Undefined? || v.Composite? ==> r == NaN
  {
    match v
    case Undefined => NaN
    case Null => Finite(0.0)
    case Bool(b) => Finite(if b then 1.0 else 0.0)
    case Num(n) => n
    case Str(s) => host.parse(s)
    case Composite => NaN
  }

  /** `String(value)`, as a template literal renders it.  Numbers are shown
      by the host; an object or array renders as `objectText`, which the model
      does not compute. */
  function ToText(v: Value, host: Host, objectText: string): (r: string)
    ensures v.Str? ==> r == v.s
    ensures v.Num? && v.n.Finite? ==> r == host.show(v.n.v)
    ensures v.Composite? ==> r == objectText
  {
    match v
    case Undefined => "undefined"
    case Null => "null"
    case Bool(b) => if b then "true" else "false"
    case Num(n) =>
      (match n
       case Finite(x) => host.show(x)
       case NaN => "NaN"
       case Infinity => "Infinity"
       case NegInfinity => "-Infinity")
    case Str(s) => s
    case Composite => objectText
  }
}

=== FILE: markets.dfy ===
/** `GET /api/markets`: every stored market enriched with its soil report,
    the latest market news with photos, the commodity statistics, and up to
    six nearby products.  Cached fetches go through `CacheStore.GetOrSetCache`;
    what a fetcher would produce for a cache path and key is the parameter
    `fetch`.  The great-circle distance is the uninterpreted parameter
    `distance`, and the product-photo lookup is `imageFor`. */
module Markets {
  import opened Wrappers
  import opened JsValues
  import opened Records
  import opened FileStore
  import opened Http
  import DataPaths
  import Seqs
  import Text
  import CacheKeys
  import CacheStore
  import ProductCatalog

  const TopCommodities: seq<string> := ["tomatoes", "potatoes", "apples"]
  const MaxProductDistanceKm: real := 60.0
  const NewsFallbackQuery: string := "legume proaspete"

  /** The markets array (`[]` when absent), or `None` when the document is `null`. */
  function MarketsOrEmpty(d: Doc): Option<seq<Market>> {
    match d
    case MarketsDoc(ms) => Some(ms)
    case NullDoc => None
    case _ => Some([])
  }

  // ---------------------------------------------------------------------------
  // Products
  // ---------------------------------------------------------------------------

  /** A product as a market lists it. */
  datatype MarketProduct = MarketProduct(
    id: string,
    name: string,
    category: Value,
    unit: Value,
    available: bool,
    rating: Option<real>,
    image: Option<Image>,
    vendor: Option<ProductCatalog.VendorSummary>)

  function Project(e: ProductCatalog.CatalogEntry): MarketProduct {
    var p := e.product;
    MarketProduct(p.id, p.name, p.category, p.unit, p.available, p.rating, p.image, e.vendor)
  }

  /** The product projection: one entry per product, in order, keeping id,
      name, category, unit, availability, rating and image, with the summary of
      the last vendor holding the product's `vendorId`, or null. */
  function ProjectAll(products: seq<Product>, vendors: seq<Vendor>): (r: seq<MarketProduct>)
    ensures |r| == |products|
    ensures forall i :: 0 <= i < |r| ==>
              && r[i].id == products[i].id && r[i].name == products[i].name
              && r[i].image == products[i].image && r[i].rating == products[i].rating
              && r[i].available == products[i].available
              && r[i].category == products[i].category && r[i].unit == products[i].unit
    ensures forall i :: 0 <= i < |r| ==>
              (r[i].vendor.None? <==> forall k :: 0 <= k < |vendors| ==> vendors[k].id != products[i].vendorId)
    ensures forall i :: 0 <= i < |r| && r[i].vendor.Some? ==>
              r[i].vendor.value == ProductCatalog.SummaryOf(ProductCatalog.LastWithId(vendors, products[i].vendorId).value)
  {
    var joined := ProductCatalog.Join(products, vendors);
    seq(|joined|, i requires 0 <= i < |joined| => Project(joined[i]))
  }

  /** A product qualifies for a market when the market or the vendor lacks
      coordinates, or the vendor is within 60 km. */
  predicate Qualifies(m: Market, p: MarketProduct, distance: (real, real, real, real) -> real) {
    || m.lat.None? || m.lng.None?
    || p.vendor.None? || p.vendor.value.lat.None? || p.vendor.value.lng.None?
    || distance(m.lat.value, m.lng.value, p.vendor.value.lat.value, p.vendor.value.lng.value) <= MaxProductDistanceKm
  }

  /** The qualifying products of the pool, in pool order. */
  function Nearby(m: Market, ps: seq<MarketProduct>, distance: (real, real, real, real) -> real)
    : seq<MarketProduct>
  {
    Seqs.Filter(ps, (p: MarketProduct) => Qualifies(m, p, distance))
  }

  /** The products a market lists: the first six qualifying products, or the
      first six of all products when none qualifies. */
  function SelectProducts(m: Market, ps: seq<MarketProduct>, distance: (real, real, real, real) -> real)
    : (r: seq<MarketProduct>)
    ensures |r| <= 6
    ensures forall x :: x in r ==> x in ps
    ensures (exists i :: 0 <= i < |ps| && Qualifies(m, ps[i], distance)) ==>
              0 < |r| && forall x :: x in r ==> Qualifies(m, x, distance)
    ensures (exists i :: 0 <= i < |ps| && Qualifies(m, ps[i], distance)) ==>
              && r <= Nearby(m, ps, distance)
              && |r| == if |Nearby(m, ps, distance)| < 6 then |Nearby(m, ps, distance)| else 6
    ensures (forall i :: 0 <= i < |ps| ==> !Qualifies(m, ps[i], distance)) ==> r == Seqs.Take(ps, 6)
  {
    var local := Nearby(m, ps, distance);
    if |local| > 0 then
      assert local[0] in local;
      Seqs.Take(local, 6)
    else
      assert forall i :: 0 <= i < |ps| ==> !Qualifies(m, ps[i], distance);
      Seqs.Take(ps, 6)
  }

  /** A market without coordinates lists the first six products, nearness aside. */
  lemma NoCoordinatesListsFirstSix(m: Market, ps: seq<MarketProduct>, distance: (real, real, real, real) -> real)
    requires m.lat.None? || m.lng.None?
    ensures SelectProducts(m, ps, distance) == Seqs.Take(ps, 6)
  {
    var keep := (p: MarketProduct) => Qualifies(m, p, distance);
    assert forall i :: 0 <= i < |ps| ==> keep(ps[i]);
    assert Seqs.Filter(ps, keep) == ps;
  }

  /** When six or more products qualify, the market lists exactly six, all qualifying. */
  lemma {:induction false} EnoughNearbyFillsSix(m: Market, ps: seq<MarketProduct>,
                                                distance: (real, real, real, real) -> real)
    requires 6 <= |Nearby(m, ps, distance)|
    ensures |SelectProducts(m, ps, distance)| == 6
    ensures forall x :: x in SelectProducts(m, ps, distance) ==> Qualifies(m, x, distance)
  {
    var local := Nearby(m, ps, distance);
    assert local[0] in local;
    assert Qualifies(m, local[0], distance);
  }

  // ---------------------------------------------------------------------------
  // News
  // ---------------------------------------------------------------------------

  /** The `commodity` field of a news item, `undefined` for anything else. */
  function CommodityOf(item: Payload): Value {
    if item.NewsReport? then item.news.commodity else Undefined
  }

  /** The news-image table: each top commodity maps to itself. */
  function NewsTable(name: string): Value {
    if name in TopCommodities then Str(name) else Undefined
  }

  /** The photo query for a news item: the table entry for its lowercased
      commodity, else the commodity itself when truthy, else `legume proaspete`. */
  function NewsImageQuery(item: Payload): (q: Value)
    ensures Truthy(q)
    ensures CommodityOf(item).Str? && Text.Lower(CommodityOf(item).s) in TopCommodities ==>
              q == Str(Text.Lower(CommodityOf(item).s))
    ensures !(CommodityOf(item).Str? && Text.Lower(CommodityOf(item).s) in TopCommodities) ==>
              q == if Truthy(CommodityOf(item)) then CommodityOf(item) else Str(NewsFallbackQuery)
  {
    var c := CommodityOf(item);
    var name := if c.Str? then Text.Lower(c.s) else "";
    Or(Or(NewsTable(name), c), Str(NewsFallbackQuery))
  }

  /** A news item with its photo. */
  datatype NewsItem = NewsItem(item: Payload, image: Option<Image>)

  /** Each fetched news value with its photo; a null value stays null. */
  function WithImages(items: seq<Payload>, imageFor: Value -> Option<Image>): (r: seq<Option<NewsItem>>)
    ensures |r| == |items|
    ensures forall i :: 0 <= i < |items| ==> (r[i].None? <==> items[i] == Nothing)
    ensures forall i :: 0 <= i < |items| && r[i].Some? ==> r[i].value.item == items[i]
  {
    seq(|items|, i requires 0 <= i < |items| =>
      if items[i] == Nothing then None else Some(NewsItem(items[i], imageFor(NewsImageQuery(items[i])))))
  }

  /** The present items, in order (`filter(Boolean)`). */
  function Present(xs: seq<Option<NewsItem>>): (r: seq<NewsItem>)
    ensures |r| <= |xs|
    ensures forall y :: y in r <==> Some(y) in xs
  {
    if |xs| == 0 then []
    else
      var rest := Present(xs[1..]);
      assert forall y :: Some(y) in xs <==> Some(y) == xs[0] || Some(y) in xs[1..];
      if xs[0].Some? then [xs[0].value] + rest else rest
  }

  /** The news a market shows: at most three, null items dropped. */
  function MarketNews(xs: seq<Option<NewsItem>>): (r: seq<NewsItem>)
    ensures |r| <= 3
    ensures forall y :: y in r ==> Some(y) in xs
    ensures r <= Present(xs)
  {
    Seqs.Take(Present(xs), 3)
  }

  // ---------------------------------------------------------------------------
  // Soil
  // ---------------------------------------------------------------------------

  /** The soil fields a market shows. */
  datatype SoilView = SoilView(ph: Value, organicCarbon: Value, qualityScore: Value)

  /** The projection of a soil value: null stays null; a report shows its pH,
      organic carbon and quality score; any other value has none of them. */
  function SoilViewOf(v: Payload): (r: Option<SoilView>)
    ensures r.None? <==> v == Nothing
    ensures v.SoilReport? ==> r == Some(SoilView(v.soil.ph, v.soil.organicCarbon, v.soil.qualityScore))
  {
    match v
    case Nothing => None
    case SoilReport(s) => Some(SoilView(s.ph, s.organicCarbon, s.qualityScore))
    case _ => Some(SoilView(Undefined, Undefined, Undefined))
  }

  // ---------------------------------------------------------------------------
  // Enrichment
  // ---------------------------------------------------------------------------

  datatype MarketView = MarketView(
    id: string,
    name: string,
    openStands: int,
    activeGrowers: int,
    pickupPoints: int,
    soil: Option<SoilView>,
    marketNews: seq<NewsItem>,
    globalStats: Payload,
    products: seq<MarketProduct>)

  function Enrich(m: Market, soil: Payload, news: seq<Option<NewsItem>>, stats: Payload,
                  ps: seq<MarketProduct>, distance: (real, real, real, real) -> real): (v: MarketView)
    ensures v.id == m.id && v.name == m.name && v.globalStats == stats
    ensures v.openStands == m.openStands && v.activeGrowers == m.activeGrowers && v.pickupPoints == m.pickupPoints
    ensures |v.products| <= 6 && |v.marketNews| <= 3
    ensures v.marketNews == MarketNews(news) && v.soil == SoilViewOf(soil)
    ensures forall x :: x in v.products ==> x in ps
    ensures v.products == SelectProducts(m, ps, distance)
  {
    MarketView(m.id, m.name, m.openStands, m.activeGrowers, m.pickupPoints, SoilViewOf(soil),
               MarketNews(news), stats, SelectProducts(m, ps, distance))
  }

  // ---------------------------------------------------------------------------
  // Cached fetches
  // ---------------------------------------------------------------------------

  /** The value one `getOrSetCache` call answers: a live cached value without
      calling the fetcher, otherwise what the fetcher produced (stored when not
      null); failures of the cache file or the fetcher propagate. */
  function CachedValue(disk: AppDisk, p: Path, key: string, ttl: int,
                       fetch: (Path, string) -> CacheStore.Produced, now: int): (o: Outcome<Doc, Payload>)
    ensures var got := CacheStore.CacheGet(disk, p, key, now);
      && (got.answer.Err? ==> o == Outcome(disk, Err(got.answer.error)))
      && (got.answer.Ok? && got.answer.value != Nothing ==> o == Outcome(got.disk, Ok(got.answer.value)))
      && (got.answer == Ok(Nothing) && fetch(p, key).ProducerThrew? ==> o == Outcome(got.disk, Err(Thrown)))
      && (got.answer == Ok(Nothing) && fetch(p, key) == CacheStore.Produced(Nothing) ==>
            o == Outcome(got.disk, Ok(Nothing)))
      && (got.answer == Ok(Nothing) && fetch(p, key).Produced? && fetch(p, key).value != Nothing ==>
            var put := CacheStore.CacheSet(got.disk, p, key, fetch(p, key).value, ttl, now);
            && o.disk == put.disk
            && (put.answer.Ok? ==> o.answer == Ok(fetch(p, key).value))
            && (put.answer.Err? ==> o.answer == Err(put.answer.error)))
  {
    var run := CacheStore.GetOrSetCache(disk, p, key, ttl, now, now, fetch(p, key));
    if run.outcome.answer.Err? then Outcome(run.outcome.disk, Err(run.outcome.answer.error))
    else Outcome(run.outcome.disk, Ok(run.outcome.answer.value.value))
  }

  /** The cached news value of each commodity, one `getOrSetCache` after the other. */
  function FetchNews(disk: AppDisk, commodities: seq<string>, fetch: (Path, string) -> CacheStore.Produced, now: int)
    : (o: Outcome<Doc, seq<Payload>>)
    ensures o.answer.Ok? ==> |o.answer.value| == |commodities|
    decreases |commodities|
  {
    if |commodities| == 0 then Outcome(disk, Ok([]))
    else
      var first := CachedValue(disk, DataPaths.UsdaNewsCache, CacheKeys.CommodityKey(commodities[0]),
                               CacheKeys.NewsTtl, fetch, now);
      match first.answer
      case Err(e) => Outcome(first.disk, Err(e))
      case Ok(value) =>
        var rest := FetchNews(first.disk, commodities[1..], fetch, now);
        match rest.answer
        case Err(e) => Outcome(rest.disk, Err(e))
        case Ok(values) => Outcome(rest.disk, Ok([value] + values))
  }

  /** The cached soil value of one market; a market without coordinates does
      not touch the soil cache and gets null. */
  function SoilOf(disk: AppDisk, m: Market, fetch: (Path, string) -> CacheStore.Produced,
                  host: Host, now: int): (o: Outcome<Doc, Payload>)
    ensures m.lat.None? || m.lng.None? ==> o == Outcome(disk, Ok(Nothing))
    // a market with coordinates gets the soil cached for a week under `soil:<lat>,<lng>`
    ensures m.lat.Some? && m.lng.Some? ==>
              o == CachedValue(disk, DataPaths.SoilCache, CacheKeys.SoilKey(m.lat.value, m.lng.value, host),
                               7 * CacheKeys.Day, fetch, now)
  {
    if m.lat.Some? && m.lng.Some? then
      CachedValue(disk, DataPaths.SoilCache, CacheKeys.SoilKey(m.lat.value, m.lng.value, host),
                  CacheKeys.SoilTtl, fetch, now)
    else Outcome(disk, Ok(Nothing))
  }

  /** The cached soil value of each market, in order. */
  function FetchSoil(disk: AppDisk, markets: seq<Market>, fetch: (Path, string) -> CacheStore.Produced,
                     host: Host, now: int): (o: Outcome<Doc, seq<Payload>>)
    ensures o.answer.Ok? ==> |o.answer.value| == |markets|
    ensures o.answer.Ok? ==>
              forall i :: 0 <= i < |markets| && (markets[i].lat.None? || markets[i].lng.None?) ==>
                o.answer.value[i] == Nothing
    decreases |markets|
  {
    if |markets| == 0 then Outcome(disk, Ok([]))
    else
      var first := SoilOf(disk, markets[0], fetch, host, now);
      match first.answer
      case Err(e) => Outcome(first.disk, Err(e))
      case Ok(soil) =>
        var rest := FetchSoil(first.disk, markets[1..], fetch, host, now);
        match rest.answer
        case Err(e) => Outcome(rest.disk, Err(e))
        case Ok(values) => Outcome(rest.disk, Ok([soil] + values))
  }

  // ---------------------------------------------------------------------------
  // The route
  // ---------------------------------------------------------------------------

  /** What the route reads: markets, vendors and products, each created empty
      when missing.  The markets document is checked for `null` before the
      others are read; the vendors and products documents after both are read. */
  datatype Inputs = Inputs(markets: seq<Market>, vendors: seq<Vendor>, products: seq<Product>)

  function ReadInputs(disk: AppDisk): (o: Outcome<Doc, Inputs>)
    ensures o.answer.Ok? ==>
              var mr := ReadJson(disk, DataPaths.Markets, Some(MarketsDoc([])));
              && mr.answer.Ok? && MarketsOrEmpty(mr.answer.value) == Some(o.answer.value.markets)
              && var vr := ReadJson(mr.disk, DataPaths.Vendors, Some(VendorsDoc([])));
              && vr.answer.Ok? && ProductCatalog.VendorsOrEmpty(vr.answer.value) == Some(o.answer.value.vendors)
              && var pr := ReadJson(vr.disk, DataPaths.Products, Some(ProductsDoc([])));
              && pr.answer.Ok? && ProductCatalog.ProductsOrEmpty(pr.answer.value) == Some(o.answer.value.products)
              && o.disk == pr.disk
  {
    var mr := ReadJson(disk, DataPaths.Markets, Some(MarketsDoc([])));
    if mr.answer.Err? then Outcome(mr.disk, Err(mr.answer.error))
    else match MarketsOrEmpty(mr.answer.value)
      case None => Outcome(mr.disk, Err(Thrown))
      case Some(markets) =>
        var vr := ReadJson(mr.disk, DataPaths.Vendors, Some(VendorsDoc([])));
        if vr.answer.Err? then Outcome(vr.disk, Err(vr.answer.error))
        else
          var pr := ReadJson(vr.disk, DataPaths.Products, Some(ProductsDoc([])));
          if pr.answer.Err? then Outcome(pr.disk, Err(pr.answer.error))
          else match (ProductCatalog.VendorsOrEmpty(vr.answer.value), ProductCatalog.ProductsOrEmpty(pr.answer.value))
            case (Some(vendors), Some(products)) => Outcome(pr.disk, Ok(Inputs(markets, vendors, products)))
            case _ => Outcome(pr.disk, Err(Thrown))
  }

  /** The products as every market sees them, with photos filled in.  Filling
      in before or after the projection is the same, since the projection
      keeps id, name and image. */
  function HydratedProducts(given: Inputs, imageFor: Value -> Option<Image>): seq<MarketProduct> {
    ProjectAll(ProductCatalog.Hydrate(given.products, imageFor), given.vendors)
  }

  /** Persist the photos found, keyed by product id, when there are any. */
  function WriteBackImages(disk: AppDisk, given: Inputs, imageFor: Value -> Option<Image>): (o: Outcome<Doc, ()>)
    ensures |ProductCatalog.ImageUpdates(given.products, imageFor)| == 0 ==> o == Outcome(disk, Ok(()))
    ensures |ProductCatalog.ImageUpdates(given.products, imageFor)| > 0 ==>
              (o.answer.Ok? <==> ProductCatalog.ProductsStoreWorks(disk))
    ensures |ProductCatalog.ImageUpdates(given.products, imageFor)| > 0 && o.answer.Ok? ==>
              var load := Load(disk, DataPaths.Products, Some(ProductsDoc([])));
              && load.Ok? && ProductCatalog.ProductsOrEmpty(load.value).Some?
              && DataPaths.Products in o.disk
              && o.disk[DataPaths.Products] ==
                   Holds(ProductsDoc(ProductCatalog.MergeImages(ProductCatalog.ProductsOrEmpty(load.value).value,
                                                                ProductCatalog.ImageUpdates(given.products, imageFor))))
  {
    var updates := ProductCatalog.ImageUpdates(given.products, imageFor);
    if |updates| == 0 then Outcome(disk, Ok(()))
    else Transact(disk, DataPaths.Products, Some(ProductsDoc([])), (d: Doc) => ProductCatalog.MergeStep(d, updates))
  }

  /** The commodity statistics shown on every market: the FAOSTAT series for
      tomatoes in Romania, cached for thirty days. */
  function FetchStats(disk: AppDisk, fetch: (Path, string) -> CacheStore.Produced, now: int)
    : (o: Outcome<Doc, Payload>)
    ensures o == CachedValue(disk, DataPaths.FaostatCache, CacheKeys.FaostatKey("Tomatoes", "Romania"),
                             30 * CacheKeys.Day, fetch, now)
  {
    CachedValue(disk, DataPaths.FaostatCache, CacheKeys.FaostatKey("Tomatoes", "Romania"), CacheKeys.FaostatTtl,
                fetch, now)
  }

  /** While the statistics are cached and live, the overview shows them without
      consulting the fetcher, and whatever the fetcher would have produced. */
  lemma StatsFromCache(disk: AppDisk, f1: (Path, string) -> CacheStore.Produced,
                       f2: (Path, string) -> CacheStore.Produced, now: int)
    requires var key := CacheKeys.FaostatKey("Tomatoes", "Romania");
      var got := CacheStore.CacheGet(disk, DataPaths.FaostatCache, key, now);
      got.answer.Ok? && got.answer.value != Nothing
    ensures FetchStats(disk, f1, now) == FetchStats(disk, f2, now)
    ensures FetchStats(disk, f1, now).answer ==
              CacheStore.CacheGet(disk, DataPaths.FaostatCache, CacheKeys.FaostatKey("Tomatoes", "Romania"), now).answer
  {
  }

  /** The cached values the views share or need: news with photos, the
      statistics, and one soil value per market. */
  datatype Feeds = Feeds(news: seq<Option<NewsItem>>, stats: Payload, soils: seq<Payload>)

  /** The news of the top commodities, then the statistics, then the soil of
      each market, stopping at the first failure. */
  function FetchFeeds(disk: AppDisk, markets: seq<Market>, imageFor: Value -> Option<Image>,
                      fetch: (Path, string) -> CacheStore.Produced, host: Host, now: int): (o: Outcome<Doc, Feeds>)
    ensures o.answer.Ok? ==> |o.answer.value.soils| == |markets| && |o.answer.value.news| == |TopCommodities|
    ensures o.answer.Ok? ==>
              forall i :: 0 <= i < |markets| && (markets[i].lat.None? || markets[i].lng.None?) ==>
                o.answer.value.soils[i] == Nothing
    // the feeds are the stages' answers, each stage on the disk the previous one left
    ensures var news := FetchNews(disk, TopCommodities, fetch, now);
      o.answer.Ok? ==>
        && news.answer.Ok?
        && o.answer.value.news == WithImages(news.answer.value, imageFor)
        && var stats := FetchStats(news.disk, fetch, now);
        && stats.answer == Ok(o.answer.value.stats)
        && FetchSoil(stats.disk, markets, fetch, host, now) == Outcome(o.disk, Ok(o.answer.value.soils))
  {
    var news := FetchNews(disk, TopCommodities, fetch, now);
    if news.answer.Err? then Outcome(news.disk, Err(news.answer.error))
    else
      var stats := FetchStats(news.disk, fetch, now);
      if stats.answer.Err? then Outcome(stats.disk, Err(stats.answer.error))
      else
        var soil := FetchSoil(stats.disk, markets, fetch, host, now);
        if soil.answer.Err? then Outcome(soil.disk, Err(soil.answer.error))
        else Outcome(soil.disk, Ok(Feeds(WithImages(news.answer.value, imageFor), stats.answer.value,
                                         soil.answer.value)))
  }

  /** One view per market, in order, all sharing the news, the statistics and
      the product pool. */
  function BuildViews(ms: seq<Market>, soils: seq<Payload>, news: seq<Option<NewsItem>>, stats: Payload,
                      ps: seq<MarketProduct>, distance: (real, real, real, real) -> real): (views: seq<MarketView>)
    requires |soils| == |ms|
    ensures |views| == |ms|
    ensures forall i :: 0 <= i < |views| ==>
              && views[i].id == ms[i].id && views[i].name == ms[i].name
              && |views[i].products| <= 6 && |views[i].marketNews| <= 3
              && views[i].globalStats == stats && views[i].marketNews == MarketNews(news)
              && views[i].soil == SoilViewOf(soils[i])
              && forall x :: x in views[i].products ==> x in ps
    ensures forall i :: 0 <= i < |views| ==> views[i].products == SelectProducts(ms[i], ps, distance)
  {
    seq(|ms|, i requires 0 <= i < |ms| => Enrich(ms[i], soils[i], news, stats, ps, distance))
  }

  /** `GET /api/markets`: one view per stored market, in order; each shows the
      same news and statistics, its own soil (none without coordinates), at
      most three news items and at most six products, all drawn from the
      hydrated product list.  Any failure is 500. */
  function ListMarkets(disk: AppDisk, imageFor: Value -> Option<Image>, fetch: (Path, string) -> CacheStore.Produced,
                       distance: (real, real, real, real) -> real, host: Host, now: int)
    : (h: Handled<seq<MarketView>>)
    ensures h.response.status in {200, 500}
    ensures h.response.status == 200 ==>
              var read := ReadInputs(disk);
              && read.answer.Ok?
              && h.response.body.Json?
              && ViewsShow(h.response.body.value, read.answer.value.markets,
                           HydratedProducts(read.answer.value, imageFor), distance)
    ensures var read := ReadInputs(disk);
      h.response.status == 200 <==>
        && read.answer.Ok?
        && var wb := WriteBackImages(read.disk, read.answer.value, imageFor);
        && wb.answer.Ok?
        && FetchFeeds(wb.disk, read.answer.value.markets, imageFor, fetch, host, now).answer.Ok?
    ensures h.response.status == 200 ==>
              var read := ReadInputs(disk);
              var inputs := read.answer.value;
              var f := FetchFeeds(WriteBackImages(read.disk, inputs, imageFor).disk, inputs.markets, imageFor,
                                  fetch, host, now).answer.value;
              h.response.body ==
                Json(BuildViews(inputs.markets, f.soils, f.news, f.stats, HydratedProducts(inputs, imageFor), distance))
  {
    var read := ReadInputs(disk);
    match read.answer
    case Err(_) => Handled(read.disk, InternalError())
    case Ok(inputs) => Respond(read.disk, inputs, imageFor, fetch, distance, host, now)
  }

  /** The route once its inputs are read: write the photos back, fetch the
      feeds and build the views; 200 exactly when both stages succeed. */
  function Respond(disk: AppDisk, inputs: Inputs, imageFor: Value -> Option<Image>,
                   fetch: (Path, string) -> CacheStore.Produced,
                   distance: (real, real, real, real) -> real, host: Host, now: int)
    : (h: Handled<seq<MarketView>>)
    ensures h.response.status in {200, 500}
    ensures var wb := WriteBackImages(disk, inputs, imageFor);
      h.response.status == 200 <==>
        wb.answer.Ok? && FetchFeeds(wb.disk, inputs.markets, imageFor, fetch, host, now).answer.Ok?
    ensures h.response.status == 200 ==>
              h.response.body.Json? &&
              ViewsShow(h.response.body.value, inputs.markets, HydratedProducts(inputs, imageFor), distance)
    // the views show exactly the news, statistics and soil values fetched
    ensures h.response.status == 200 ==>
              var f := FetchFeeds(WriteBackImages(disk, inputs, imageFor).disk, inputs.markets, imageFor,
                                  fetch, host, now).answer.value;
              h.response.body ==
                Json(BuildViews(inputs.markets, f.soils, f.news, f.stats, HydratedProducts(inputs, imageFor), distance))
  {
    var hydrated := HydratedProducts(inputs, imageFor);
    var wb := WriteBackImages(disk, inputs, imageFor);
    if wb.answer.Err? then Handled(wb.disk, InternalError())
    else
      var feeds := FetchFeeds(wb.disk, inputs.markets, imageFor, fetch, host, now);
      match feeds.answer
      case Err(_) => Handled(feeds.disk, InternalError())
      case Ok(f) =>
        BuildViewsShow(inputs.markets, f.soils, f.news, f.stats, hydrated, distance);
        Handled(feeds.disk, Response(200, Json(BuildViews(inputs.markets, f.soils, f.news, f.stats, hydrated,
                                                          distance))))
  }

  /** What the overview shows for `markets`, drawing on the product pool `ps`:
      one view per market, in order, each listing the products the selection
      rule picks for it (at most six, all from the pool) and at most three
      news items; all views share the news and the statistics, and a market
      without coordinates shows no soil. */
  predicate ViewsShow(views: seq<MarketView>, markets: seq<Market>, ps: seq<MarketProduct>,
                      distance: (real, real, real, real) -> real) {
    && |views| == |markets|
    && (forall i :: 0 <= i < |views| ==> views[i].id == markets[i].id && views[i].name == markets[i].name)
    && (forall i :: 0 <= i < |views| ==> |views[i].products| <= 6 && |views[i].marketNews| <= 3)
    && (forall i :: 0 <= i < |views| && (markets[i].lat.None? || markets[i].lng.None?) ==> views[i].soil.None?)
    && (forall i :: 0 <= i < |views| ==> forall x :: x in views[i].products ==> x in ps)
    && (forall i :: 0 <= i < |views| ==>
          views[i].globalStats == views[0].globalStats && views[i].marketNews == views[0].marketNews)
    && (forall i :: 0 <= i < |views| ==> views[i].products == SelectProducts(markets[i], ps, distance))
  }

  /** The views built from the feeds show what the overview promises, given
      that a market without coordinates has no soil value. */
  lemma BuildViewsShow(ms: seq<Market>, soils: seq<Payload>, news: seq<Option<NewsItem>>, stats: Payload,
                       ps: seq<MarketProduct>, distance: (real, real, real, real) -> real)
    requires |soils| == |ms|
    requires forall i :: 0 <= i < |ms| && (ms[i].lat.None? || ms[i].lng.None?) ==> soils[i] == Nothing
    ensures ViewsShow(BuildViews(ms, soils, news, stats, ps, distance), ms, ps, distance)
  {
  }
}

=== FILE: pexels.dfy ===
/** The stock-photo search client: the request it sends and the normalised
    result it answers.  The HTTP exchange itself is a parameter: the model
    receives how the request ended. */
module Pexels {
  import opened Wrappers
  import opened JsValues
  import opened Records

  const DefaultBaseUrl: string := "https://api.pexels.com/v1/search"

  /** The `alt` text of a photo that has none. */
  const DefaultAlt: string := "Pexels photo"

  /** The sizes of a photo as the service delivers them. */
  datatype RawSources = RawSources(large: Option<string>, medium: Option<string>, landscape: Option<string>)

  /** A photo as the service delivers it; text fields are absent, `null` or text. */
  datatype RawPhoto = RawPhoto(
    id: Value,
    url: Option<string>,
    alt: Option<string>,
    photographer: Option<string>,
    photographerUrl: Option<string>,
    src: Option<RawSources>)

  /** The environment the client reads: the API key and the base URL override. */
  datatype Env = Env(apiKey: Option<string>, baseUrl: Option<string>)

  /** The request the client sends: the endpoint, its query parameters in
      order, and the `Authorization` header. */
  datatype Request = Request(baseUrl: string, params: seq<(string, string)>, authorization: string)

  /** How the request ended: a non-2xx status, a failure (network error,
      timeout abort, unparsable body), or a body whose `photos` member is an
      array (`Some`) or not (`None`).  An element of the array is `None` when
      it is `null` or `undefined`, the values on which reading `photo.id`
      throws. */
  datatype Reply = NotOk | Failed | Delivered(photos: Option<seq<Option<RawPhoto>>>)

  /** The request `fetchPexels` sends, or `None` when no API key is configured
      and nothing is sent.  `locale` is sent only when it is non-empty, and
      `per_page` is the number rendered as text. */
  function SearchRequest(env: Env, query: string, perPage: real, locale: string, host: Host): (r: Option<Request>)
    ensures r.Some? <==> Filled(env.apiKey)
    ensures r.Some? ==> r.value.authorization == env.apiKey.value
    ensures r.Some? ==> r.value.baseUrl == if Filled(env.baseUrl) then env.baseUrl.value else DefaultBaseUrl
    ensures r.Some? ==> |r.value.params| >= 2 && r.value.params[0] == ("query", query)
                        && r.value.params[1] == ("per_page", host.show(perPage))
    ensures r.Some? ==> (|r.value.params| == 3 <==> locale != "")
    ensures r.Some? && locale != "" ==> r.value.params[2] == ("locale", locale)
  {
    if !Filled(env.apiKey) then None
    else
      var base := if Filled(env.baseUrl) then env.baseUrl.value else DefaultBaseUrl;
      var params := [("query", query), ("per_page", host.show(perPage))]
                    + (if locale != "" then [("locale", locale)] else []);
      Some(Request(base, params, env.apiKey.value))
  }

  /** A normalised photo: it has alt text, and each optional text is either
      `null` or non-empty. */
  predicate Normalized(ph: Photo) {
    && ph.alt != ""
    && OrNull(ph.photographer) == ph.photographer
    && OrNull(ph.photographerUrl) == ph.photographerUrl
    && OrNull(ph.src.large) == ph.src.large
    && OrNull(ph.src.medium) == ph.src.medium
    && OrNull(ph.src.landscape) == ph.src.landscape
  }

  /** One photo of `normalizePhotos`: the id and page URL are kept as they are,
      a missing alt text becomes the default, and every other empty text
      becomes `null`. */
  function NormalizePhoto(p: RawPhoto): (r: Photo)
    ensures Normalized(r)
    ensures r.id == p.id && r.url == p.url
    ensures Filled(p.alt) ==> r.alt == p.alt.value
    ensures !Filled(p.alt) ==> r.alt == DefaultAlt
    ensures r.photographer == OrNull(p.photographer)
    ensures r.photographerUrl == OrNull(p.photographerUrl)
    ensures r.src.large == if p.src.Some? then OrNull(p.src.value.large) else None
    ensures r.src.medium == if p.src.Some? then OrNull(p.src.value.medium) else None
    ensures r.src.landscape == if p.src.Some? then OrNull(p.src.value.landscape) else None
  {
    var src := if p.src.Some? then p.src.value else RawSources(None, None, None);
    Photo(p.id, p.url, if Filled(p.alt) then p.alt.value else DefaultAlt,
          OrNull(p.photographer), OrNull(p.photographerUrl),
          PhotoSources(OrNull(src.large), OrNull(src.medium), OrNull(src.landscape)))
  }

  /** A photo seen again as delivered data. */
  function AsRaw(ph: Photo): RawPhoto {
    RawPhoto(ph.id, ph.url, Some(ph.alt), ph.photographer, ph.photographerUrl,
             Some(RawSources(ph.src.large, ph.src.medium, ph.src.landscape)))
  }

  /** Normalising a normalised photo gives it back: normalisation loses
      nothing that a normalised photo carries, and is idempotent. */
  lemma NormalizeKeepsNormalized(ph: Photo)
    requires Normalized(ph)
    ensures NormalizePhoto(AsRaw(ph)) == ph
  {
  }

  /** `normalizePhotos`: every photo normalised, in order. */
  function NormalizePhotos(ps: seq<RawPhoto>): (r: seq<Photo>)
    ensures |r| == |ps|
    ensures forall i :: 0 <= i < |ps| ==> r[i] == NormalizePhoto(ps[i])
    ensures forall i :: 0 <= i < |r| ==> Normalized(r[i])
  {
    seq(|ps|, i requires 0 <= i < |ps| => NormalizePhoto(ps[i]))
  }

  /** No element of a delivered array is `null` or `undefined`. */
  predicate NoNullPhoto(items: seq<Option<RawPhoto>>) {
    forall i :: 0 <= i < |items| ==> items[i].Some?
  }

  /** The photos of an array without `null` elements. */
  function PhotoObjects(items: seq<Option<RawPhoto>>): (ps: seq<RawPhoto>)
    requires NoNullPhoto(items)
    ensures |ps| == |items|
    ensures forall i :: 0 <= i < |items| ==> items[i] == Some(ps[i])
  {
    seq(|items|, i requires 0 <= i < |items| => items[i].value)
  }

  /** The delivered array, when the reply is a success whose `photos` member
      is an array without `null` elements. */
  predicate DeliveredPhotos(reply: Reply) {
    reply.Delivered? && reply.photos.Some? && NoNullPhoto(reply.photos.value)
  }

  /** `fetchPexels`: always answers `{ query, photos }`.  The photos are the
      normalised delivered ones when a key is configured, the response is
      successful and its `photos` member is an array; in every other case,
      including failures, the list is empty.  A `null` element makes the
      normalisation throw inside the `try`, which also answers no photos. */
  function FetchPexels(env: Env, query: string, reply: Reply): (r: Payload)
    ensures r.PhotoSearch? && r.query == query
    ensures Filled(env.apiKey) && DeliveredPhotos(reply) ==>
              r.photos == NormalizePhotos(PhotoObjects(reply.photos.value))
    ensures !(Filled(env.apiKey) && DeliveredPhotos(reply)) ==> r.photos == []
    ensures forall i :: 0 <= i < |r.photos| ==> Normalized(r.photos[i])
  {
    if !Filled(env.apiKey) then PhotoSearch(query, [])
    else match reply
      case Delivered(Some(items)) =>
        if NoNullPhoto(items) then PhotoSearch(query, NormalizePhotos(PhotoObjects(items)))
        else PhotoSearch(query, [])
      case _ => PhotoSearch(query, [])
  }

  /** One `null` element empties the whole answer, whatever the other
      elements are. */
  lemma NullPhotoEmptiesAnswer(env: Env, query: string, before: seq<Option<RawPhoto>>,
                               after: seq<Option<RawPhoto>>)
    ensures FetchPexels(env, query, Delivered(Some(before + [None] + after))).photos == []
  {
    assert (before + [None] + after)[|before|] == None;
  }

  /** A search answer carries at least one photo (`result?.photos?.length`). */
  predicate HasPhotos(v: Payload) {
    v.PhotoSearch? && |v.photos| > 0
  }
}

=== FILE: product_catalog.dfy ===
/** The public product catalogue (`GET /api/products`) and the product-image
    bookkeeping shared by the vendor and market routes: which products need a
    photo, the response with the photos found, and the id-keyed merge that
    writes them back. */
module ProductCatalog {
  import opened Wrappers
  import opened JsValues
  import opened Records
  import opened FileStore
  import opened Http
  import DataPaths

  // ---------------------------------------------------------------------------
  // The vendor join
  // ---------------------------------------------------------------------------

  /** What a product listing shows about its vendor. */
  datatype VendorSummary = VendorSummary(id: string, farmName: string, displayName: Value,
                                         lat: Option<real>, lng: Option<real>)

  function SummaryOf(v: Vendor): VendorSummary {
    VendorSummary(v.id, v.farmName, v.displayName, v.lat, v.lng)
  }

  /** `new Map(vendors.map(v => [v.id, v]))`: entries are set in list order,
      so for a repeated id the later vendor overwrites the earlier. */
  function VendorsById(vs: seq<Vendor>): (m: map<string, Vendor>)
    ensures forall id :: id in m ==> m[id].id == id && m[id] in vs
    ensures forall i :: 0 <= i < |vs| ==> vs[i].id in m
  {
    if |vs| == 0 then map[]
    else
      var last := vs[|vs| - 1];
      var m := VendorsById(vs[..|vs| - 1]);
      assert forall i :: 0 <= i < |vs| - 1 ==> vs[..|vs| - 1][i] == vs[i];
      m[last.id := last]
  }

  /** Reference meaning of a vendor lookup: the last vendor in the list with the id. */
  function LastWithId(vs: seq<Vendor>, id: string): (r: Option<Vendor>)
    ensures r.None? <==> forall i :: 0 <= i < |vs| ==> vs[i].id != id
    ensures r.Some? ==> exists i :: 0 <= i < |vs| && vs[i] == r.value && r.value.id == id &&
                          forall j :: i < j < |vs| ==> vs[j].id != id
  {
    if |vs| == 0 then None
    else if vs[|vs| - 1].id == id then Some(vs[|vs| - 1])
    else
      var init := vs[..|vs| - 1];
      var r := LastWithId(init, id);
      if r.Some? then
        var i :| 0 <= i < |init| && init[i] == r.value && r.value.id == id &&
                 forall j :: i < j < |init| ==> init[j].id != id;
        assert vs[i] == r.value;
        r
      else r
  }

  /** Looking an id up in the map finds exactly the last vendor with the id. */
  lemma {:induction false} VendorsByIdIsLast(vs: seq<Vendor>, id: string)
    ensures id in VendorsById(vs) <==> LastWithId(vs, id).Some?
    ensures id in VendorsById(vs) ==> VendorsById(vs)[id] == LastWithId(vs, id).value
  {
    if |vs| > 0 {
      VendorsByIdIsLast(vs[..|vs| - 1], id);
    }
  }

  /** The vendor shown with a product: the vendor the map holds for its `vendorId`. */
  function VendorOf(byId: map<string, Vendor>, p: Product): Option<VendorSummary> {
    if p.vendorId in byId then Some(SummaryOf(byId[p.vendorId])) else None
  }

  /** A catalogue entry: the product with all its fields, and its vendor or `null`. */
  datatype CatalogEntry = CatalogEntry(product: Product, vendor: Option<VendorSummary>)

  /** The join: one entry per product, in order. */
  function Join(products: seq<Product>, vendors: seq<Vendor>): (r: seq<CatalogEntry>)
    ensures |r| == |products|
    ensures forall i :: 0 <= i < |r| ==> r[i].product == products[i]
    ensures forall i :: 0 <= i < |r| ==>
              (r[i].vendor.None? <==> forall k :: 0 <= k < |vendors| ==> vendors[k].id != products[i].vendorId)
    ensures forall i :: 0 <= i < |r| && r[i].vendor.Some? ==>
              r[i].vendor.value == SummaryOf(LastWithId(vendors, products[i].vendorId).value)
  {
    var byId := VendorsById(vendors);
    var r := seq(|products|, i requires 0 <= i < |products| => CatalogEntry(products[i], VendorOf(byId, products[i])));
    forall i | 0 <= i < |r|
      ensures r[i].vendor.None? <==> LastWithId(vendors, products[i].vendorId).None?
      ensures r[i].vendor.Some? ==> r[i].vendor.value == SummaryOf(LastWithId(vendors, products[i].vendorId).value)
    {
      VendorsByIdIsLast(vendors, products[i].vendorId);
    }
    r
  }

  /** The vendors array `vendorsData.vendors.map` reads, or `None` when it is
      not an array and the call throws. */
  function VendorArray(d: Doc): Option<seq<Vendor>> {
    if d.VendorsDoc? then Some(d.vendors) else None
  }

  function ProductArray(d: Doc): Option<seq<Product>> {
    if d.ProductsDoc? then Some(d.products) else None
  }

  /** The vendors array a transform works on (`[]` when absent), or `None`
      when the document is `null`. */
  function VendorsOrEmpty(d: Doc): Option<seq<Vendor>> {
    match d
    case VendorsDoc(vs) => Some(vs)
    case NullDoc => None
    case _ => Some([])
  }

  /** The products array a transform works on, as for vendors. */
  function ProductsOrEmpty(d: Doc): Option<seq<Product>> {
    match d
    case ProductsDoc(ps) => Some(ps)
    case NullDoc => None
    case _ => Some([])
  }

  /** The vendors file loads (a missing one counting as empty), is not
      `null`, and accepts a write: what every vendors transaction needs.  A
      document without a vendors array counts as an empty one. */
  predicate VendorsStoreWorks(disk: AppDisk) {
    var load := Load(disk, DataPaths.Vendors, Some(VendorsDoc([])));
    load.Ok? && VendorsOrEmpty(load.value).Some? && Writable(disk, DataPaths.Vendors)
  }

  /** The same for the products file. */
  predicate ProductsStoreWorks(disk: AppDisk) {
    var load := Load(disk, DataPaths.Products, Some(ProductsDoc([])));
    load.Ok? && ProductsOrEmpty(load.value).Some? && Writable(disk, DataPaths.Products)
  }

  /** `GET /api/products`: read both documents (creating missing ones empty),
      then join.  A document without its array makes the handler throw (500). */
  function ListCatalog(disk: AppDisk): (h: Handled<seq<CatalogEntry>>)
    ensures h.response.status in {200, 500}
    ensures var pr := ReadJson(disk, DataPaths.Products, Some(ProductsDoc([])));
      var vr := ReadJson(pr.disk, DataPaths.Vendors, Some(VendorsDoc([])));
      h.response.status == 200 <==>
        pr.answer.Ok? && ProductArray(pr.answer.value).Some? && vr.answer.Ok? && VendorArray(vr.answer.value).Some?
    ensures h.response.status == 200 ==>
              var pr := ReadJson(disk, DataPaths.Products, Some(ProductsDoc([])));
              && pr.answer.Ok? && ProductArray(pr.answer.value).Some?
              && var vr := ReadJson(pr.disk, DataPaths.Vendors, Some(VendorsDoc([])));
              && vr.answer.Ok? && VendorArray(vr.answer.value).Some?
              && h == Handled(vr.disk, Response(200, Json(Join(ProductArray(pr.answer.value).value,
                                                               VendorArray(vr.answer.value).value))))
  {
    var pr := ReadJson(disk, DataPaths.Products, Some(ProductsDoc([])));
    if pr.answer.Err? then Handled(pr.disk, InternalError())
    else
      var vr := ReadJson(pr.disk, DataPaths.Vendors, Some(VendorsDoc([])));
      if vr.answer.Err? then Handled(vr.disk, InternalError())
      else match (ProductArray(pr.answer.value), VendorArray(vr.answer.value))
        case (Some(ps), Some(vs)) => Handled(vr.disk, Response(200, Json(Join(ps, vs))))
        case _ => Handled(vr.disk, InternalError())
  }

  // ---------------------------------------------------------------------------
  // Product images
  // ---------------------------------------------------------------------------

  /** A product needs a photo when it has no image, or its image lacks the
      url, the photo page or the photographer. */
  predicate NeedsImage(p: Product) {
    p.image.None? || p.image.value.url == "" || !Filled(p.image.value.photoUrl) ||
    !Filled(p.image.value.photographer)
  }

  /** One product as the handler answers it: a product that needs a photo gets
      the one found for its name, if any. `imageFor` stands for the product
      photo lookup. */
  function HydrateOne(p: Product, imageFor: Value -> Option<Image>): Product {
    if NeedsImage(p) && imageFor(Str(p.name)).Some? then p.(image := imageFor(Str(p.name))) else p
  }

  function Hydrate(ps: seq<Product>, imageFor: Value -> Option<Image>): (r: seq<Product>)
    ensures |r| == |ps|
    ensures forall i :: 0 <= i < |ps| ==> r[i] == HydrateOne(ps[i], imageFor)
  {
    seq(|ps|, i requires 0 <= i < |ps| => HydrateOne(ps[i], imageFor))
  }

  /** The `imageUpdates` map: for each product that needed and got a photo,
      its id mapped to the photo; a later product with the same id overwrites
      an earlier one. */
  function ImageUpdates(ps: seq<Product>, imageFor: Value -> Option<Image>): (m: map<string, Image>)
    ensures forall id :: id in m ==> exists i :: 0 <= i < |ps| && ps[i].id == id && NeedsImage(ps[i])
    ensures forall i :: 0 <= i < |ps| && NeedsImage(ps[i]) && imageFor(Str(ps[i].name)).Some? ==> ps[i].id in m
  {
    if |ps| == 0 then map[]
    else
      var init := ps[..|ps| - 1];
      var m := ImageUpdates(init, imageFor);
      var p := ps[|ps| - 1];
      assert forall i :: 0 <= i < |init| ==> init[i] == ps[i];
      if NeedsImage(p) && imageFor(Str(p.name)).Some? then m[p.id := imageFor(Str(p.name)).value] else m
  }

  /** The write-back transform's map: entries whose id has an update get that
      image; every other entry, and every other field, is kept. */
  function MergeImages(ps: seq<Product>, updates: map<string, Image>): (r: seq<Product>)
    ensures |r| == |ps|
    ensures forall i :: 0 <= i < |ps| ==>
              r[i] == if ps[i].id in updates then ps[i].(image := Some(updates[ps[i].id])) else ps[i]
  {
    seq(|ps|, i requires 0 <= i < |ps| =>
      if ps[i].id in updates then ps[i].(image := Some(updates[ps[i].id])) else ps[i])
  }

  /** Merging the same updates twice is merging once. */
  lemma MergeIdempotent(ps: seq<Product>, updates: map<string, Image>)
    ensures MergeImages(MergeImages(ps, updates), updates) == MergeImages(ps, updates)
  {
  }

  /** Product ids are pairwise different. */
  predicate UniqueIds(ps: seq<Product>) {
    forall i, j :: 0 <= i < j < |ps| ==> ps[i].id != ps[j].id
  }

  /** With unique ids, what the handler answers is what the write-back stores
      for those products: merging the update map into the list reproduces the
      hydrated list. */
  lemma {:induction false} HydrateIsMerge(ps: seq<Product>, imageFor: Value -> Option<Image>)
    requires UniqueIds(ps)
    ensures MergeImages(ps, ImageUpdates(ps, imageFor)) == Hydrate(ps, imageFor)
  {
    var m := ImageUpdates(ps, imageFor);
    forall i | 0 <= i < |ps|
      ensures (ps[i].id in m) == (NeedsImage(ps[i]) && imageFor(Str(ps[i].name)).Some?)
      ensures ps[i].id in m ==> m[ps[i].id] == imageFor(Str(ps[i].name)).value
    {
      UpdateOfUnique(ps, imageFor, i);
    }
  }

  /** With unique ids, the update map holds a product's id exactly when that
      product needed and got a photo, and then holds that photo. */
  lemma {:induction false} UpdateOfUnique(ps: seq<Product>, imageFor: Value -> Option<Image>, i: nat)
    requires UniqueIds(ps) && i < |ps|
    ensures (ps[i].id in ImageUpdates(ps, imageFor)) == (NeedsImage(ps[i]) && imageFor(Str(ps[i].name)).Some?)
    ensures ps[i].id in ImageUpdates(ps, imageFor) ==>
              ImageUpdates(ps, imageFor)[ps[i].id] == imageFor(Str(ps[i].name)).value
    decreases |ps|
  {
    var init := ps[..|ps| - 1];
    assert forall k :: 0 <= k < |init| ==> init[k] == ps[k];
    if i < |ps| - 1 {
      UpdateOfUnique(init, imageFor, i);
      assert ps[i].id != ps[|ps| - 1].id;
    } else {
      assert forall k :: 0 <= k < |init| ==> init[k].id != ps[i].id;
    }
  }

  /** The write-back transform of the photo updates. */
  function MergeStep(d: Doc, updates: map<string, Image>): Option<(Doc, ())> {
    match ProductsOrEmpty(d)
    case None => None
    case Some(ps) => Some((ProductsDoc(MergeImages(ps, updates)), ()))
  }
}

=== FILE: product_media.dfy ===
/** The product-photo lookup: the normalisation of a product name into
    search queries, the ordered and de-duplicated query plan, and the search
    of each query through the photo cache until one yields a photo. */
module ProductMedia {
  import opened Wrappers
  import opened JsValues
  import opened Records
  import opened FileStore
  import Text
  import CacheKeys
  import CacheStore
  import DataPaths
  import Pexels
  import ProductCatalog

  const Locale: string := "ro-RO"
  const FallbackQuery: string := "legume proaspete"

  /** The unit words `cleanQuery` removes. */
  const UnitTokens: set<string> := {"kg", "g", "gr", "buc", "bucati", "pcs", "piece", "pieces", "pack", "box"}

  // ---------------------------------------------------------------------------
  // normalizeName
  // ---------------------------------------------------------------------------

  /** Lowercase letters, digits and plain spaces only, single-spaced and trimmed. */
  ghost predicate NormalForm(s: string) {
    && (forall i :: 0 <= i < |s| ==> Text.IsLowerLetter(s[i]) || Text.IsDigit(s[i]) || s[i] == ' ')
    && Text.SingleSpaced(s)
    && Text.IsTrimmed(s)
  }

  /** `replace(/[^a-z0-9\s]/g, ' ')`. */
  function KeepClass(s: string): (r: string)
    ensures |r| == |s|
    ensures forall i :: 0 <= i < |s| ==>
              r[i] == if Text.IsLowerLetter(s[i]) || Text.IsDigit(s[i]) || Text.IsSpace(s[i]) then s[i] else ' '
  {
    seq(|s|, i requires 0 <= i < |s| =>
      if Text.IsLowerLetter(s[i]) || Text.IsDigit(s[i]) || Text.IsSpace(s[i]) then s[i] else ' ')
  }

  /** `normalizeName` for ASCII text: lowercase, every character outside
      `[a-z0-9]` and whitespace becomes a space, whitespace runs collapse to
      one space, and the ends are trimmed. */
  function NormalizeName(s: string): (r: string)
    ensures NormalForm(r)
  {
    var k := KeepClass(Text.Lower(s));
    var r := Text.Squish(k);
    forall i | 0 <= i < |r|
      ensures Text.IsLowerLetter(r[i]) || Text.IsDigit(r[i]) || r[i] == ' '
    {
      if !Text.IsSpace(r[i]) {
        assert r[i] in r;
        Text.SquishKeepsText(k, r[i]);
      }
    }
    r
  }

  /** Text already in normal form is its own normalisation. */
  lemma NormalizeFixed(s: string)
    requires NormalForm(s)
    ensures NormalizeName(s) == s
  {
    assert Text.Lower(s) == s;
    assert KeepClass(s) == s;
    Text.SquishFixed(s);
  }

  /** Normalising twice is normalising once. */
  lemma NormalizeIdempotent(s: string)
    ensures NormalizeName(NormalizeName(s)) == NormalizeName(s)
  {
    NormalizeFixed(NormalizeName(s));
  }

  // ---------------------------------------------------------------------------
  // cleanQuery
  // ---------------------------------------------------------------------------

  /** `s` without its leading digits. */
  function DropDigits(s: string): (r: string)
    ensures |r| <= |s| && r == s[|s| - |r|..]
    ensures |r| > 0 ==> !Text.IsDigit(r[0])
    ensures |s| > 0 && Text.IsDigit(s[0]) ==> |r| < |s|
  {
    if |s| > 0 && Text.IsDigit(s[0]) then DropDigits(s[1..]) else s
  }

  /** `replace(/\d+/g, ' ')`: every run of digits becomes one space. */
  function DigitRunsToSpace(s: string): (r: string)
    ensures NoDigits(r)
    ensures NoDigits(s) ==> r == s
    decreases |s|
  {
    if |s| == 0 then ""
    else if Text.IsDigit(s[0]) then " " + DigitRunsToSpace(DropDigits(s))
    else
      assert s == [s[0]] + s[1..];
      [s[0]] + DigitRunsToSpace(s[1..])
  }

  /** The length of the run of word characters `s` starts with. */
  function WordRun(s: string): (n: nat)
    ensures n <= |s|
    ensures forall i :: 0 <= i < n ==> Text.IsWordChar(s[i])
    ensures n < |s| ==> !Text.IsWordChar(s[n])
  {
    if |s| > 0 && Text.IsWordChar(s[0]) then 1 + WordRun(s[1..]) else 0
  }

  /** `replace(/\b(kg|g|...|box)\b/g, ' ')`: a unit token matches exactly when
      it is a whole maximal run of word characters, so each such run that is a
      unit token becomes a space. */
  function StripUnits(s: string): (r: string)
    ensures |s| == 0 ==> r == ""
    decreases |s|
  {
    if |s| == 0 then ""
    else if !Text.IsWordChar(s[0]) then [s[0]] + StripUnits(s[1..])
    else
      var n := WordRun(s);
      (if s[..n] in UnitTokens then " " else s[..n]) + StripUnits(s[n..])
  }

  /** No digit in the text. */
  predicate NoDigits(s: string) {
    forall i :: 0 <= i < |s| ==> !Text.IsDigit(s[i])
  }

  /** Removing unit words brings in no digit. */
  lemma {:induction false} StripUnitsNoDigits(s: string)
    requires NoDigits(s)
    ensures NoDigits(StripUnits(s))
    decreases |s|
  {
    if |s| > 0 {
      if !Text.IsWordChar(s[0]) {
        StripUnitsNoDigits(s[1..]);
      } else {
        var n := WordRun(s);
        StripUnitsNoDigits(s[n..]);
        var w := if s[..n] in UnitTokens then " " else s[..n];
        assert NoDigits(w);
        NoDigitsConcat(w, StripUnits(s[n..]));
      }
    }
  }

  lemma NoDigitsConcat(a: string, b: string)
    requires NoDigits(a) && NoDigits(b)
    ensures NoDigits(a + b)
  {
    forall i | 0 <= i < |a + b|
      ensures !Text.IsDigit((a + b)[i])
    {
      if i >= |a| {
        assert (a + b)[i] == b[i - |a|];
      }
    }
  }

  /** No maximal run of word characters in `s` is a unit token. */
  predicate CleanWords(s: string)
    decreases |s|
  {
    if |s| == 0 then true
    else if !Text.IsWordChar(s[0]) then CleanWords(s[1..])
    else s[..WordRun(s)] !in UnitTokens && CleanWords(s[WordRun(s)..])
  }

  /** A word followed by nothing or by a non-word character is a whole run. */
  lemma WordRunOfWord(w: string, x: string)
    requires |w| > 0 && forall i :: 0 <= i < |w| ==> Text.IsWordChar(w[i])
    requires |x| > 0 ==> !Text.IsWordChar(x[0])
    ensures WordRun(w + x) == |w|
    ensures (w + x)[..|w|] == w && (w + x)[|w|..] == x
  {
  }

  /** Stripping leaves no unit token as a whole word. */
  lemma {:induction false} StripUnitsClean(s: string)
    ensures CleanWords(StripUnits(s))
    decreases |s|
  {
    if |s| > 0 {
      if !Text.IsWordChar(s[0]) {
        StripUnitsClean(s[1..]);
        assert ([s[0]] + StripUnits(s[1..]))[1..] == StripUnits(s[1..]);
      } else {
        var n := WordRun(s);
        var rest := StripUnits(s[n..]);
        StripUnitsClean(s[n..]);
        if s[..n] in UnitTokens {
          assert (" " + rest)[1..] == rest;
        } else {
          WordRunOfWord(s[..n], rest);
        }
      }
    }
  }

  /** Stripping text without unit words changes nothing. */
  lemma {:induction false} StripUnitsFixed(s: string)
    requires CleanWords(s)
    ensures StripUnits(s) == s
    decreases |s|
  {
    if |s| > 0 {
      if !Text.IsWordChar(s[0]) {
        StripUnitsFixed(s[1..]);
        assert s == [s[0]] + s[1..];
      } else {
        var n := WordRun(s);
        CleanWordStep(s);
        StripUnitsFixed(s[n..]);
        assert s == s[..n] + s[n..];
      }
    }
  }

  /** A clean text starting with a word keeps that word and stays clean after it. */
  lemma CleanWordStep(s: string)
    requires |s| > 0 && Text.IsWordChar(s[0]) && CleanWords(s)
    ensures CleanWords(s[WordRun(s)..])
    ensures StripUnits(s) == s[..WordRun(s)] + StripUnits(s[WordRun(s)..])
  {
  }

  /** Dropping leading non-word characters keeps the words clean. */
  lemma {:induction false} CleanSuffix(s: string, k: nat)
    requires k <= |s| && CleanWords(s)
    requires forall i :: 0 <= i < k ==> !Text.IsWordChar(s[i])
    ensures CleanWords(s[k..])
    decreases k
  {
    if k > 0 {
      CleanSuffix(s[1..], k - 1);
      assert s[1..][k - 1..] == s[k..];
    }
  }

  /** Dropping trailing non-word characters keeps the words clean. */
  lemma {:induction false} CleanPrefix(s: string, k: nat)
    requires k <= |s| && CleanWords(s)
    requires forall i :: k <= i < |s| ==> !Text.IsWordChar(s[i])
    ensures CleanWords(s[..k])
    decreases |s|
  {
    if k > 0 {
      if !Text.IsWordChar(s[0]) {
        CleanPrefix(s[1..], k - 1);
        assert s[..k][1..] == s[1..][..k - 1];
      } else {
        var n := WordRun(s);
        if k < |s| {
          assert !Text.IsWordChar(s[k]);
        }
        CleanPrefix(s[n..], k - n);
        WordRunOfWord(s[..n], s[n..k]);
        assert s[..k] == s[..n] + s[n..k];
        assert s[n..][..k - n] == s[n..k];
      }
    }
  }

  /** Collapsing a word-character prefix keeps it as it is. */
  lemma {:induction false} CollapseWordPrefix(s: string, n: nat)
    requires n <= |s| && forall i :: 0 <= i < n ==> Text.IsWordChar(s[i])
    ensures Text.Collapse(s) == s[..n] + Text.Collapse(s[n..])
    decreases n
  {
    if n == 0 {
      assert s[n..] == s;
    } else {
      WordCharsTail(s, n);
      CollapseWordPrefix(s[1..], n - 1);
      CollapsePrefixStep(s, n);
    }
  }

  /** Collapsing text that starts with a word character keeps that character. */
  lemma CollapseHead(s: string)
    requires |s| > 0 && Text.IsWordChar(s[0])
    ensures Text.Collapse(s) == [s[0]] + Text.Collapse(s[1..])
  {
    assert !Text.IsSpace(s[0]);
  }

  lemma SplitAfterHead(s: string, n: nat)
    requires 0 < n <= |s|
    ensures s[1..][n - 1..] == s[n..]
    ensures [s[0]] + s[1..][..n - 1] == s[..n]
  {
  }

  lemma ConcatAssoc(a: string, b: string, c: string)
    ensures a + (b + c) == (a + b) + c
  {
  }

  lemma WordCharsTail(s: string, n: nat)
    requires 0 < n <= |s| && forall i :: 0 <= i < n ==> Text.IsWordChar(s[i])
    ensures forall i :: 0 <= i < n - 1 ==> Text.IsWordChar(s[1..][i])
  {
    forall i | 0 <= i < n - 1
      ensures Text.IsWordChar(s[1..][i])
    {
      assert s[1..][i] == s[i + 1];
    }
  }

  lemma CollapsePrefixStep(s: string, n: nat)
    requires 0 < n <= |s| && Text.IsWordChar(s[0])
    requires Text.Collapse(s[1..]) == s[1..][..n - 1] + Text.Collapse(s[1..][n - 1..])
    ensures Text.Collapse(s) == s[..n] + Text.Collapse(s[n..])
  {
    CollapseHead(s);
    SplitAfterHead(s, n);
    ConcatAssoc([s[0]], s[1..][..n - 1], Text.Collapse(s[n..]));
  }

  /** Collapsing whitespace keeps the words clean. */
  lemma {:induction false} CollapseClean(s: string)
    requires CleanWords(s)
    ensures CleanWords(Text.Collapse(s))
    decreases |s|
  {
    if |s| > 0 {
      if Text.IsSpace(s[0]) {
        var rest := Text.TrimStart(s);
        CleanSuffix(s, |s| - |rest|);
        CollapseClean(rest);
        assert (" " + Text.Collapse(rest))[1..] == Text.Collapse(rest);
      } else if !Text.IsWordChar(s[0]) {
        CollapseClean(s[1..]);
        assert ([s[0]] + Text.Collapse(s[1..]))[1..] == Text.Collapse(s[1..]);
      } else {
        var n := WordRun(s);
        CollapseWordPrefix(s, n);
        CollapseClean(s[n..]);
        WordRunOfWord(s[..n], Text.Collapse(s[n..]));
      }
    }
  }

  /** Squishing whitespace keeps the words clean. */
  lemma SquishClean(s: string)
    requires CleanWords(s)
    ensures CleanWords(Text.Squish(s))
  {
    CollapseClean(s);
    TrimStartClean(Text.Collapse(s));
    TrimEndClean(Text.TrimStart(Text.Collapse(s)));
    assert Text.Squish(s) == Text.TrimEnd(Text.TrimStart(Text.Collapse(s)));
  }

  lemma TrimStartClean(c: string)
    requires CleanWords(c)
    ensures CleanWords(Text.TrimStart(c))
  {
    var t := Text.TrimStart(c);
    CleanSuffix(c, |c| - |t|);
  }

  lemma TrimEndClean(t: string)
    requires CleanWords(t)
    ensures CleanWords(Text.TrimEnd(t))
  {
    CleanPrefix(t, |Text.TrimEnd(t)|);
  }

  /** `cleanQuery`: digit runs and whole-word unit tokens become spaces, then
      whitespace is collapsed and trimmed.  The result has no digit and no
      unit word, and is single-spaced and trimmed. */
  function CleanQuery(s: string): (r: string)
    ensures NoDigits(r)
    ensures CleanWords(r)
    ensures Text.SingleSpaced(r) && Text.IsTrimmed(r)
  {
    var d := DigitRunsToSpace(s);
    var u := StripUnits(d);
    StripUnitsClean(d);
    StripUnitsNoDigits(d);
    SquishClean(u);
    var r := Text.Squish(u);
    forall i | 0 <= i < |r|
      ensures !Text.IsDigit(r[i])
    {
      if !Text.IsSpace(r[i]) {
        assert r[i] in r;
        Text.SquishKeepsText(u, r[i]);
      }
    }
    r
  }

  /** Cleaning text without digits or unit words, already single-spaced and
      trimmed, changes nothing. */
  lemma CleanQueryFixed(s: string)
    requires NoDigits(s)
    requires CleanWords(s) && Text.SingleSpaced(s) && Text.IsTrimmed(s)
    ensures CleanQuery(s) == s
  {
    StripUnitsFixed(s);
    Text.SquishFixed(s);
  }

  /** A product named by a quantity and a unit alone (`2 kg`, `10 buc`) cleans
      to the empty query. */
  lemma QuantityAndUnitCleanToEmpty(digits: string, unit: string)
    requires |digits| > 0 && forall i :: 0 <= i < |digits| ==> Text.IsDigit(digits[i])
    requires unit in UnitTokens
    ensures CleanQuery(digits + " " + unit) == ""
  {
    QuantityDigitsToSpace(digits, unit);
    UnitStrippedToBlank(unit);
    SquishBlank("   ");
  }

  lemma QuantityDigitsToSpace(digits: string, unit: string)
    requires |digits| > 0 && forall i :: 0 <= i < |digits| ==> Text.IsDigit(digits[i])
    requires unit in UnitTokens
    ensures DigitRunsToSpace(digits + " " + unit) == "  " + unit
  {
    UnitIsLowerWord(unit);
    var tail := " " + unit;
    assert digits + " " + unit == digits + tail;
    DigitRunThenText(digits, tail);
    assert tail[1..] == unit;
    assert DigitRunsToSpace(tail) == " " + DigitRunsToSpace(unit);
    assert NoDigits(unit);
    assert " " + (" " + unit) == "  " + unit;
  }

  lemma UnitStrippedToBlank(unit: string)
    requires unit in UnitTokens
    ensures StripUnits("  " + unit) == "   "
  {
    UnitIsLowerWord(unit);
    var tail := " " + unit;
    var d := " " + tail;
    assert d == "  " + unit;
    assert d[1..] == tail;
    assert StripUnits(d) == " " + StripUnits(tail);
    assert tail[1..] == unit;
    assert StripUnits(tail) == " " + StripUnits(unit);
    WordRunOfWord(unit, "");
    assert unit + "" == unit;
    assert StripUnits(unit) == " " + StripUnits("");
  }

  /** Every unit token is a non-empty run of lowercase letters. */
  lemma UnitIsLowerWord(u: string)
    requires u in UnitTokens
    ensures |u| > 0 && forall i :: 0 <= i < |u| ==> Text.IsLowerLetter(u[i])
  {
  }

  /** A run of digits turns into one space. */
  lemma DigitRunThenText(digits: string, x: string)
    requires |digits| > 0 && forall i :: 0 <= i < |digits| ==> Text.IsDigit(digits[i])
    requires |x| > 0 && !Text.IsDigit(x[0])
    ensures DigitRunsToSpace(digits + x) == " " + DigitRunsToSpace(x)
  {
    DropAllDigits(digits, x);
    assert (digits + x)[0] == digits[0];
  }

  /** Blank text squishes to nothing. */
  lemma SquishBlank(s: string)
    requires forall i :: 0 <= i < |s| ==> Text.IsSpace(s[i])
    ensures Text.Squish(s) == ""
  {
    if |s| > 0 {
      TrimStartBlank(s);
      assert Text.Collapse(s) == " " + Text.Collapse("");
      TrimStartBlank(" ");
      assert Text.Trim(" ") == Text.TrimEnd("");
    }
  }

  lemma TrimStartBlank(s: string)
    requires forall i :: 0 <= i < |s| ==> Text.IsSpace(s[i])
    ensures Text.TrimStart(s) == ""
  {
  }

  /** Dropping the leading digits of `digits + x` leaves `x` when `x` does not
      start with a digit. */
  lemma {:induction false} DropAllDigits(digits: string, x: string)
    requires forall i :: 0 <= i < |digits| ==> Text.IsDigit(digits[i])
    requires |x| > 0 && !Text.IsDigit(x[0])
    ensures DropDigits(digits + x) == x
    decreases |digits|
  {
    if |digits| > 0 {
      DropAllDigits(digits[1..], x);
      assert (digits + x)[1..] == digits[1..] + x;
    } else {
      assert digits + x == x;
    }
  }

  /** Replacing digit runs brings in no character but spaces. */
  lemma {:induction false} DigitRunsKeepOthers(s: string, k: char)
    requires !Text.IsSpace(k) && k in DigitRunsToSpace(s)
    ensures k in s
    decreases |s|
  {
    if Text.IsDigit(s[0]) {
      var rest := DropDigits(s);
      Text.InConcat(" ", DigitRunsToSpace(rest), k);
      DigitRunsKeepOthers(rest, k);
      var i :| 0 <= i < |rest| && rest[i] == k;
      assert s[|s| - |rest| + i] == k;
    } else {
      Text.InConcat([s[0]], DigitRunsToSpace(s[1..]), k);
      if k != s[0] {
        DigitRunsKeepOthers(s[1..], k);
        var i :| 0 <= i < |s| - 1 && s[1..][i] == k;
        assert s[i + 1] == k;
      }
    }
  }

  /** Removing unit words brings in no character but spaces. */
  lemma {:induction false} StripUnitsKeepOthers(s: string, k: char)
    requires !Text.IsSpace(k) && k in StripUnits(s)
    ensures k in s
    decreases |s|
  {
    if !Text.IsWordChar(s[0]) {
      Text.InConcat([s[0]], StripUnits(s[1..]), k);
      if k != s[0] {
        StripUnitsKeepOthers(s[1..], k);
        var i :| 0 <= i < |s| - 1 && s[1..][i] == k;
        assert s[i + 1] == k;
      }
    } else {
      var n := WordRun(s);
      var head := if s[..n] in UnitTokens then " " else s[..n];
      Text.InConcat(head, StripUnits(s[n..]), k);
      if k in head {
        var i :| 0 <= i < |head| && head[i] == k;
        assert s[i] == k;
      } else {
        StripUnitsKeepOthers(s[n..], k);
        var i :| 0 <= i < |s| - n && s[n..][i] == k;
        assert s[n + i] == k;
      }
    }
  }

  /** Cleaning brings in no character but spaces. */
  lemma CleanKeepsOthers(s: string, k: char)
    ensures !Text.IsSpace(k) && k in CleanQuery(s) ==> k in s
  {
    if !Text.IsSpace(k) && k in CleanQuery(s) {
      var d := DigitRunsToSpace(s);
      var u := StripUnits(d);
      assert CleanQuery(s) == Text.Squish(u);
      Text.SquishKeepsText(u, k);
      StripUnitsKeepOthers(d, k);
      DigitRunsKeepOthers(s, k);
    }
  }

  /** The cleaning of a name's normalisation is the name itself only when the
      name is already its own normalisation: a cleaned query never repeats a
      name that normalising changed. */
  lemma CleanedIsNormal(raw: string)
    ensures CleanQuery(NormalizeName(raw)) == raw ==> NormalizeName(raw) == raw
  {
    var n := NormalizeName(raw);
    var c := CleanQuery(n);
    if c == raw {
      forall i | 0 <= i < |raw|
        ensures Text.IsLowerLetter(raw[i]) || Text.IsDigit(raw[i]) || raw[i] == ' '
      {
        if !Text.IsSpace(raw[i]) {
          assert raw[i] in c;
          CleanKeepsOthers(n, raw[i]);
          var j :| 0 <= j < |n| && n[j] == raw[i];
        }
      }
      assert NormalForm(raw);
      NormalizeFixed(raw);
    }
  }

  // ---------------------------------------------------------------------------
  // resolveQueryPlan
  // ---------------------------------------------------------------------------

  /** One step of a query plan. */
  datatype PlanStep = PlanStep(query: string, locale: string)

  /** The de-duplication key of a step: `<locale>:<query>`. */
  function StepKey(step: PlanStep): string {
    step.locale + ":" + step.query
  }

  /** In one locale, different queries have different keys. */
  lemma {:induction false} StepKeyInjective(a: PlanStep, b: PlanStep)
    requires a.locale == b.locale
    ensures StepKey(a) == StepKey(b) <==> a == b
  {
    var prefix := a.locale + ":";
    assert StepKey(a) == prefix + a.query && StepKey(b) == prefix + b.query;
    if StepKey(a) == StepKey(b) {
      assert a.query == (prefix + a.query)[|prefix|..];
      assert b.query == (prefix + b.query)[|prefix|..];
    }
  }

  /** The first step with each key, in order; `seen` holds the keys already kept. */
  function Dedupe(steps: seq<PlanStep>, seen: set<string>): (r: seq<PlanStep>)
    ensures forall x :: x in r ==> x in steps && StepKey(x) !in seen
    ensures forall i, j :: 0 <= i < j < |r| ==> StepKey(r[i]) != StepKey(r[j])
    ensures |steps| > 0 && StepKey(steps[0]) !in seen ==> |r| > 0 && r[0] == steps[0]
    decreases |steps|
  {
    if |steps| == 0 then []
    else if StepKey(steps[0]) in seen then Dedupe(steps[1..], seen)
    else
      var rest := Dedupe(steps[1..], seen + {StepKey(steps[0])});
      var r := [steps[0]] + rest;
      forall i, j | 0 <= i < j < |r|
        ensures StepKey(r[i]) != StepKey(r[j])
      {
        assert r[j] == rest[j - 1] && rest[j - 1] in rest;
        if i > 0 {
          assert r[i] == rest[i - 1];
        }
      }
      r
  }

  /** The keys of the steps. */
  function Keys(steps: seq<PlanStep>): set<string> {
    set x | x in steps :: StepKey(x)
  }

  lemma KeysCons(steps: seq<PlanStep>)
    requires |steps| > 0
    ensures Keys(steps) == {StepKey(steps[0])} + Keys(steps[1..])
  {
    assert forall x :: x in steps <==> x == steps[0] || x in steps[1..];
  }

  /** De-duplication works left to right: the steps of `a` are filtered
      first, and those of `b` are then filtered against the keys `a` brought
      in.  With `Dedupe([x], seen) == (if StepKey(x) in seen then [] else [x])`
      this determines the result: the first step with each new key is kept,
      later ones are dropped, and the kept steps stay in their order. */
  lemma {:induction false} DedupeConcat(a: seq<PlanStep>, b: seq<PlanStep>, seen: set<string>)
    ensures Dedupe(a + b, seen) == Dedupe(a, seen) + Dedupe(b, seen + Keys(a))
    decreases |a|
  {
    if |a| == 0 {
      assert a + b == b;
      assert Keys(a) == {};
      assert seen + Keys(a) == seen;
    } else {
      var k := StepKey(a[0]);
      assert (a + b)[0] == a[0];
      assert (a + b)[1..] == a[1..] + b;
      KeysCons(a);
      if k in seen {
        DedupeConcat(a[1..], b, seen);
        assert seen + Keys(a) == seen + Keys(a[1..]);
      } else {
        DedupeConcat(a[1..], b, seen + {k});
        assert seen + {k} + Keys(a[1..]) == seen + Keys(a);
      }
    }
  }

  /** Every new key survives: the kept steps carry exactly the keys of the
      steps that are not already seen. */
  lemma {:induction false} DedupeKeys(steps: seq<PlanStep>, seen: set<string>)
    ensures Keys(Dedupe(steps, seen)) == Keys(steps) - seen
    decreases |steps|
  {
    if |steps| > 0 {
      var k := StepKey(steps[0]);
      KeysCons(steps);
      if k in seen {
        DedupeKeys(steps[1..], seen);
      } else {
        var rest := Dedupe(steps[1..], seen + {k});
        DedupeKeys(steps[1..], seen + {k});
        KeysCons([steps[0]] + rest);
        assert ([steps[0]] + rest)[1..] == rest;
      }
    }
  }

  /** A single step is kept exactly when its key is new. */
  lemma DedupeSingle(x: PlanStep, seen: set<string>)
    ensures Dedupe([x], seen) == if StepKey(x) in seen then [] else [x]
  {
    assert [x][1..] == [];
  }

  /** Steps whose keys are new and pairwise different are all kept, in order. */
  lemma {:induction false} DedupeFresh(steps: seq<PlanStep>, seen: set<string>)
    requires forall i :: 0 <= i < |steps| ==> StepKey(steps[i]) !in seen
    requires forall i, j :: 0 <= i < j < |steps| ==> StepKey(steps[i]) != StepKey(steps[j])
    ensures Dedupe(steps, seen) == steps
    decreases |steps|
  {
    if |steps| > 0 {
      var k := StepKey(steps[0]);
      var tail := steps[1..];
      forall i | 0 <= i < |tail|
        ensures StepKey(tail[i]) !in seen + {k}
      {
        assert tail[i] == steps[i + 1];
      }
      forall i, j | 0 <= i < j < |tail|
        ensures StepKey(tail[i]) != StepKey(tail[j])
      {
        assert tail[i] == steps[i + 1] && tail[j] == steps[j + 1];
      }
      DedupeFresh(tail, seen + {k});
      assert steps == [steps[0]] + tail;
    }
  }

  /** The candidate steps before de-duplication: the trimmed name, the
      normalised name when it differs, the cleaned name when it differs from
      the normalised one, and the fallback; empty candidates are skipped. */
  function Candidates(raw: string): seq<PlanStep> {
    Steps(raw, NormalizeName(raw), CleanQuery(NormalizeName(raw)))
  }

  function Steps(raw: string, normalized: string, cleaned: string): seq<PlanStep> {
    Tried(raw, normalized, cleaned) + [PlanStep(FallbackQuery, Locale)]
  }

  /** The candidates pushed before the fallback. */
  function Tried(raw: string, normalized: string, cleaned: string): seq<PlanStep> {
    (if raw != "" then [PlanStep(raw, Locale)] else [])
    + (if normalized != "" && normalized != raw then [PlanStep(normalized, Locale)] else [])
    + (if cleaned != "" && cleaned != normalized then [PlanStep(cleaned, Locale)] else [])
  }

  /** When normalising and cleaning keep the fallback as it is, the steps use
      one locale, end with the fallback, and name the fallback nowhere before
      the last two places. */
  lemma StepsEndWithFallback(raw: string, normalized: string, cleaned: string)
    requires raw == FallbackQuery ==> normalized == FallbackQuery
    requires normalized == FallbackQuery ==> cleaned == FallbackQuery
    ensures var steps := Steps(raw, normalized, cleaned);
      && |steps| > 0 && steps[|steps| - 1] == PlanStep(FallbackQuery, Locale)
      && (forall i :: 0 <= i < |steps| ==> steps[i].locale == Locale)
      && (forall i :: 0 <= i < |steps| - 2 ==> steps[i].query != FallbackQuery)
  {
  }

  /** The fallback query is its own normalisation and its own cleaning. */
  lemma FallbackIsClean()
    ensures NormalizeName(FallbackQuery) == FallbackQuery
    ensures CleanQuery(FallbackQuery) == FallbackQuery
  {
    FallbackNormal();
    NormalizeFixed(FallbackQuery);
    FallbackHasNoUnits();
    Text.SquishFixed(FallbackQuery);
  }

  lemma FallbackNormal()
    ensures NormalForm(FallbackQuery) && NoDigits(FallbackQuery)
  {
  }

  /** Neither word of the fallback query is a unit. */
  lemma FallbackHasNoUnits()
    ensures StripUnits(FallbackQuery) == FallbackQuery
  {
    assert FallbackQuery == "legume" + " " + "proaspete";
    TwoWordsKept("legume", "proaspete");
  }

  /** A word followed by text is kept by unit stripping when it is no unit. */
  lemma WordKept(w: string, x: string)
    requires |w| > 0 && forall i :: 0 <= i < |w| ==> Text.IsWordChar(w[i])
    requires w !in UnitTokens
    requires |x| > 0 ==> !Text.IsWordChar(x[0])
    ensures StripUnits(w + x) == w + StripUnits(x)
  {
    WordRunOfWord(w, x);
  }

  /** Two words that are no units, joined by a space, are kept by unit stripping. */
  lemma TwoWordsKept(a: string, b: string)
    requires |a| > 0 && forall i :: 0 <= i < |a| ==> Text.IsWordChar(a[i])
    requires |b| > 0 && forall i :: 0 <= i < |b| ==> Text.IsWordChar(b[i])
    requires a !in UnitTokens && b !in UnitTokens
    ensures StripUnits(a + " " + b) == a + " " + b
  {
    var tail := " " + b;
    assert a + " " + b == a + tail;
    WordKept(a, tail);
    assert tail[1..] == b;
    assert StripUnits(tail) == " " + StripUnits(b);
    WordKept(b, "");
    assert b + "" == b;
  }

  /** The candidates use one locale, end with the fallback, and name the
      fallback nowhere before the last two places. */
  lemma CandidatesEndWithFallback(raw: string)
    ensures var steps := Candidates(raw);
      && |steps| > 0 && steps[|steps| - 1] == PlanStep(FallbackQuery, Locale)
      && (forall i :: 0 <= i < |steps| ==> steps[i].locale == Locale)
      && (forall i :: 0 <= i < |steps| - 2 ==> steps[i].query != FallbackQuery)
  {
    FallbackIsClean();
    StepsEndWithFallback(raw, NormalizeName(raw), CleanQuery(NormalizeName(raw)));
  }

  /** `resolveQueryPlan`.  A name that is not a non-empty string gets the
      fallback plan alone.  Otherwise the plan starts with the trimmed name
      when it is not blank, uses `ro-RO` throughout, repeats no query, holds
      only the trimmed, normalised and cleaned names and the fallback, and
      always ends with the fallback. */
  function ResolveQueryPlan(name: Value): (plan: seq<PlanStep>)
    ensures !(name.Str? && name.s != "") ==> plan == [PlanStep(FallbackQuery, Locale)]
    ensures |plan| > 0 && plan[|plan| - 1] == PlanStep(FallbackQuery, Locale)
    ensures forall step :: step in plan ==> step.locale == Locale
    ensures forall i, j :: 0 <= i < j < |plan| ==> plan[i].query != plan[j].query
    ensures name.Str? && Text.Trim(name.s) != "" ==> plan[0] == PlanStep(Text.Trim(name.s), Locale)
    ensures name.Str? && name.s != "" ==>
              forall step :: step in plan ==>
                step.query in {Text.Trim(name.s), NormalizeName(Text.Trim(name.s)),
                               CleanQuery(NormalizeName(Text.Trim(name.s))), FallbackQuery}
    ensures name.Str? && name.s != "" ==>
              var raw := Text.Trim(name.s);
              var tried := Tried(raw, NormalizeName(raw), CleanQuery(NormalizeName(raw)));
              plan == tried + (if PlanStep(FallbackQuery, Locale) in tried then []
                               else [PlanStep(FallbackQuery, Locale)])
  {
    if !name.Str? || name.s == "" then [PlanStep(FallbackQuery, Locale)]
    else
      var raw := Text.Trim(name.s);
      PlanEndsWithFallback(raw);
      PlanQueriesDistinct(raw);
      PlanQueriesFromCandidates(raw);
      PlanShape(raw);
      Dedupe(Candidates(raw), {})
  }

  /** The de-duplicated plan repeats no query. */
  lemma PlanQueriesDistinct(raw: string)
    ensures var plan := Dedupe(Candidates(raw), {});
      forall i, j :: 0 <= i < j < |plan| ==> plan[i].query != plan[j].query
  {
    var plan := Dedupe(Candidates(raw), {});
    PlanEndsWithFallback(raw);
    forall i, j | 0 <= i < j < |plan|
      ensures plan[i].query != plan[j].query
    {
      assert plan[i] in plan && plan[j] in plan;
      StepKeyInjective(plan[i], plan[j]);
    }
  }

  /** Each planned query is the name, its normalisation, its cleaning or the
      fallback; the name, when not empty, comes first. */
  lemma PlanQueriesFromCandidates(raw: string)
    ensures var plan := Dedupe(Candidates(raw), {});
      && (forall step :: step in plan ==>
            step.query in {raw, NormalizeName(raw), CleanQuery(NormalizeName(raw)), FallbackQuery})
      && (raw != "" ==> |plan| > 0 && plan[0] == PlanStep(raw, Locale))
  {
    var n := NormalizeName(raw);
    var c := CleanQuery(n);
    StepsQueries(raw, n, c);
  }

  lemma StepsQueries(raw: string, normalized: string, cleaned: string)
    ensures forall step :: step in Steps(raw, normalized, cleaned) ==>
              step.query in {raw, normalized, cleaned, FallbackQuery}
    ensures raw != "" ==> Steps(raw, normalized, cleaned)[0] == PlanStep(raw, Locale)
  {
  }

  /** De-duplicating the candidates keeps the fallback last. */
  lemma PlanEndsWithFallback(raw: string)
    ensures var plan := Dedupe(Candidates(raw), {});
      && |plan| > 0 && plan[|plan| - 1] == PlanStep(FallbackQuery, Locale)
      && (forall step :: step in plan ==> step.locale == Locale)
  {
    var normalized := NormalizeName(raw);
    var tried := Tried(raw, normalized, CleanQuery(normalized));
    CandidatesEndWithFallback(raw);
    PlanShape(raw);
    FallbackLast(Candidates(raw), tried, Dedupe(Candidates(raw), {}));
  }

  /** Steps followed by the fallback unless they hold it end with the
      fallback when none but the last of them names it. */
  lemma FallbackLast(steps: seq<PlanStep>, tried: seq<PlanStep>, plan: seq<PlanStep>)
    requires steps == tried + [PlanStep(FallbackQuery, Locale)]
    requires forall i :: 0 <= i < |steps| ==> steps[i].locale == Locale
    requires forall i :: 0 <= i < |steps| - 2 ==> steps[i].query != FallbackQuery
    requires plan == tried + (if PlanStep(FallbackQuery, Locale) in tried then [] else [PlanStep(FallbackQuery, Locale)])
    ensures |plan| > 0 && plan[|plan| - 1] == PlanStep(FallbackQuery, Locale)
    ensures forall step :: step in plan ==> step.locale == Locale
  {
    var fallback := PlanStep(FallbackQuery, Locale);
    forall i | 0 <= i < |tried|
      ensures tried[i].locale == Locale && (i < |tried| - 1 ==> tried[i].query != FallbackQuery)
    {
      assert tried[i] == steps[i];
    }
    if fallback in tried {
      var i :| 0 <= i < |tried| && tried[i] == fallback;
      assert i == |tried| - 1;
    }
  }

  /** The steps tried before the fallback have pairwise different keys. */
  lemma TriedDistinct(raw: string, normalized: string, cleaned: string)
    requires cleaned != "" && cleaned != normalized ==> cleaned != raw
    ensures var t := Tried(raw, normalized, cleaned);
      forall i, j :: 0 <= i < j < |t| ==> StepKey(t[i]) != StepKey(t[j])
  {
    var t := Tried(raw, normalized, cleaned);
    forall i, j | 0 <= i < j < |t|
      ensures StepKey(t[i]) != StepKey(t[j])
    {
      StepKeyInjective(t[i], t[j]);
    }
  }

  /** In one locale, a step's key is among the keys of some steps exactly
      when the step is among them. */
  lemma KeyAmong(steps: seq<PlanStep>, x: PlanStep)
    requires forall y :: y in steps ==> y.locale == x.locale
    ensures StepKey(x) in Keys(steps) <==> x in steps
  {
    if StepKey(x) in Keys(steps) {
      var y :| y in steps && StepKey(y) == StepKey(x);
      StepKeyInjective(y, x);
    }
  }

  /** The candidates, whatever they are, de-duplicate to the tried steps
      followed by the fallback unless one of them already is the fallback,
      provided the cleaning never repeats the name. */
  lemma StepsShape(raw: string, normalized: string, cleaned: string)
    requires cleaned != "" && cleaned != normalized ==> cleaned != raw
    ensures var tried := Tried(raw, normalized, cleaned);
      var fallback := PlanStep(FallbackQuery, Locale);
      Dedupe(Steps(raw, normalized, cleaned), {}) == tried + (if fallback in tried then [] else [fallback])
  {
    TriedDistinct(raw, normalized, cleaned);
    AppendFallbackShape(Tried(raw, normalized, cleaned));
  }

  /** Steps with distinct keys in one locale, followed by the fallback,
      de-duplicate to themselves plus the fallback unless they hold it. */
  lemma AppendFallbackShape(tried: seq<PlanStep>)
    requires forall i, j :: 0 <= i < j < |tried| ==> StepKey(tried[i]) != StepKey(tried[j])
    requires forall y :: y in tried ==> y.locale == Locale
    ensures var fallback := PlanStep(FallbackQuery, Locale);
      Dedupe(tried + [fallback], {}) == tried + (if fallback in tried then [] else [fallback])
  {
    FallbackKeyAmong(tried);
    DedupeFresh(tried, {});
    AppendToKept(tried);
  }

  /** Steps that de-duplicate to themselves, followed by the fallback,
      de-duplicate to themselves plus the fallback unless its key was seen. */
  lemma AppendToKept(tried: seq<PlanStep>)
    requires Dedupe(tried, {}) == tried
    requires StepKey(PlanStep(FallbackQuery, Locale)) in {} + Keys(tried) <==> PlanStep(FallbackQuery, Locale) in tried
    ensures var fallback := PlanStep(FallbackQuery, Locale);
      Dedupe(tried + [fallback], {}) == tried + (if fallback in tried then [] else [fallback])
  {
    var fallback := PlanStep(FallbackQuery, Locale);
    DedupeAppendOne(tried, fallback, {});
    ShapeByParts(Dedupe(tried + [fallback], {}), Dedupe(tried, {}), tried,
                 StepKey(fallback) in {} + Keys(tried), fallback in tried, fallback);
  }

  /** The fallback's key was already seen exactly when the fallback is among the steps. */
  lemma FallbackKeyAmong(tried: seq<PlanStep>)
    requires forall y :: y in tried ==> y.locale == Locale
    ensures StepKey(PlanStep(FallbackQuery, Locale)) in {} + Keys(tried) <==> PlanStep(FallbackQuery, Locale) in tried
  {
    KeyAmong(tried, PlanStep(FallbackQuery, Locale));
  }

  /** Equal heads and equivalent tail conditions give equal sequences. */
  lemma ShapeByParts(whole: seq<PlanStep>, kept: seq<PlanStep>, tried: seq<PlanStep>,
                     seenBefore: bool, inTried: bool, x: PlanStep)
    requires whole == kept + (if seenBefore then [] else [x])
    requires kept == tried && (seenBefore <==> inTried)
    ensures whole == tried + (if inTried then [] else [x])
  {
  }

  /** De-duplicating steps followed by one more step: the extra step is kept
      exactly when its key is new to both `seen` and the steps before it. */
  lemma DedupeAppendOne(steps: seq<PlanStep>, x: PlanStep, seen: set<string>)
    ensures Dedupe(steps + [x], seen) ==
              Dedupe(steps, seen) + (if StepKey(x) in seen + Keys(steps) then [] else [x])
  {
    DedupeConcat(steps, [x], seen);
    DedupeSingle(x, seen + Keys(steps));
  }

  /** The plan is the name, its normalisation when different and non-empty,
      its cleaning when different from the normalisation and non-empty, and
      then the fallback unless one of these already is the fallback: the
      de-duplication drops nothing but a repeated fallback. */
  lemma PlanShape(raw: string)
    ensures var tried := Tried(raw, NormalizeName(raw), CleanQuery(NormalizeName(raw)));
      var fallback := PlanStep(FallbackQuery, Locale);
      Dedupe(Candidates(raw), {}) == tried + (if fallback in tried then [] else [fallback])
  {
    CleanedIsNormal(raw);
    StepsShape(raw, NormalizeName(raw), CleanQuery(NormalizeName(raw)));
  }

  // ---------------------------------------------------------------------------
  // getCachedPexels and getProductImage
  // ---------------------------------------------------------------------------

  /** The cache key of a plan step's search. */
  function SearchKey(step: PlanStep): string {
    CacheKeys.ProductPhotoKey(step.locale, step.query)
  }

  /** The cache lookup for a plan step's search. */
  function Lookup(disk: AppDisk, step: PlanStep, now: int): Outcome<Doc, Payload> {
    CacheStore.CacheGet(disk, DataPaths.PexelsCache, SearchKey(step), now)
  }

  /** `getCachedPexels`: the first photo of the cached search for the step
      when it has photos; otherwise the first photo of a fresh one-photo
      search, which is cached for a week only when it has photos; otherwise
      `null`.  `reply` is how the search request ends. */
  function GetCachedPexels(disk: AppDisk, env: Pexels.Env, step: PlanStep, reply: Pexels.Reply, now: int)
    : (o: Outcome<Doc, Option<Photo>>)
    ensures Lookup(disk, step, now).answer.Err? ==>
              o == Outcome(Lookup(disk, step, now).disk, Err(Lookup(disk, step, now).answer.error))
    ensures Lookup(disk, step, now).answer.Ok? && Pexels.HasPhotos(Lookup(disk, step, now).answer.value) ==>
              o == Outcome(Lookup(disk, step, now).disk, Ok(Some(Lookup(disk, step, now).answer.value.photos[0])))
    ensures Lookup(disk, step, now).answer.Ok? && !Pexels.HasPhotos(Lookup(disk, step, now).answer.value) &&
            !Pexels.HasPhotos(Pexels.FetchPexels(env, step.query, reply)) ==>
              o == Outcome(Lookup(disk, step, now).disk, Ok(None))
    ensures Lookup(disk, step, now).answer.Ok? && !Pexels.HasPhotos(Lookup(disk, step, now).answer.value) &&
            Pexels.HasPhotos(Pexels.FetchPexels(env, step.query, reply)) ==>
              var found := Pexels.FetchPexels(env, step.query, reply);
              var put := CacheStore.CacheSet(Lookup(disk, step, now).disk, DataPaths.PexelsCache, SearchKey(step),
                                             found, CacheKeys.ProductImageTtl, now);
              o.disk == put.disk &&
              o.answer == (if put.answer.Ok? then Ok(Some(found.photos[0])) else Err(put.answer.error))
  {
    var key := SearchKey(step);
    var got := CacheStore.CacheGet(disk, DataPaths.PexelsCache, key, now);
    match got.answer
    case Err(e) => Outcome(got.disk, Err(e))
    case Ok(cached) =>
      if Pexels.HasPhotos(cached) then Outcome(got.disk, Ok(Some(cached.photos[0])))
      else
        var found := Pexels.FetchPexels(env, step.query, reply);
        if !Pexels.HasPhotos(found) then Outcome(got.disk, Ok(None))
        else
          var put := CacheStore.CacheSet(got.disk, DataPaths.PexelsCache, key, found, CacheKeys.ProductImageTtl, now);
          match put.answer
          case Err(e) => Outcome(put.disk, Err(e))
          case Ok(_) => Outcome(put.disk, Ok(Some(found.photos[0])))
  }

  /** A newly fetched photo is served from the cache, whatever the service
      replies, until the cached search expires a week later. */
  lemma FreshPhotoIsCached(disk: AppDisk, env: Pexels.Env, step: PlanStep, reply: Pexels.Reply,
                           reply2: Pexels.Reply, now: int, later: int)
    requires Lookup(disk, step, now).answer.Ok? && !Pexels.HasPhotos(Lookup(disk, step, now).answer.value)
    requires GetCachedPexels(disk, env, step, reply, now).answer.Ok?
    requires now <= later < now + CacheKeys.ProductImageTtl
    ensures var first := GetCachedPexels(disk, env, step, reply, now);
      first.answer.value.Some? ==> GetCachedPexels(first.disk, env, step, reply2, later).answer == first.answer
  {
    var got := CacheStore.CacheGet(disk, DataPaths.PexelsCache, SearchKey(step), now);
    var found := Pexels.FetchPexels(env, step.query, reply);
    if Pexels.HasPhotos(found) {
      CacheStore.SetThenGet(got.disk, DataPaths.PexelsCache, SearchKey(step), found,
                            CacheKeys.ProductImageTtl, now, later);
    }
  }

  /** `for (const step of plan) { photo = await getCachedPexels(...); if (photo) break; }`:
      the steps are tried in order until one yields a photo; a failure of the
      cache store ends the search. */
  function TryPlan(disk: AppDisk, env: Pexels.Env, steps: seq<PlanStep>, replies: PlanStep -> Pexels.Reply,
                   now: int): (o: Outcome<Doc, Option<Photo>>)
    ensures |steps| == 0 ==> o == Outcome(disk, Ok(None))
    ensures |steps| > 0 && GetCachedPexels(disk, env, steps[0], replies(steps[0]), now).answer.Ok? &&
            GetCachedPexels(disk, env, steps[0], replies(steps[0]), now).answer.value.Some? ==>
              o == GetCachedPexels(disk, env, steps[0], replies(steps[0]), now)
    decreases |steps|
  {
    if |steps| == 0 then Outcome(disk, Ok(None))
    else
      var r := GetCachedPexels(disk, env, steps[0], replies(steps[0]), now);
      if r.answer.Err? || r.answer.value.Some? then r
      else TryPlan(r.disk, env, steps[1..], replies, now)
  }

  /** The reference answer of a plan on a cache that holds no photo for any
      of its steps: the first photo of the first step whose search delivers
      photos, or `null`. */
  function FirstSearchPhoto(env: Pexels.Env, steps: seq<PlanStep>, replies: PlanStep -> Pexels.Reply)
    : Option<Photo>
  {
    if |steps| == 0 then None
    else
      var found := Pexels.FetchPexels(env, steps[0].query, replies(steps[0]));
      if Pexels.HasPhotos(found) then Some(found.photos[0]) else FirstSearchPhoto(env, steps[1..], replies)
  }

  /** The photo cache is a readable, writable cache document holding no live
      search with photos for any of the steps. */
  predicate NoCachedPhotos(disk: AppDisk, steps: seq<PlanStep>, now: int) {
    var p := DataPaths.PexelsCache;
    && p in disk && disk[p].Holds? && disk[p].doc.CacheDoc? && Writable(disk, p)
    && forall i :: 0 <= i < |steps| ==>
         !Pexels.HasPhotos(CacheStore.FirstLiveValue(disk[p].doc.entries, SearchKey(steps[i]), now))
  }

  /** On a cache without photos for the plan, the search finds exactly the
      reference answer. */
  lemma {:induction false} ColdCacheFindsFirstSearchPhoto(disk: AppDisk, env: Pexels.Env, steps: seq<PlanStep>,
                                                         replies: PlanStep -> Pexels.Reply, now: int)
    requires NoCachedPhotos(disk, steps, now)
    ensures TryPlan(disk, env, steps, replies, now).answer == Ok(FirstSearchPhoto(env, steps, replies))
    decreases |steps|
  {
    if |steps| > 0 {
      var p := DataPaths.PexelsCache;
      var entries := disk[p].doc.entries;
      CacheStore.GetOnStored(disk, p, SearchKey(steps[0]), now);
      var got := CacheStore.CacheGet(disk, p, SearchKey(steps[0]), now);
      assert got.answer == Ok(CacheStore.FirstLiveValue(entries, SearchKey(steps[0]), now));
      var found := Pexels.FetchPexels(env, steps[0].query, replies(steps[0]));
      if Pexels.HasPhotos(found) {
        assert Load(got.disk, p, Some(CacheStore.EmptyCache)).Ok?;
      } else {
        var pruned := CacheStore.PruneExpired(entries, now);
        forall i | 0 <= i < |steps[1..]|
          ensures !Pexels.HasPhotos(CacheStore.FirstLiveValue(pruned, SearchKey(steps[1..][i]), now))
        {
          CacheStore.PruneKeepsLookups(entries, SearchKey(steps[i + 1]), now);
        }
        ColdCacheFindsFirstSearchPhoto(got.disk, env, steps[1..], replies, now);
      }
    }
  }

  /** The image record a found photo gives, or `null` when the photo has no
      medium, large or landscape size.  The sizes are preferred in that order;
      the alt text falls back to `"<name> photo"`; absent credits become `null`. */
  function ImageOf(ph: Photo, nameText: string): (r: Option<Image>)
    ensures r.Some? <==> Filled(ph.src.medium) || Filled(ph.src.large) || Filled(ph.src.landscape)
    ensures r.Some? ==> r.value.url != ""
    ensures r.Some? ==> Some(r.value.url) == (if Filled(ph.src.medium) then ph.src.medium
                                             else if Filled(ph.src.large) then ph.src.large
                                             else ph.src.landscape)
    ensures r.Some? ==> r.value.alt == (if ph.alt != "" then ph.alt else nameText + " photo")
    ensures r.Some? ==> r.value.photographer == OrNull(ph.photographer)
    ensures r.Some? ==> r.value.photographerUrl == OrNull(ph.photographerUrl)
    ensures r.Some? ==> r.value.photoUrl == OrNull(ph.url)
  {
    var url := if Filled(ph.src.medium) then ph.src.medium
               else if Filled(ph.src.large) then ph.src.large
               else ph.src.landscape;
    if !Filled(url) then None
    else Some(Image(url.value, if ph.alt != "" then ph.alt else nameText + " photo",
                    OrNull(ph.photographer), OrNull(ph.photographerUrl), OrNull(ph.url)))
  }

  /** A photo with a size, a page URL and a photographer gives an image that
      satisfies the catalogue: a product holding it needs no new photo. */
  lemma CompletePhotoSatisfiesCatalog(ph: Photo, nameText: string, product: Product)
    requires Filled(ph.src.medium) || Filled(ph.src.large) || Filled(ph.src.landscape)
    requires Filled(ph.url) && Filled(ph.photographer)
    ensures ImageOf(ph, nameText).Some?
    ensures !ProductCatalog.NeedsImage(product.(image := ImageOf(ph, nameText)))
  {
  }

  /** `getProductImage`: resolve the plan for the name, search it, and turn
      the photo found into an image record.  `nameText` is how the name
      renders in text. */
  function GetProductImage(disk: AppDisk, env: Pexels.Env, name: Value, nameText: string,
                           replies: PlanStep -> Pexels.Reply, now: int): (o: Outcome<Doc, Option<Image>>)
    // the cache effects and failures are those of searching the plan in order
    ensures var found := TryPlan(disk, env, ResolveQueryPlan(name), replies, now);
      && o.disk == found.disk
      && (o.answer.Err? <==> found.answer.Err?)
      && (found.answer == Ok(None) ==> o.answer == Ok(None))
      && (found.answer.Ok? && found.answer.value.Some? ==>
            o.answer == Ok(ImageOf(found.answer.value.value, nameText)))
    // an image always carries a URL and an alt text
    ensures o.answer.Ok? && o.answer.value.Some? ==> o.answer.value.value.url != "" && o.answer.value.value.alt != ""
  {
    ImageFound(TryPlan(disk, env, ResolveQueryPlan(name), replies, now), nameText)
  }

  /** The image record of a search outcome: failures pass through, a photo
      becomes its image. */
  function ImageFound(found: Outcome<Doc, Option<Photo>>, nameText: string): (o: Outcome<Doc, Option<Image>>)
    ensures o.disk == found.disk
    ensures found.answer.Err? ==> o.answer == Err(found.answer.error)
    ensures found.answer == Ok(None) ==> o.answer == Ok(None)
    ensures found.answer.Ok? && found.answer.value.Some? ==>
              o.answer == Ok(ImageOf(found.answer.value.value, nameText))
  {
    match found.answer
    case Err(e) => Outcome(found.disk, Err(e))
    case Ok(None) => Outcome(found.disk, Ok(None))
    case Ok(Some(ph)) => Outcome(found.disk, Ok(ImageOf(ph, nameText)))
  }

  /** On a cold photo cache a product's image comes from the first planned
      query whose search delivers photos, and names the fallback query's
      photo when no other query finds one. */
  lemma ColdCacheImage(disk: AppDisk, env: Pexels.Env, name: Value, nameText: string,
                       replies: PlanStep -> Pexels.Reply, now: int)
    requires NoCachedPhotos(disk, ResolveQueryPlan(name), now)
    ensures var photo := FirstSearchPhoto(env, ResolveQueryPlan(name), replies);
      GetProductImage(disk, env, name, nameText, replies, now).answer ==
        Ok(if photo.Some? then ImageOf(photo.value, nameText) else None)
  {
    ColdCacheFindsFirstSearchPhoto(disk, env, ResolveQueryPlan(name), replies, now);
  }
}

=== FILE: quality.dfy ===
/** The frontend's soil-quality label: a score is classified into one of
    four bands, or `unknown` when it is not a number. */
module Quality {
  import opened JsValues

  /** The labels, in increasing order of quality after `Unknown`. */
  datatype Label = Unknown | Weak | Ok | Good | Awsome

  /** The text shown for a label; the top band is spelled `awsome`. */
  function LabelText(l: Label): (r: string)
    ensures |r| > 0
  {
    match l
    case Unknown => "unknown"
    case Weak => "weak"
    case Ok => "ok"
    case Good => "good"
    case Awsome => "awsome"
  }

  /** Different labels have different texts. */
  lemma LabelTextInjective(a: Label, b: Label)
    ensures LabelText(a) == LabelText(b) <==> a == b
  {
    if a != b {
      assert LabelText(a)[0] != LabelText(b)[0] || |LabelText(a)| != |LabelText(b)|;
    }
  }

  /** `getQualityLabel`: a value that is not a number, or is NaN, is
      `unknown`; otherwise the bands are below 40, below 60, below 80, and the
      rest (infinities included). */
  function QualityLabel(score: Value): (r: Label)
    ensures r == Unknown <==> !score.Num? || score.n.NaN?
    ensures score.Num? && score.n.Finite? ==>
              && (r == Weak <==> score.n.v < 40.0)
              && (r == Ok <==> 40.0 <= score.n.v < 60.0)
              && (r == Good <==> 60.0 <= score.n.v < 80.0)
              && (r == Awsome <==> 80.0 <= score.n.v)
    ensures score == Num(Infinity) ==> r == Awsome
    ensures score == Num(NegInfinity) ==> r == Weak
  {
    if !score.Num? || score.n.NaN? then Unknown
    else if Below(score.n, 40.0) then Weak
    else if Below(score.n, 60.0) then Ok
    else if Below(score.n, 80.0) then Good
    else Awsome
  }

  /** `n < bound` for a number that is not NaN. */
  predicate Below(n: Number, bound: real)
    requires !n.NaN?
  {
    match n
    case Finite(v) => v < bound
    case NegInfinity => true
    case _ => false
  }

  /** The order of numbers other than NaN. */
  predicate AtMost(a: Number, b: Number)
    requires !a.NaN? && !b.NaN?
  {
    a.NegInfinity? || b.Infinity? || (a.Finite? && b.Finite? && a.v <= b.v)
  }

  /** The position of a band: weak 0, ok 1, good 2, awsome 3. */
  function Rank(l: Label): (r: int)
    requires l != Unknown
    ensures 0 <= r <= 3
  {
    match l
    case Weak => 0
    case Ok => 1
    case Good => 2
    case Awsome => 3
  }

  /** A higher score never gets a lower band. */
  lemma RankMonotonic(a: Number, b: Number)
    requires !a.NaN? && !b.NaN? && AtMost(a, b)
    ensures QualityLabel(Num(a)) != Unknown && QualityLabel(Num(b)) != Unknown
    ensures Rank(QualityLabel(Num(a))) <= Rank(QualityLabel(Num(b)))
  {
  }
}

=== FILE: records.dfy ===
/** The records the backend keeps in its JSON documents and the payloads it
    caches.  Timestamps are integer milliseconds; a stored timestamp that is
    missing or does not parse as a date is `None`.  Coordinates and ratings are
    JavaScript numbers, kept as reals. */
module Records {
  import opened Wrappers
  import opened JsValues
  import FileStore

  /** A login session (`sessions.json`). */
  datatype Session = Session(
    id: string,
    token: string,
    userId: string,
    role: string,
    createdAt: int,
    expiresAt: Option<int>)

  /** An account (`users.json`).  `passwordHash` is `salt:key` in hexadecimal. */
  datatype User = User(
    id: string,
    username: string,
    passwordHash: string,
    role: string,
    createdAt: int)

  /** A vendor profile (`vendors.json`), owned by the user `userId`.
      `displayName` and `bio` are whatever value the profile request carried. */
  datatype Vendor = Vendor(
    id: string,
    userId: string,
    farmName: string,
    displayName: Value,
    lat: Option<real>,
    lng: Option<real>,
    bio: Value,
    createdAt: int,
    updatedAt: Option<int>)

  /** Optional text that is present and non-empty, i.e. truthy. */
  predicate Filled(s: Option<string>) {
    s.Some? && s.value != ""
  }

  /** `text || null` for optional text: the text when it is truthy, otherwise `null`. */
  function OrNull(s: Option<string>): (r: Option<string>)
    ensures r.Some? <==> Filled(s)
    ensures r.Some? ==> r == s
  {
    if Filled(s) then s else None
  }

  /** The photo attached to a product or a news item. */
  datatype Image = Image(
    url: string,
    alt: string,
    photographer: Option<string>,
    photographerUrl: Option<string>,
    photoUrl: Option<string>)

  /** A product listing (`products.json`), owned by the vendor `vendorId`.
      `category` and `unit` are whatever value the create request carried. */
  datatype Product = Product(
    id: string,
    vendorId: string,
    name: string,
    category: Value,
    unit: Value,
    rating: Option<real>,
    available: bool,
    image: Option<Image>,
    createdAt: int)

  /** A market (`markets.json`). */
  datatype Market = Market(
    id: string,
    name: string,
    lat: Option<real>,
    lng: Option<real>,
    pickupPoints: int,
    openStands: int,
    activeGrowers: int)

  /** The three sizes of a stock photo. */
  datatype PhotoSources = PhotoSources(large: Option<string>, medium: Option<string>, landscape: Option<string>)

  /** A stock photo as the backend normalises it. */
  datatype Photo = Photo(
    id: Value,
    url: Option<string>,
    alt: string,
    photographer: Option<string>,
    photographerUrl: Option<string>,
    src: PhotoSources)

  /** One point of a commodity statistics series. */
  datatype YearValue = YearValue(year: real, value: real)

  /** A commodity statistics result. */
  datatype FaostatStats = FaostatStats(item: string, country: string, series: seq<YearValue>)

  /** A farmers market found by the USDA directory. */
  datatype UsdaMarket = UsdaMarket(id: Value, name: string, distance: Option<Number>, address: Option<string>)

  /** A soil report: the three projected fields, and everything else it carries. */
  datatype Soil = Soil(ph: Value, organicCarbon: Value, qualityScore: Value, rest: Value)

  /** A market-news item: its `commodity` field and everything else it carries. */
  datatype News = News(commodity: Value, rest: Value)

  /** A value held in a cache entry or produced by a fetcher.  `Nothing` is
      JavaScript `null`/`undefined`. */
  datatype Payload =
    | Nothing
    | PhotoSearch(query: string, photos: seq<Photo>)
    | Stats(stats: FaostatStats)
    | MarketList(markets: seq<UsdaMarket>)
    | SoilReport(soil: Soil)
    | NewsReport(news: News)

  /** One element of a cache document's `entries` array.  `Blank` is a falsy
      element (`null`, say). */
  datatype CacheSlot = Blank | Entry(key: string, value: Payload, expiresAt: Option<int>)

  /** The parsed content of one document.  Each list-shaped document is an
      object holding its array; `NullDoc` is the JSON value `null`;
      `OtherShape` is any other value that lacks the expected array. */
  datatype Doc =
    | CacheDoc(entries: seq<CacheSlot>)
    | SessionsDoc(sessions: seq<Session>)
    | UsersDoc(users: seq<User>)
    | VendorsDoc(vendors: seq<Vendor>)
    | ProductsDoc(products: seq<Product>)
    | MarketsDoc(markets: seq<Market>)
    | NullDoc
    | OtherShape

  /** The backend's data directory. */
  type AppDisk = FileStore.Disk<Doc>
}

=== FILE: seqs.dfy ===
/** Order-preserving sequence operations that the source writes with
    `Array.prototype.filter`, `find`, `findIndex`, `splice` and `slice`. */
module Seqs {
  import opened Wrappers

  /** The elements of `s` that satisfy `keep`, in their original order. */
  function Filter<T>(s: seq<T>, keep: T -> bool): (r: seq<T>)
    ensures |r| <= |s|
    ensures forall i :: 0 <= i < |r| ==> keep(r[i])
    ensures forall x :: x in r ==> x in s
    ensures forall i :: 0 <= i < |s| && keep(s[i]) ==> s[i] in r
    ensures (forall i :: 0 <= i < |s| ==> keep(s[i])) ==> r == s
  {
    if |s| == 0 then []
    else if keep(s[0]) then [s[0]] + Filter(s[1..], keep)
    else Filter(s[1..], keep)
  }

  /** Filtering a concatenation filters each part: the filter keeps relative order. */
  lemma {:induction false} FilterConcat<T>(a: seq<T>, b: seq<T>, keep: T -> bool)
    ensures Filter(a + b, keep) == Filter(a, keep) + Filter(b, keep)
  {
    if |a| == 0 {
      assert a + b == b;
    } else {
      assert (a + b)[1..] == a[1..] + b;
      FilterConcat(a[1..], b, keep);
    }
  }

  /** Filtering keeps each element exactly as many times as it occurs, or drops it entirely. */
  lemma {:induction false} FilterMultiset<T>(s: seq<T>, keep: T -> bool, x: T)
    ensures multiset(Filter(s, keep))[x] == if keep(x) then multiset(s)[x] else 0
  {
    if |s| > 0 {
      FilterMultiset(s[1..], keep, x);
      assert s == [s[0]] + s[1..];
    }
  }

  /** Filtering twice with two tests is filtering once with their conjunction. */
  lemma {:induction false} FilterFilter<T>(s: seq<T>, p: T -> bool, q: T -> bool, both: T -> bool)
    requires forall x :: both(x) == (p(x) && q(x))
    ensures Filter(Filter(s, p), q) == Filter(s, both)
  {
    if |s| > 0 {
      FilterFilter(s[1..], p, q, both);
    }
  }

  /** The first element satisfying `test` (JavaScript `Array.prototype.find`). */
  function Find<T>(s: seq<T>, test: T -> bool): (r: Option<T>)
    ensures r.None? <==> forall i :: 0 <= i < |s| ==> !test(s[i])
    ensures r.Some? ==> exists i :: 0 <= i < |s| && s[i] == r.value && test(s[i]) &&
                          forall j :: 0 <= j < i ==> !test(s[j])
  {
    var i := IndexOf(s, test);
    if i < 0 then None else Some(s[i])
  }

  /** The index of the first element satisfying `test`, or -1 (`Array.prototype.findIndex`). */
  function IndexOf<T>(s: seq<T>, test: T -> bool): (i: int)
    ensures -1 <= i < |s|
    ensures i == -1 <==> forall j :: 0 <= j < |s| ==> !test(s[j])
    ensures 0 <= i ==> test(s[i]) && forall j :: 0 <= j < i ==> !test(s[j])
  {
    if |s| == 0 then -1
    else if test(s[0]) then 0
    else
      var k := IndexOf(s[1..], test);
      if k < 0 then -1 else k + 1
  }

  /** `s` without the element at index `i` (`splice(i, 1)`). */
  function RemoveAt<T>(s: seq<T>, i: nat): (r: seq<T>)
    requires i < |s|
    ensures |r| == |s| - 1
    ensures forall j :: 0 <= j < i ==> r[j] == s[j]
    ensures forall j :: i <= j < |r| ==> r[j] == s[j + 1]
  {
    s[..i] + s[i + 1..]
  }

  /** At most the first `n` elements (`slice(0, n)`). */
  function Take<T>(s: seq<T>, n: nat): (r: seq<T>)
    ensures |r| == if |s| < n then |s| else n
    ensures r <= s
  {
    if |s| <= n then s else s[..n]
  }

  /** At most the last `n` elements (`slice(-n)` for a positive `n`). */
  function TakeLast<T>(s: seq<T>, n: nat): (r: seq<T>)
    ensures |r| == if |s| < n then |s| else n
    ensures forall i :: 0 <= i < |r| ==> r[i] == s[|s| - |r| + i]
  {
    if |s| <= n then s else s[|s| - n..]
  }
}

=== FILE: sessions.dfy ===
/** Password hashes and login sessions.  Sessions live in `sessions.json`;
    every session operation is one `updateJson` transaction that also drops
    the sessions whose expiry has passed.  Random bytes, UUIDs, scrypt and the
    clock are parameters: `token` and `id` are whatever the generator produced,
    `now` is the clock reading, and `keyMatches(password, salt, key)` stands for
    deriving the scrypt key of `password` with `salt` and comparing it in
    constant time with the hexadecimal `key`. */
module Sessions {
  import opened Wrappers
  import opened Records
  import opened FileStore
  import DataPaths
  import Seqs

  /** Seven days in milliseconds. */
  const SessionTtlMs: int := 1000 * 60 * 60 * 24 * 7

  /** The cookie carrying the session token. */
  const SessionCookieName: string := "lf_session"

  const EmptySessions: Doc := SessionsDoc([])

  /** A cookie value as it reaches the code: absent, or a string. */
  type Token = Option<string>

  /** JavaScript truthiness of a token: present and non-empty. */
  predicate Present(token: Token) {
    token.Some? && token.value != ""
  }

  // ---------------------------------------------------------------------------
  // Password hashes
  // ---------------------------------------------------------------------------

  /** `hashPassword` stores `salt:key`. */
  function FormatHash(salt: string, key: string): string {
    salt + ":" + key
  }

  /** The first two `:`-separated fields of a string containing `:` — what
      `const [salt, key] = storedHash.split(':')` binds. */
  function SplitHash(h: string): (fields: (string, string))
    requires ':' in h
    ensures ':' !in fields.0 && ':' !in fields.1
    ensures |fields.0| < |h| && h[..|fields.0|] == fields.0 && h[|fields.0|] == ':'
    ensures var rest := h[|fields.0| + 1..];
      fields.1 <= rest && (|fields.1| == |rest| || rest[|fields.1|] == ':')
  {
    var i := Seqs.IndexOf(h, (c: char) => c == ':');
    var rest := h[i + 1..];
    var j := Seqs.IndexOf(rest, (c: char) => c == ':');
    var key := if j < 0 then rest else rest[..j];
    assert forall k :: 0 <= k < i ==> h[..i][k] == h[k];
    (h[..i], key)
  }

  /** `verifyPassword`: false for an empty hash, one without `:`, or one whose
      salt or key field is empty; otherwise the key comparison decides. */
  function VerifyPassword(password: string, storedHash: string,
                          keyMatches: (string, string, string) -> bool): (ok: bool)
    ensures ok <==> ':' in storedHash && SplitHash(storedHash).0 != "" && SplitHash(storedHash).1 != "" &&
                    keyMatches(password, SplitHash(storedHash).0, SplitHash(storedHash).1)
    ensures ok ==> storedHash != "" && storedHash[0] != ':'
  {
    if storedHash == "" || ':' !in storedHash then false
    else
      var (salt, key) := SplitHash(storedHash);
      if salt == "" || key == "" then false
      else keyMatches(password, salt, key)
  }

  /** What `hashPassword` stores is what `verifyPassword` splits: a password is
      accepted against `salt:key` exactly when the key derived from it with
      that salt is `key`. */
  lemma HashRoundTrip(password: string, salt: string, key: string,
                      keyMatches: (string, string, string) -> bool)
    requires salt != "" && key != "" && ':' !in salt && ':' !in key
    ensures VerifyPassword(password, FormatHash(salt, key), keyMatches) == keyMatches(password, salt, key)
  {
    var h := FormatHash(salt, key);
    assert h[|salt|] == ':';
    var fields := SplitHash(h);
    SplitUnique(h, salt, fields.0);
    assert h[|salt| + 1..] == key;
  }

  /** A prefix of `h` followed by `:` and free of `:` is the first field. */
  lemma SplitUnique(h: string, a: string, b: string)
    requires |a| < |h| && h[..|a|] == a && h[|a|] == ':' && ':' !in a
    requires |b| < |h| && h[..|b|] == b && h[|b|] == ':' && ':' !in b
    ensures a == b
  {
  }

  // ---------------------------------------------------------------------------
  // Sessions
  // ---------------------------------------------------------------------------

  /** The sessions array of the document, `[]` when it is not an array, or
      `None` when the document is `null` and reading `.sessions` throws. */
  function SessionList(d: Doc): Option<seq<Session>> {
    match d
    case SessionsDoc(ss) => Some(ss)
    case NullDoc => None
    case _ => Some([])
  }

  /** A session survives pruning: its expiry parses and lies strictly after `now`. */
  predicate Active(s: Session, now: int) {
    s.expiresAt.Some? && s.expiresAt.value > now
  }

  function ActiveSessions(ss: seq<Session>, now: int): (r: seq<Session>)
    ensures forall i :: 0 <= i < |r| ==> Active(r[i], now)
    ensures forall x :: x in r ==> x in ss
    ensures forall i :: 0 <= i < |ss| && Active(ss[i], now) ==> ss[i] in r
  {
    Seqs.Filter(ss, (s: Session) => Active(s, now))
  }

  /** The content every session operation starts from. */
  function Current(disk: AppDisk): Result<Doc, Failure> {
    Load(disk, DataPaths.Sessions, Some(EmptySessions))
  }

  /** The record `createSession` builds for `user` at time `now`. */
  function NewSession(user: User, id: string, token: string, now: int): Session {
    Session(id, token, user.id, user.role, now, Some(now + SessionTtlMs))
  }

  /** The transform of `createSession`; it prunes with the clock read inside
      the transform, `pruneAt`. */
  function CreateStep(d: Doc, s: Session, pruneAt: int): Option<(Doc, Session)> {
    match SessionList(d)
    case None => None
    case Some(ss) => Some((SessionsDoc(ActiveSessions(ss, pruneAt) + [s]), s))
  }

  /** `createSession`: the new session expires seven days after `now` and is
      appended after the sessions still active at `pruneAt`; it is answered
      once persisted. */
  function CreateSession(disk: AppDisk, user: User, id: string, token: string, now: int, pruneAt: int)
    : (o: Outcome<Doc, Session>)
    ensures Current(disk).Err? ==> o == Outcome(disk, Err(Current(disk).error))
    ensures Current(disk) == Ok(NullDoc) ==> o == Outcome(disk, Err(Thrown))
    ensures Current(disk).Ok? && Current(disk).value != NullDoc && !Writable(disk, DataPaths.Sessions) ==>
              var kept := ActiveSessions(SessionList(Current(disk).value).value, pruneAt);
              o == Outcome(FailedWrite(disk, DataPaths.Sessions, SessionsDoc(kept + [NewSession(user, id, token, now)])),
                           Err(IOFailure))
    ensures o.answer.Ok? ==>
              && o.answer.value.token == token && o.answer.value.userId == user.id
              && o.answer.value.role == user.role && o.answer.value.createdAt == now
              && o.answer.value.expiresAt == Some(now + SessionTtlMs)
    ensures Current(disk).Ok? && Current(disk).value != NullDoc && Writable(disk, DataPaths.Sessions) ==>
              && o.answer.Ok?
              && DataPaths.Sessions in o.disk
              && o.disk[DataPaths.Sessions] ==
                   Holds(SessionsDoc(ActiveSessions(SessionList(Current(disk).value).value, pruneAt) +
                                     [o.answer.value]))
              && Writable(o.disk, DataPaths.Sessions)
              && OnlyTouches(disk, o.disk, DataPaths.Sessions)
  {
    var s := NewSession(user, id, token, now);
    Transact(disk, DataPaths.Sessions, Some(EmptySessions), (d: Doc) => CreateStep(d, s, pruneAt))
  }

  /** The transform of `getSession`. */
  function GetStep(d: Doc, token: string, now: int): Option<(Doc, Option<Session>)> {
    match SessionList(d)
    case None => None
    case Some(ss) =>
      var active := ActiveSessions(ss, now);
      Some((SessionsDoc(active), Lookup(ss, token, now)))
  }

  /** `getSession`: an absent or empty token answers `null` without touching
      the store.  Otherwise the expired sessions are dropped and persisted, and
      the first active session carrying the token is answered. */
  function GetSession(disk: AppDisk, token: Token, now: int): (o: Outcome<Doc, Option<Session>>)
    ensures !Present(token) ==> o == Outcome(disk, Ok(None))
    ensures Present(token) && Current(disk).Err? ==> o == Outcome(disk, Err(Current(disk).error))
    ensures Present(token) && Current(disk) == Ok(NullDoc) ==> o == Outcome(disk, Err(Thrown))
    ensures (Present(token) && Current(disk).Ok? && Current(disk).value != NullDoc &&
             !Writable(disk, DataPaths.Sessions)) ==>
              var ss := SessionList(Current(disk).value).value;
              o == Outcome(FailedWrite(disk, DataPaths.Sessions, SessionsDoc(ActiveSessions(ss, now))), Err(IOFailure))
    ensures Present(token) && Current(disk).Ok? && Current(disk).value != NullDoc &&
            Writable(disk, DataPaths.Sessions) ==>
              var ss := SessionList(Current(disk).value).value;
              && o.answer == Ok(Lookup(ss, token.value, now))
              && DataPaths.Sessions in o.disk
              && o.disk[DataPaths.Sessions] == Holds(SessionsDoc(ActiveSessions(ss, now)))
              && Writable(o.disk, DataPaths.Sessions)
              && OnlyTouches(disk, o.disk, DataPaths.Sessions)
  {
    if !Present(token) then Outcome(disk, Ok(None))
    else Transact(disk, DataPaths.Sessions, Some(EmptySessions), (d: Doc) => GetStep(d, token.value, now))
  }

  /** The session a lookup answers: the first active session carrying the
      token.  It is `None` exactly when no active session carries the token. */
  function Lookup(ss: seq<Session>, token: string, now: int): (r: Option<Session>)
    ensures r.None? <==> forall i :: 0 <= i < |ss| ==> !(Active(ss[i], now) && ss[i].token == token)
    ensures r.Some? ==> r.value in ss && Active(r.value, now) && r.value.token == token
  {
    var active := ActiveSessions(ss, now);
    var r := Seqs.Find(active, (s: Session) => s.token == token);
    if r.None? then
      forall i | 0 <= i < |ss| && Active(ss[i], now)
        ensures ss[i].token != token
      {
        assert ss[i] in active;
      }
      r
    else
      assert r.value in ss;
      var k :| 0 <= k < |ss| && ss[k] == r.value;
      r
  }

  /** A lookup on sessions already pruned at the same instant finds the same session. */
  lemma LookupPruned(ss: seq<Session>, token: string, now: int)
    ensures Lookup(ActiveSessions(ss, now), token, now) == Lookup(ss, token, now)
    ensures ActiveSessions(ActiveSessions(ss, now), now) == ActiveSessions(ss, now)
  {
    Seqs.FilterFilter(ss, (s: Session) => Active(s, now), (s: Session) => Active(s, now),
                      (s: Session) => Active(s, now));
  }

  /** The sessions a revocation keeps: every session not carrying the token,
      expired or not. */
  function Without(ss: seq<Session>, token: string): (r: seq<Session>)
    ensures forall i :: 0 <= i < |r| ==> r[i].token != token
    ensures forall x :: x in r ==> x in ss
    ensures forall i :: 0 <= i < |ss| && ss[i].token != token ==> ss[i] in r
  {
    Seqs.Filter(ss, (s: Session) => s.token != token)
  }

  /** Revocation keeps the other sessions in order: it works piecewise. */
  lemma WithoutConcat(a: seq<Session>, b: seq<Session>, token: string)
    ensures Without(a + b, token) == Without(a, token) + Without(b, token)
  {
    Seqs.FilterConcat(a, b, (s: Session) => s.token != token);
  }

  /** Revocation keeps every other session as many times as it was stored,
      and drops every copy of a session carrying the token. */
  lemma WithoutCounts(ss: seq<Session>, token: string, x: Session)
    ensures multiset(Without(ss, token))[x] == if x.token != token then multiset(ss)[x] else 0
  {
    Seqs.FilterMultiset(ss, (s: Session) => s.token != token, x);
  }

  /** The transform of `revokeSession`. */
  function RevokeStep(d: Doc, token: string): Option<(Doc, ())> {
    match SessionList(d)
    case None => None
    case Some(ss) => Some((SessionsDoc(Without(ss, token)), ()))
  }

  /** `revokeSession`: an absent or empty token does nothing.  Otherwise every
      session carrying the token is removed, expired or not, and every other
      session is kept in order. */
  function RevokeSession(disk: AppDisk, token: Token): (o: Outcome<Doc, ()>)
    ensures !Present(token) ==> o == Outcome(disk, Ok(()))
    ensures Present(token) && Current(disk).Err? ==> o == Outcome(disk, Err(Current(disk).error))
    ensures Present(token) && Current(disk) == Ok(NullDoc) ==> o == Outcome(disk, Err(Thrown))
    ensures (Present(token) && Current(disk).Ok? && Current(disk).value != NullDoc &&
             !Writable(disk, DataPaths.Sessions)) ==>
              var ss := SessionList(Current(disk).value).value;
              o == Outcome(FailedWrite(disk, DataPaths.Sessions, SessionsDoc(Without(ss, token.value))), Err(IOFailure))
    ensures Present(token) && Current(disk).Ok? && Current(disk).value != NullDoc &&
            Writable(disk, DataPaths.Sessions) ==>
              var ss := SessionList(Current(disk).value).value;
              && o.answer.Ok?
              && DataPaths.Sessions in o.disk && o.disk[DataPaths.Sessions].Holds?
              && Writable(o.disk, DataPaths.Sessions)
              && OnlyTouches(disk, o.disk, DataPaths.Sessions)
              && var kept := SessionList(o.disk[DataPaths.Sessions].doc);
              && kept == Some(Without(ss, token.value))
              && (forall i :: 0 <= i < |kept.value| ==> kept.value[i].token != token.value)
              && (forall i :: 0 <= i < |ss| && ss[i].token != token.value ==> ss[i] in kept.value)
              && (forall x :: x in kept.value ==> x in ss)
  {
    if !Present(token) then Outcome(disk, Ok(()))
    else Transact(disk, DataPaths.Sessions, Some(EmptySessions), (d: Doc) => RevokeStep(d, token.value))
  }

  /** A session just created is found by its token until it expires, and not
      from its expiry on, provided no older session carried the same token. */
  lemma CreateThenGet(disk: AppDisk, user: User, id: string, token: string, now: int, pruneAt: int, t: int)
    requires token != ""
    requires CreateSession(disk, user, id, token, now, pruneAt).answer.Ok?
    requires forall s :: s in SessionList(Current(disk).value).value ==> s.token != token
    ensures var c := CreateSession(disk, user, id, token, now, pruneAt);
      GetSession(c.disk, Some(token), t).answer ==
        Ok(if t < now + SessionTtlMs then Some(c.answer.value) else None)
  {
    var c := CreateSession(disk, user, id, token, now, pruneAt);
    var stored := ActiveSessions(SessionList(Current(disk).value).value, pruneAt) + [c.answer.value];
    assert Current(c.disk) == Ok(SessionsDoc(stored));
    if t < now + SessionTtlMs {
      assert Active(stored[|stored| - 1], t);
    }
  }

  /** After a revocation the token no longer finds a session, at any time. */
  lemma RevokeThenGet(disk: AppDisk, token: string, t: int)
    requires token != ""
    requires RevokeSession(disk, Some(token)).answer.Ok?
    ensures GetSession(RevokeSession(disk, Some(token)).disk, Some(token), t).answer == Ok(None)
  {
    var r := RevokeSession(disk, Some(token));
    assert Current(disk).Ok? && Current(disk).value != NullDoc;
    var kept := SessionList(r.disk[DataPaths.Sessions].doc).value;
    assert Current(r.disk) == Ok(r.disk[DataPaths.Sessions].doc);
  }

  /** Looking a token up twice at the same instant answers the same and the
      second lookup writes back what the first one left. */
  lemma GetTwice(disk: AppDisk, token: string, now: int)
    requires token != ""
    requires GetSession(disk, Some(token), now).answer.Ok?
    ensures var first := GetSession(disk, Some(token), now);
      var second := GetSession(first.disk, Some(token), now);
      second.answer == first.answer && second.disk == first.disk
  {
    var first := GetSession(disk, Some(token), now);
    var ss := SessionList(Current(disk).value).value;
    assert Current(first.disk) == Ok(SessionsDoc(ActiveSessions(ss, now)));
    LookupPruned(ss, token, now);
    RewriteIsNoop(first.disk, DataPaths.Sessions, SessionsDoc(ActiveSessions(ss, now)));
  }
}

=== FILE: text.dfy ===
/** ASCII character classes and the string helpers JavaScript provides as
    `trim`, `toLowerCase`, and the regular-expression classes `\s`, `\d`, `\w`.
    Only the ASCII members of each class are modelled. */
module Text {

  /** Regular-expression `\s` restricted to ASCII: space, tab, LF, VT, FF, CR. */
  predicate IsSpace(c: char) {
    c == ' ' || c == '\t' || c == '\n' || c == '\r' || c == '\U{000B}' || c == '\U{000C}'
  }

  /** Regular-expression `\d`. */
  predicate IsDigit(c: char) {
    '0' <= c <= '9'
  }

  predicate IsLowerLetter(c: char) {
    'a' <= c <= 'z'
  }

  predicate IsUpperLetter(c: char) {
    'A' <= c <= 'Z'
  }

  /** Regular-expression `\w`: ASCII letters, digits and underscore. */
  predicate IsWordChar(c: char) {
    IsLowerLetter(c) || IsUpperLetter(c) || IsDigit(c) || c == '_'
  }

  /** `String.prototype.toLowerCase` on one ASCII character; other characters are kept. */
  function LowerChar(c: char): (r: char)
    ensures !IsUpperLetter(r)
    ensures IsUpperLetter(c) ==> IsLowerLetter(r)
    ensures !IsUpperLetter(c) ==> r == c
  {
    if IsUpperLetter(c) then (c as int + 32) as char else c
  }

  /** `String.prototype.toLowerCase` for ASCII text. */
  function Lower(s: string): (r: string)
    ensures |r| == |s|
    ensures forall i :: 0 <= i < |s| ==> r[i] == LowerChar(s[i])
  {
    seq(|s|, i requires 0 <= i < |s| => LowerChar(s[i]))
  }

  /** Lowering twice is lowering once. */
  lemma LowerIdempotent(s: string)
    ensures Lower(Lower(s)) == Lower(s)
  {
  }

  /** Text that starts and ends with a non-whitespace character (or is empty). */
  predicate IsTrimmed(s: string) {
    |s| == 0 || (!IsSpace(s[0]) && !IsSpace(s[|s| - 1]))
  }

  /** `s` without its leading whitespace. */
  function TrimStart(s: string): (r: string)
    ensures |r| <= |s| && r == s[|s| - |r|..]
    ensures |r| > 0 ==> !IsSpace(r[0])
    ensures forall i :: 0 <= i < |s| - |r| ==> IsSpace(s[i])
  {
    if |s| > 0 && IsSpace(s[0]) then
      var r := TrimStart(s[1..]);
      assert s[1..][|s| - 1 - |r|..] == s[|s| - |r|..];
      forall i | 0 <= i < |s| - |r|
        ensures IsSpace(s[i])
      {
        if i > 0 {
          assert s[i] == s[1..][i - 1];
        }
      }
      r
    else s
  }

  /** `s` without its trailing whitespace. */
  function TrimEnd(s: string): (r: string)
    ensures |r| <= |s| && r == s[..|r|]
    ensures |r| > 0 ==> !IsSpace(r[|r| - 1])
    ensures forall i :: |r| <= i < |s| ==> IsSpace(s[i])
  {
    if |s| > 0 && IsSpace(s[|s| - 1]) then
      var r := TrimEnd(s[..|s| - 1]);
      assert s[..|s| - 1][..|r|] == s[..|r|];
      forall i | |r| <= i < |s|
        ensures IsSpace(s[i])
      {
        if i < |s| - 1 {
          assert s[i] == s[..|s| - 1][i];
        }
      }
      r
    else s
  }

  /** Trimming the start twice is trimming it once. */
  lemma TrimStartIdempotent(s: string)
    ensures TrimStart(TrimStart(s)) == TrimStart(s)
    ensures Trim(TrimStart(s)) == Trim(s)
  {
  }

  /** The number of leading whitespace characters of `s`. */
  function LeadingSpaces(s: string): (n: nat)
    ensures n <= |s|
    ensures forall i :: 0 <= i < n ==> IsSpace(s[i])
    ensures n < |s| ==> !IsSpace(s[n])
  {
    |s| - |TrimStart(s)|
  }

  /** `String.prototype.trim`: the middle part of `s` between its leading and
      trailing whitespace. */
  function Trim(s: string): (r: string)
    ensures IsTrimmed(r)
    ensures LeadingSpaces(s) + |r| <= |s|
    ensures r == s[LeadingSpaces(s)..LeadingSpaces(s) + |r|]
    ensures forall i :: LeadingSpaces(s) + |r| <= i < |s| ==> IsSpace(s[i])
    ensures (forall i :: 0 <= i < |s| ==> !IsSpace(s[i])) ==> r == s
  {
    TrimEnd(TrimStart(s))
  }

  /** Trimming already trimmed text changes nothing. */
  lemma TrimTrimmed(s: string)
    requires IsTrimmed(s)
    ensures Trim(s) == s
  {
  }

  /** `String.prototype.length`: the number of UTF-16 code units, so a
      character outside the basic multilingual plane counts twice. */
  function JsLength(s: string): (n: nat)
    ensures |s| <= n <= 2 * |s|
  {
    if |s| == 0 then 0 else (if s[0] as int >= 0x1_0000 then 2 else 1) + JsLength(s[1..])
  }

  /** The length of a concatenation is the sum of the lengths. */
  lemma {:induction false} JsLengthConcat(a: string, b: string)
    ensures JsLength(a + b) == JsLength(a) + JsLength(b)
  {
    if |a| == 0 {
      assert a + b == b;
    } else {
      assert (a + b)[0] == a[0];
      assert (a + b)[1..] == a[1..] + b;
      JsLengthConcat(a[1..], b);
    }
  }

  /** Text inside the basic multilingual plane has one code unit per character. */
  lemma {:induction false} JsLengthOfBmp(s: string)
    requires forall c :: c in s ==> c as int < 0x1_0000
    ensures JsLength(s) == |s|
  {
    if |s| > 0 {
      assert s[0] in s;
      assert forall c :: c in s[1..] ==> c in s;
      JsLengthOfBmp(s[1..]);
    }
  }

  /** Trimming text inside the basic multilingual plane leaves such text. */
  lemma TrimmedBmp(s: string)
    requires forall c :: c in s ==> c as int < 0x1_0000
    ensures JsLength(Trim(s)) == |Trim(s)|
  {
    var t := Trim(s);
    assert t == s[LeadingSpaces(s)..LeadingSpaces(s) + |t|];
    assert forall c :: c in t ==> c in s;
    JsLengthOfBmp(t);
  }

  /** Each character outside the basic multilingual plane adds one code unit. */
  lemma {:induction false} JsLengthOfAstral(s: string)
    requires forall i :: 0 <= i < |s| ==> s[i] as int >= 0x1_0000
    ensures JsLength(s) == 2 * |s|
  {
    if |s| > 0 {
      JsLengthOfAstral(s[1..]);
    }
  }

  /** Every whitespace character is a plain space and no two spaces are adjacent. */
  ghost predicate SingleSpaced(s: string) {
    && (forall i :: 0 <= i < |s| && IsSpace(s[i]) ==> s[i] == ' ')
    && (forall i, j :: 0 <= i < j < |s| && j == i + 1 ==> !(s[i] == ' ' && s[j] == ' '))
  }

  /** `replace(/\s+/g, ' ')`: every run of whitespace becomes a single space. */
  function Collapse(s: string): (r: string)
    ensures |r| <= |s|
    ensures |s| > 0 ==> |r| > 0 && r[0] == (if IsSpace(s[0]) then ' ' else s[0])
    decreases |s|
  {
    if |s| == 0 then ""
    else if IsSpace(s[0]) then " " + Collapse(TrimStart(s))
    else [s[0]] + Collapse(s[1..])
  }

  /** Collapsing leaves single-spaced text. */
  lemma {:induction false} CollapseSingleSpaced(s: string)
    ensures SingleSpaced(Collapse(s))
    decreases |s|
  {
    if |s| > 0 {
      if IsSpace(s[0]) {
        var rest := TrimStart(s);
        CollapseSingleSpaced(rest);
        SingleSpacedCons(' ', Collapse(rest));
      } else {
        CollapseSingleSpaced(s[1..]);
        SingleSpacedCons(s[0], Collapse(s[1..]));
      }
    }
  }

  /** A character in front of single-spaced text keeps it single-spaced when
      it is no whitespace, or a plain space before text not starting with one. */
  lemma SingleSpacedCons(x: char, c: string)
    requires SingleSpaced(c)
    requires IsSpace(x) ==> x == ' ' && (|c| > 0 ==> !IsSpace(c[0]))
    ensures SingleSpaced([x] + c)
  {
    var r := [x] + c;
    forall i | 0 <= i < |r| && IsSpace(r[i])
      ensures r[i] == ' '
    {
      if i > 0 {
        assert r[i] == c[i - 1];
      }
    }
    forall i, j | 0 <= i < j < |r| && j == i + 1
      ensures !(r[i] == ' ' && r[j] == ' ')
    {
      assert r[j] == c[j - 1];
      if i > 0 {
        assert r[i] == c[i - 1];
      }
    }
  }

  /** The non-whitespace characters of `s`, in order. */
  function NonSpace(s: string): string
    decreases |s|
  {
    if |s| == 0 then ""
    else (if IsSpace(s[0]) then "" else [s[0]]) + NonSpace(s[1..])
  }

  lemma {:induction false} NonSpaceConcat(a: string, b: string)
    ensures NonSpace(a + b) == NonSpace(a) + NonSpace(b)
    decreases |a|
  {
    if |a| == 0 {
      assert a + b == b;
    } else {
      assert (a + b)[0] == a[0];
      assert (a + b)[1..] == a[1..] + b;
      NonSpaceConcat(a[1..], b);
    }
  }

  lemma {:induction false} NonSpaceBlank(s: string)
    requires forall i :: 0 <= i < |s| ==> IsSpace(s[i])
    ensures NonSpace(s) == ""
    decreases |s|
  {
    if |s| > 0 {
      var t := s[1..];
      forall i | 0 <= i < |t|
        ensures IsSpace(t[i])
      {
        assert t[i] == s[i + 1];
      }
      NonSpaceBlank(t);
    }
  }

  /** Collapsing keeps the non-whitespace characters in order. */
  lemma {:induction false} CollapseKeepsOrder(s: string)
    ensures NonSpace(Collapse(s)) == NonSpace(s)
    decreases |s|
  {
    if |s| > 0 {
      if IsSpace(s[0]) {
        var rest := TrimStart(s);
        var blank := s[..|s| - |rest|];
        CollapseKeepsOrder(rest);
        NonSpaceConcat(" ", Collapse(rest));
        assert NonSpace(" ") == "";
        assert s == blank + rest;
        NonSpaceConcat(blank, rest);
        forall i | 0 <= i < |blank|
          ensures IsSpace(blank[i])
        {
          assert blank[i] == s[i];
        }
        NonSpaceBlank(blank);
      } else {
        CollapseKeepsOrder(s[1..]);
        NonSpaceConcat([s[0]], Collapse(s[1..]));
        NonSpaceConcat([s[0]], s[1..]);
        assert s == [s[0]] + s[1..];
      }
    }
  }

  /** Dropping leading whitespace keeps the non-whitespace characters in order. */
  lemma TrimStartKeepsOrder(s: string)
    ensures NonSpace(TrimStart(s)) == NonSpace(s)
  {
    var r := TrimStart(s);
    var blank := s[..|s| - |r|];
    assert s == blank + r;
    forall i | 0 <= i < |blank|
      ensures IsSpace(blank[i])
    {
      assert blank[i] == s[i];
    }
    NonSpaceBlank(blank);
    NonSpaceConcat(blank, r);
  }

  /** Dropping trailing whitespace keeps the non-whitespace characters in order. */
  lemma TrimEndKeepsOrder(s: string)
    ensures NonSpace(TrimEnd(s)) == NonSpace(s)
  {
    var r := TrimEnd(s);
    var blank := s[|r|..];
    assert s == r + blank;
    forall i | 0 <= i < |blank|
      ensures IsSpace(blank[i])
    {
      assert blank[i] == s[|r| + i];
    }
    NonSpaceBlank(blank);
    NonSpaceConcat(r, blank);
  }

  /** Trimming keeps the non-whitespace characters in order. */
  lemma TrimKeepsOrder(s: string)
    ensures NonSpace(Trim(s)) == NonSpace(s)
  {
    TrimStartKeepsOrder(s);
    TrimEndKeepsOrder(TrimStart(s));
  }

  /** Collapsing whitespace keeps every other character: a non-space
      character occurs in the result exactly when it occurs in the input. */
  lemma {:induction false} CollapseKeepsText(s: string, k: char)
    requires !IsSpace(k)
    ensures k in Collapse(s) <==> k in s
    decreases |s|
  {
    if |s| > 0 {
      var head := if IsSpace(s[0]) then " " else [s[0]];
      var rest := if IsSpace(s[0]) then TrimStart(s) else s[1..];
      assert Collapse(s) == head + Collapse(rest);
      CollapseKeepsText(rest, k);
      InConcat(head, Collapse(rest), k);
      if IsSpace(s[0]) {
        TrimStartKeepsText(s, k);
      } else {
        InConcat([s[0]], s[1..], k);
        assert s == [s[0]] + s[1..];
      }
    }
  }

  lemma InConcat(a: string, b: string, k: char)
    ensures k in a + b <==> k in a || k in b
  {
    if k in a + b {
      var i :| 0 <= i < |a + b| && (a + b)[i] == k;
      if i >= |a| {
        assert b[i - |a|] == k;
      }
    }
  }

  /** Dropping leading whitespace keeps every other character. */
  lemma TrimStartKeepsText(s: string, k: char)
    requires !IsSpace(k)
    ensures k in TrimStart(s) <==> k in s
  {
    var rest := TrimStart(s);
    var a := |s| - |rest|;
    InSlice(s, a, |s|, k);
    if k in s {
      var i :| 0 <= i < |s| && s[i] == k;
      assert a <= i;
    }
  }

  /** A character occurs in `s[a..b]` exactly when it is at some index
      between `a` and `b` of `s`. */
  lemma InSlice(s: string, a: nat, b: nat, k: char)
    requires a <= b <= |s|
    ensures k in s[a..b] <==> exists i :: a <= i < b && s[i] == k
  {
    if k in s[a..b] {
      var j :| 0 <= j < b - a && s[a..b][j] == k;
      assert s[a + j] == k;
    }
    if exists i :: a <= i < b && s[i] == k {
      var i :| a <= i < b && s[i] == k;
      assert s[a..b][i - a] == k;
    }
  }

  /** Collapsing single-spaced text changes nothing. */
  lemma {:induction false} CollapseFixed(s: string)
    requires SingleSpaced(s)
    ensures Collapse(s) == s
    decreases |s|
  {
    if |s| > 0 {
      if IsSpace(s[0]) {
        assert TrimStart(s) == s[1..] by {
          if |s| > 1 {
            assert !IsSpace(s[1]);
          }
        }
        CollapseFixed(s[1..]);
        assert s == " " + s[1..];
      } else {
        CollapseFixed(s[1..]);
        assert s == [s[0]] + s[1..];
      }
    }
  }

  /** A slice of single-spaced text is single-spaced. */
  lemma SliceSingleSpaced(c: string, a: nat, b: nat)
    requires a <= b <= |c| && SingleSpaced(c)
    ensures SingleSpaced(c[a..b])
  {
    var r := c[a..b];
    forall i | 0 <= i < |r|
      ensures (IsSpace(r[i]) ==> r[i] == ' ') && (r[i] == ' ' && i + 1 < |r| ==> r[i + 1] != ' ')
    {
      assert r[i] == c[a + i];
      if i + 1 < |r| {
        assert r[i + 1] == c[a + i + 1];
      }
    }
  }

  /** Trimming keeps every non-space character. */
  lemma TrimKeepsText(c: string, k: char)
    requires !IsSpace(k)
    ensures k in Trim(c) <==> k in c
  {
    var r := Trim(c);
    var a := LeadingSpaces(c);
    InSlice(c, a, a + |r|, k);
    if k in c {
      var i :| 0 <= i < |c| && c[i] == k;
      assert a <= i < a + |r|;
    }
  }

  /** `replace(/\s+/g, ' ').trim()`. */
  function Squish(s: string): (r: string)
    ensures SingleSpaced(r) && IsTrimmed(r)
  {
    CollapseSingleSpaced(s);
    TrimSingleSpaced(Collapse(s));
    Trim(Collapse(s))
  }

  /** Squishing keeps the non-whitespace characters of `s`, in order and
      with their repetitions: only whitespace is changed. */
  lemma SquishKeepsOrder(s: string)
    ensures NonSpace(Squish(s)) == NonSpace(s)
  {
    CollapseKeepsOrder(s);
    TrimKeepsOrder(Collapse(s));
  }

  /** Trimming single-spaced text keeps it single-spaced. */
  lemma TrimSingleSpaced(c: string)
    requires SingleSpaced(c)
    ensures SingleSpaced(Trim(c))
  {
    SliceSingleSpaced(c, LeadingSpaces(c), LeadingSpaces(c) + |Trim(c)|);
  }

  /** Squishing keeps every non-space character. */
  lemma SquishKeepsText(s: string, k: char)
    requires !IsSpace(k)
    ensures k in Squish(s) <==> k in s
  {
    CollapseKeepsText(s, k);
    TrimKeepsText(Collapse(s), k);
  }

  /** Squishing single-spaced, trimmed text changes nothing. */
  lemma SquishFixed(s: string)
    requires SingleSpaced(s) && IsTrimmed(s)
    ensures Squish(s) == s
  {
    CollapseFixed(s);
    TrimTrimmed(s);
  }

  /** The digits of `s` in order (`s.replace(/\D/g, '')`). */
  function DigitsOf(s: string): (r: string)
    ensures forall i :: 0 <= i < |r| ==> IsDigit(r[i])
    ensures |r| <= |s|
    ensures forall c :: c in r <==> c in s && IsDigit(c)
  {
    if |s| == 0 then ""
    else if IsDigit(s[0]) then [s[0]] + DigitsOf(s[1..])
    else DigitsOf(s[1..])
  }

  /** The digits of joined text are the digits of each part, in order. */
  lemma {:induction false} DigitsOfConcat(a: string, b: string)
    ensures DigitsOf(a + b) == DigitsOf(a) + DigitsOf(b)
    decreases |a|
  {
    if |a| == 0 {
      assert a + b == b;
    } else {
      assert (a + b)[0] == a[0];
      assert (a + b)[1..] == a[1..] + b;
      DigitsOfConcat(a[1..], b);
    }
  }

  /** A digit is its own digits; any other character has none. */
  lemma DigitsOfChar(c: char)
    ensures DigitsOf([c]) == if IsDigit(c) then [c] else ""
  {
    assert [c][1..] == "";
  }

  /** `haystack.includes(needle)` for a single character. */
  predicate Contains(haystack: string, c: char) {
    c in haystack
  }
}

=== FILE: usda_local_food.dfy ===
/** The farmers-market directory client: which search it runs, how a
    directory name such as `"4.2 Green Market"` splits into a distance and a
    name, and how the first ten results become market records.  The HTTP
    exchanges are parameters: the model receives how each request ended. */
module UsdaLocalFood {
  import opened Wrappers
  import opened JsValues
  import opened Records
  import Text
  import Seqs

  /** The number of search results the client looks at. */
  const MaxResults: nat := 10

  // ---------------------------------------------------------------------------
  // parseMarketName
  // ---------------------------------------------------------------------------

  /** `[0-9.]`. */
  predicate IsNumberChar(c: char) {
    Text.IsDigit(c) || c == '.'
  }

  /** A line terminator, which `.` in a regular expression does not match. */
  predicate IsLineTerminator(c: char) {
    c == '\n' || c == '\r'
  }

  /** The length of the run of characters satisfying `NumberChar` at the start of `s`. */
  function NumberRun(s: string): (n: nat)
    ensures n <= |s|
    ensures forall i :: 0 <= i < n ==> IsNumberChar(s[i])
    ensures n < |s| ==> !IsNumberChar(s[n])
  {
    if |s| > 0 && IsNumberChar(s[0]) then 1 + NumberRun(s[1..]) else 0
  }

  /** The name and distance a directory entry's `marketname` gives. */
  datatype ParsedName = ParsedName(name: string, distance: Option<Number>)

  /** `parseMarketName`: `/^([0-9.]+)\s+(.*)$/` matches when the text starts
      with a run of digits and dots followed by whitespace, and nothing after
      that whitespace is a line terminator; then the name is the rest, trimmed,
      and the distance is the run converted to a number.  Otherwise the name is
      the whole text, trimmed, and the distance is `null`. */
  function ParseMarketName(s: string, host: Host): (r: ParsedName)
    ensures Text.IsTrimmed(r.name)
    ensures r.distance.Some? <==> 0 < NumberRun(s) < |s| && Text.IsSpace(s[NumberRun(s)])
                                  && OneLine(Text.TrimStart(s[NumberRun(s)..]))
    ensures r.distance.Some? ==> r.distance.value == host.parse(s[..NumberRun(s)])
                                 && r.name == Text.Trim(s[NumberRun(s)..])
    ensures r.distance.None? ==> r.name == Text.Trim(s)
  {
    var n := NumberRun(s);
    if 0 < n < |s| && Text.IsSpace(s[n]) then
      var rest := Text.TrimStart(s[n..]);
      if OneLine(rest) then
        Text.TrimStartIdempotent(s[n..]);
        ParsedName(Text.Trim(rest), Some(host.parse(s[..n])))
      else ParsedName(Text.Trim(s), None)
    else ParsedName(Text.Trim(s), None)
  }

  /** No character of `t` ends a line. */
  predicate OneLine(t: string) {
    forall i :: 0 <= i < |t| ==> !IsLineTerminator(t[i])
  }

  /** A distance, a space and a one-line trimmed name parse back into that
      distance and name. */
  lemma ParseDistanceAndName(digits: string, name: string, host: Host)
    requires |digits| > 0 && forall i :: 0 <= i < |digits| ==> IsNumberChar(digits[i])
    requires Text.IsTrimmed(name) && OneLine(name)
    ensures ParseMarketName(digits + " " + name, host) == ParsedName(name, Some(host.parse(digits)))
  {
    var s := digits + " " + name;
    NumberRunOf(digits, " " + name);
    SplitAt(digits, " " + name);
    assert s == digits + (" " + name);
    SpacedName(name);
  }

  /** The two halves of a concatenation, recovered by slicing. */
  lemma SplitAt(a: string, b: string)
    ensures (a + b)[|a|..] == b && (a + b)[..|a|] == a
  {
  }

  /** A trimmed name after one space: trimming the start recovers the name. */
  lemma SpacedName(name: string)
    requires Text.IsTrimmed(name)
    ensures Text.TrimStart(" " + name) == name
  {
    assert (" " + name)[1..] == name;
    if |name| > 0 {
      assert !Text.IsSpace(name[0]);
    }
  }

  /** The number run of `digits + x` is `digits` when `x` starts otherwise. */
  lemma {:induction false} NumberRunOf(digits: string, x: string)
    requires forall i :: 0 <= i < |digits| ==> IsNumberChar(digits[i])
    requires |x| > 0 && !IsNumberChar(x[0])
    ensures NumberRun(digits + x) == |digits|
    decreases |digits|
  {
    if |digits| > 0 {
      NumberRunOf(digits[1..], x);
      assert (digits + x)[1..] == digits[1..] + x;
    } else {
      assert digits + x == x;
    }
  }

  /** A name that does not start with a digit or a dot has no distance. */
  lemma PlainNameHasNoDistance(s: string, host: Host)
    requires |s| == 0 || !IsNumberChar(s[0])
    ensures ParseMarketName(s, host) == ParsedName(Text.Trim(s), None)
  {
  }

  // ---------------------------------------------------------------------------
  // fetchUsdaMarkets
  // ---------------------------------------------------------------------------

  /** The search the client runs: by zip (the value as the caller gave it),
      by coordinates, or none. */
  datatype Search = ZipSearch(zip: Value) | LocSearch(lat: real, lng: real) | NoSearch

  /** A truthy zip selects the zip search; otherwise two truthy (present,
      non-zero) coordinates select the location search; otherwise no request
      is made. */
  function SearchFor(zip: Value, lat: Option<real>, lng: Option<real>): (r: Search)
    ensures Truthy(zip) ==> r == ZipSearch(zip)
    ensures !Truthy(zip) && lat.Some? && lat.value != 0.0 && lng.Some? && lng.value != 0.0 ==>
              r == LocSearch(lat.value, lng.value)
    ensures r.NoSearch? <==> !Truthy(zip) && (lat.None? || lat.value == 0.0 || lng.None? || lng.value == 0.0)
  {
    if Truthy(zip) then ZipSearch(zip)
    else if lat.Some? && lat.value != 0.0 && lng.Some? && lng.value != 0.0 then LocSearch(lat.value, lng.value)
    else NoSearch
  }

  /** A search result as delivered: its `id` and `marketname`. */
  datatype RawMarket = RawMarket(id: Value, marketname: Value)

  /** How the search request ended: a failure (non-2xx status, network error,
      timeout, unparsable body), or a payload whose `results` member is an
      array (`Some`) or not (`None`). */
  datatype SearchReply = SearchFailed | SearchDelivered(results: Option<seq<RawMarket>>)

  /** How a detail request ended: a failure, or a payload whose
      `marketdetails.Address` is the given text (`None` when absent). */
  datatype DetailReply = DetailFailed | DetailDelivered(address: Option<string>)

  /** The parsed name of a result, or `None` when `marketname` is neither a
      string nor absent and calling `match` on it throws. */
  function NameOf(m: RawMarket, host: Host): Option<ParsedName> {
    match m.marketname
    case Undefined => Some(ParseMarketName("", host))
    case Str(s) => Some(ParseMarketName(s, host))
    case _ => None
  }

  /** The address of a result: `null` without an id (no request is made),
      when the detail request fails, or when the detail has no address. */
  function AddressOf(m: RawMarket, details: Value -> DetailReply): (r: Option<string>)
    ensures !Truthy(m.id) ==> r.None?
    ensures Truthy(m.id) && details(m.id).DetailFailed? ==> r.None?
    ensures r.Some? ==> r.value != "" && details(m.id) == DetailDelivered(r)
    ensures Truthy(m.id) && details(m.id).DetailDelivered? && Filled(details(m.id).address) ==>
              r == details(m.id).address
  {
    if !Truthy(m.id) then None
    else match details(m.id)
      case DetailFailed => None
      case DetailDelivered(a) => OrNull(a)
  }

  /** The record of one result whose name parses. */
  function MarketOf(m: RawMarket, parsed: ParsedName, details: Value -> DetailReply): UsdaMarket {
    UsdaMarket(m.id, parsed.name, parsed.distance, AddressOf(m, details))
  }

  /** Every result's `marketname` parses (none throws). */
  predicate AllNamesParse(ms: seq<RawMarket>, host: Host) {
    forall i :: 0 <= i < |ms| ==> NameOf(ms[i], host).Some?
  }

  /** The records of results whose names all parse, in order. */
  function MarketRecords(ms: seq<RawMarket>, host: Host, details: Value -> DetailReply): (r: seq<UsdaMarket>)
    requires AllNamesParse(ms, host)
    ensures |r| == |ms|
    ensures forall i :: 0 <= i < |ms| ==> r[i] == MarketOf(ms[i], NameOf(ms[i], host).value, details)
  {
    seq(|ms|, i requires 0 <= i < |ms| => MarketOf(ms[i], NameOf(ms[i], host).value, details))
  }

  predicate Named(m: UsdaMarket) {
    m.name != ""
  }

  /** The results a delivered search hands over: the first ten of the
      `results` array, or none when it is not an array or the search failed. */
  function ResultsOf(reply: SearchReply): (r: seq<RawMarket>)
    ensures |r| <= MaxResults
    ensures reply.SearchDelivered? && reply.results.Some? ==> r == Seqs.Take(reply.results.value, MaxResults)
    ensures !(reply.SearchDelivered? && reply.results.Some?) ==> r == []
  {
    if reply.SearchDelivered? && reply.results.Some? then Seqs.Take(reply.results.value, MaxResults) else []
  }

  /** `fetchUsdaMarkets`: no search, a failed search, or a result whose
      `marketname` makes parsing throw give `{ markets: [] }`; otherwise the
      first ten results become records, and those whose name is empty are
      dropped, keeping order.  A failed detail request only leaves that
      market's address `null`. */
  function FetchUsdaMarkets(search: Search, reply: SearchReply, details: Value -> DetailReply, host: Host)
    : (r: Payload)
    ensures r.MarketList?
    ensures |r.markets| <= MaxResults
    ensures forall i :: 0 <= i < |r.markets| ==> r.markets[i].name != ""
    ensures search.NoSearch? || !AllNamesParse(ResultsOf(reply), host) ==> r.markets == []
    ensures !search.NoSearch? && AllNamesParse(ResultsOf(reply), host) ==>
              r.markets == Seqs.Filter(MarketRecords(ResultsOf(reply), host, details), Named)
  {
    if search.NoSearch? then MarketList([])
    else
      var results := ResultsOf(reply);
      if !AllNamesParse(results, host) then MarketList([])
      else MarketList(Seqs.Filter(MarketRecords(results, host, details), Named))
  }

  /** Every market answered is one of the first ten results, with its id,
      and a result whose name parses to a non-empty one is answered. */
  lemma AnsweredAreFirstTen(search: Search, reply: SearchReply, details: Value -> DetailReply, host: Host)
    requires !search.NoSearch? && AllNamesParse(ResultsOf(reply), host)
    ensures var results := ResultsOf(reply);
      var answered := FetchUsdaMarkets(search, reply, details, host).markets;
      && (forall m :: m in answered ==> exists i :: 0 <= i < |results| && m.id == results[i].id)
      && (forall i :: 0 <= i < |results| && NameOf(results[i], host).value.name != "" ==>
            MarketOf(results[i], NameOf(results[i], host).value, details) in answered)
  {
    var results := ResultsOf(reply);
    var recs := MarketRecords(results, host, details);
    forall m | m in Seqs.Filter(recs, Named)
      ensures exists i :: 0 <= i < |results| && m.id == results[i].id
    {
      var i :| 0 <= i < |recs| && recs[i] == m;
      assert m.id == results[i].id;
    }
  }
}

=== FILE: vendor_routes.dfy ===
/** The vendor routes, each behind the vendor guard: reading and upserting the
    caller's profile, listing the caller's products with photos filled in,
    creating a product, and deleting one of the caller's products.  Handlers
    receive the user the guard admitted.  Ids, clock readings and photo
    lookups are parameters. */
module VendorRoutes {
  import opened Wrappers
  import opened JsValues
  import opened Records
  import opened FileStore
  import opened Http
  import DataPaths
  import Seqs
  import ProductCatalog

  /** `toNumberOrNull`: `null`, `undefined` and `''` are null; anything else
      is its `Number(...)` conversion when finite, and null otherwise. */
  function ToNumberOrNull(v: Value, host: Host): (r: Option<real>)
    ensures v.Null? || v.Undefined? || v == Str("") ==> r.None?
    ensures !(v.Null? || v.Undefined? || v == Str("")) ==>
              (r.Some? <==> ToNumber(v, host).Finite?) &&
              (r.Some? ==> ToNumber(v, host) == Finite(r.value))
    ensures v.Num? && v.n.Finite? ==> r == Some(v.n.v)
  {
    if v.Null? || v.Undefined? || v == Str("") then None
    else
      var n := ToNumber(v, host);
      if n.Finite? then Some(n.v) else None
  }

  /** The caller's profile: the first vendor owned by the user. */
  function ProfileOf(vs: seq<Vendor>, userId: string): (r: Option<Vendor>)
    ensures r.None? <==> forall i :: 0 <= i < |vs| ==> vs[i].userId != userId
    ensures r.Some? ==> r.value in vs && r.value.userId == userId
  {
    Seqs.Find(vs, (v: Vendor) => v.userId == userId)
  }

  /** Read the vendors document and find the caller's profile; `None` when
      the read fails or the document has no vendors array (both 500). */
  function LookupProfile(disk: AppDisk, userId: string): (o: Outcome<Doc, Option<Vendor>>)
    ensures o.disk == ReadJson(disk, DataPaths.Vendors, Some(VendorsDoc([]))).disk
    ensures o.answer.Ok? <==> (ReadJson(disk, DataPaths.Vendors, Some(VendorsDoc([]))).answer.Ok? &&
                               ReadJson(disk, DataPaths.Vendors, Some(VendorsDoc([]))).answer.value.VendorsDoc?)
    ensures o.answer.Ok? ==>
              o.answer.value == ProfileOf(ReadJson(disk, DataPaths.Vendors, Some(VendorsDoc([]))).answer.value.vendors,
                                          userId)
  {
    var read := ReadJson(disk, DataPaths.Vendors, Some(VendorsDoc([])));
    match read.answer
    case Err(e) => Outcome(read.disk, Err(e))
    case Ok(d) =>
      match ProductCatalog.VendorArray(d)
      case None => Outcome(read.disk, Err(Thrown))
      case Some(vs) => Outcome(read.disk, Ok(ProfileOf(vs, userId)))
  }

  // ---------------------------------------------------------------------------
  // Profile
  // ---------------------------------------------------------------------------

  /** `GET /profile`: `{ vendor }`, null when the caller has no profile. */
  function GetProfile(disk: AppDisk, user: User): (h: Handled<Option<Vendor>>)
    ensures LookupProfile(disk, user.id).answer.Ok? ==>
              h == Handled(LookupProfile(disk, user.id).disk, Response(200, Json(LookupProfile(disk, user.id).answer.value)))
    ensures LookupProfile(disk, user.id).answer.Err? ==> h.response == InternalError()
  {
    var found := LookupProfile(disk, user.id);
    if found.answer.Err? then Handled(found.disk, InternalError())
    else Handled(found.disk, Response(200, Json(found.answer.value)))
  }

  /** The body of a profile request. */
  datatype ProfileBody = ProfileBody(farmName: Value, displayName: Value, lat: Value, lng: Value, bio: Value)

  /** An existing profile after an update: the farm name is replaced; the
      display name only by a truthy value; coordinates and bio only by a
      non-null value; `id`, `userId` and `createdAt` are kept. */
  function Updated(existing: Vendor, farmName: string, b: ProfileBody, lat: Option<real>, lng: Option<real>,
                   now: int): (v: Vendor)
    ensures v.id == existing.id && v.userId == existing.userId && v.createdAt == existing.createdAt
    ensures v.farmName == farmName && v.updatedAt == Some(now)
    ensures v.displayName == (if Truthy(b.displayName) then b.displayName else existing.displayName)
    ensures v.lat == (if lat.Some? then lat else existing.lat)
    ensures v.lng == (if lng.Some? then lng else existing.lng)
    ensures v.bio == (if IsNullish(b.bio) then existing.bio else b.bio)
  {
    existing.(
      farmName := farmName,
      displayName := Or(b.displayName, existing.displayName),
      lat := if lat.Some? then lat else existing.lat,
      lng := if lng.Some? then lng else existing.lng,
      bio := if IsNullish(b.bio) then existing.bio else b.bio,
      updatedAt := Some(now))
  }

  /** A first profile: the display name defaults to the username, the bio to `''`. */
  function Created(user: User, id: string, farmName: string, b: ProfileBody, lat: Option<real>, lng: Option<real>,
                   now: int): (v: Vendor)
    ensures v.userId == user.id && v.farmName == farmName && v.lat == lat && v.lng == lng
    ensures v.displayName == (if Truthy(b.displayName) then b.displayName else Str(user.username))
    ensures v.bio == (if Truthy(b.bio) then b.bio else Str(""))
  {
    Vendor(id, user.id, farmName, Or(b.displayName, Str(user.username)), lat, lng, Or(b.bio, Str("")), now, None)
  }

  /** `vendors.map(e => e.userId === userId ? updated : e)`. */
  function ReplaceOwned(vs: seq<Vendor>, userId: string, updated: Vendor): (r: seq<Vendor>)
    ensures |r| == |vs|
    ensures forall i :: 0 <= i < |vs| ==> r[i] == if vs[i].userId == userId then updated else vs[i]
  {
    seq(|vs|, i requires 0 <= i < |vs| => if vs[i].userId == userId then updated else vs[i])
  }

  /** The upsert transform. */
  function UpsertStep(d: Doc, user: User, id: string, farmName: string, b: ProfileBody,
                      lat: Option<real>, lng: Option<real>, now: int): Option<(Doc, Vendor)> {
    match ProductCatalog.VendorsOrEmpty(d)
    case None => None
    case Some(vs) =>
      match ProfileOf(vs, user.id)
      case Some(existing) =>
        var updated := Updated(existing, farmName, b, lat, lng, now);
        Some((VendorsDoc(ReplaceOwned(vs, user.id, updated)), updated))
      case None =>
        var created := Created(user, id, farmName, b, lat, lng, now);
        Some((VendorsDoc(vs + [created]), created))
  }

  /** `POST /profile`: 400 without a string farm name, before any write;
      otherwise update the caller's profile or create it. */
  function UpsertProfile(disk: AppDisk, user: User, b: ProfileBody, host: Host, id: string, now: int)
    : (h: Handled<Vendor>)
    ensures !(b.farmName.Str? && b.farmName.s != "") ==> h == Handled(disk, Reject(400, "farmName is required."))
    ensures h.response.status in {200, 400, 500}
    // a farm name is stored exactly when the vendors file works
    ensures b.farmName.Str? && b.farmName.s != "" ==>
              (h.response.status == 200 <==> ProductCatalog.VendorsStoreWorks(disk)) &&
              (h.response.status == 500 <==> !ProductCatalog.VendorsStoreWorks(disk))
    ensures h.response.status == 200 ==>
              && b.farmName.Str?
              && var load := Load(disk, DataPaths.Vendors, Some(VendorsDoc([])));
              && load.Ok? && ProductCatalog.VendorsOrEmpty(load.value).Some?
              && var vs := ProductCatalog.VendorsOrEmpty(load.value).value;
              && var lat := ToNumberOrNull(b.lat, host);
              && var lng := ToNumberOrNull(b.lng, host);
              && DataPaths.Vendors in h.disk
              && OnlyTouches(disk, h.disk, DataPaths.Vendors)
              && match ProfileOf(vs, user.id)
                 case Some(existing) =>
                   var updated := Updated(existing, b.farmName.s, b, lat, lng, now);
                   && h.response.body == Json(updated)
                   && h.disk[DataPaths.Vendors] == Holds(VendorsDoc(ReplaceOwned(vs, user.id, updated)))
                 case None =>
                   var created := Created(user, id, b.farmName.s, b, lat, lng, now);
                   && h.response.body == Json(created)
                   && h.disk[DataPaths.Vendors] == Holds(VendorsDoc(vs + [created]))
  {
    if !Truthy(b.farmName) || !b.farmName.Str? then Handled(disk, Reject(400, "farmName is required."))
    else
      var lat := ToNumberOrNull(b.lat, host);
      var lng := ToNumberOrNull(b.lng, host);
      var o := Transact(disk, DataPaths.Vendors, Some(VendorsDoc([])),
                        (d: Doc) => UpsertStep(d, user, id, b.farmName.s, b, lat, lng, now));
      match o.answer
      case Err(_) => Handled(o.disk, InternalError())
      case Ok(v) => Handled(o.disk, Response(200, Json(v)))
  }

  /** The vendors list the upsert transform receives (empty when it throws). */
  function StoredVendors(disk: AppDisk): seq<Vendor> {
    var load := Load(disk, DataPaths.Vendors, Some(VendorsDoc([])));
    if load.Ok? && ProductCatalog.VendorsOrEmpty(load.value).Some? then ProductCatalog.VendorsOrEmpty(load.value).value
    else []
  }

  /** Every user owns at most one profile: the invariant the upsert keeps. */
  ghost predicate OneProfilePerUser(vs: seq<Vendor>) {
    forall i, j :: 0 <= i < j < |vs| ==> vs[i].userId != vs[j].userId
  }

  /** An update touches only the caller's record: every other vendor is
      unchanged and in its place; and the one-profile-per-user invariant holds
      afterwards whether the profile was updated or created. */
  lemma UpsertKeepsOthers(disk: AppDisk, user: User, b: ProfileBody, host: Host, id: string, now: int)
    requires UpsertProfile(disk, user, b, host, id, now).response.status == 200
    requires OneProfilePerUser(StoredVendors(disk))
    ensures var vs := StoredVendors(disk);
      var after := UpsertProfile(disk, user, b, host, id, now).disk;
      && after[DataPaths.Vendors].Holds?
      && var next := ProductCatalog.VendorsOrEmpty(after[DataPaths.Vendors].doc).value;
      && OneProfilePerUser(next)
      && |vs| <= |next| <= |vs| + 1
      && (forall i :: 0 <= i < |vs| && vs[i].userId != user.id ==> next[i] == vs[i])
  {
    var vs := StoredVendors(disk);
    var after := UpsertProfile(disk, user, b, host, id, now).disk;
    var next := ProductCatalog.VendorsOrEmpty(after[DataPaths.Vendors].doc).value;
    var lat := ToNumberOrNull(b.lat, host);
    var lng := ToNumberOrNull(b.lng, host);
    match ProfileOf(vs, user.id)
    case Some(existing) =>
      var updated := Updated(existing, b.farmName.s, b, lat, lng, now);
      assert next == ReplaceOwned(vs, user.id, updated);
    case None =>
      var created := Created(user, id, b.farmName.s, b, lat, lng, now);
      assert next == vs + [created];
      forall i, j | 0 <= i < j < |next|
        ensures next[i].userId != next[j].userId
      {
        if j == |vs| {
          assert next[i] == vs[i];
        }
      }
  }

  // ---------------------------------------------------------------------------
  // Products
  // ---------------------------------------------------------------------------

  /** `GET /products`: the caller's products with photos filled in; found
      photos are written back to every stored product with the same id.
      Without a profile the list is empty and nothing else is read. */
  function ListOwnProducts(disk: AppDisk, user: User, imageFor: Value -> Option<Image>)
    : (h: Handled<seq<Product>>)
    ensures h.response.status in {200, 500}
    ensures LookupProfile(disk, user.id).answer.Err? ==> h.response == InternalError()
    // with a profile, the list fails exactly when the products file does not
    // read as a products array, or when photos were found and cannot be stored
    ensures LookupProfile(disk, user.id).answer.Ok? && LookupProfile(disk, user.id).answer.value.Some? ==>
              var found := LookupProfile(disk, user.id);
              var read := ReadJson(found.disk, DataPaths.Products, Some(ProductsDoc([])));
              h.response.status == 500 <==>
                || read.answer.Err? || ProductCatalog.ProductArray(read.answer.value).None?
                || (|ProductCatalog.ImageUpdates(OwnedBy(ProductCatalog.ProductArray(read.answer.value).value,
                                                         found.answer.value.value.id), imageFor)| > 0 &&
                    !ProductCatalog.ProductsStoreWorks(read.disk))
    ensures LookupProfile(disk, user.id).answer == Ok(None) ==>
              h == Handled(LookupProfile(disk, user.id).disk, Response(200, Json([])))
    ensures h.response.status == 200 && LookupProfile(disk, user.id).answer.Ok? &&
            LookupProfile(disk, user.id).answer.value.Some? ==>
              var found := LookupProfile(disk, user.id);
              var vendor := found.answer.value.value;
              var read := ReadJson(found.disk, DataPaths.Products, Some(ProductsDoc([])));
              && read.answer.Ok? && ProductCatalog.ProductArray(read.answer.value).Some?
              && var own := OwnedBy(ProductCatalog.ProductArray(read.answer.value).value, vendor.id);
              && h.response.body == Json(ProductCatalog.Hydrate(own, imageFor))
              && var updates := ProductCatalog.ImageUpdates(own, imageFor);
              && (|updates| == 0 ==> h.disk == read.disk)
              && (|updates| > 0 ==>
                    var load := Load(read.disk, DataPaths.Products, Some(ProductsDoc([])));
                    && load.Ok? && ProductCatalog.ProductsOrEmpty(load.value).Some?
                    && DataPaths.Products in h.disk
                    && h.disk[DataPaths.Products] ==
                         Holds(ProductsDoc(ProductCatalog.MergeImages(ProductCatalog.ProductsOrEmpty(load.value).value,
                                                                      updates))))
  {
    var found := LookupProfile(disk, user.id);
    match found.answer
    case Err(_) => Handled(found.disk, InternalError())
    case Ok(None) => Handled(found.disk, Response(200, Json([])))
    case Ok(Some(vendor)) =>
      var read := ReadJson(found.disk, DataPaths.Products, Some(ProductsDoc([])));
      if read.answer.Err? || ProductCatalog.ProductArray(read.answer.value).None? then
        Handled(read.disk, InternalError())
      else
        var own := OwnedBy(ProductCatalog.ProductArray(read.answer.value).value, vendor.id);
        var hydrated := ProductCatalog.Hydrate(own, imageFor);
        var updates := ProductCatalog.ImageUpdates(own, imageFor);
        if |updates| == 0 then Handled(read.disk, Response(200, Json(hydrated)))
        else
          var o := Transact(read.disk, DataPaths.Products, Some(ProductsDoc([])),
                            (d: Doc) => ProductCatalog.MergeStep(d, updates));
          if o.answer.Err? then Handled(o.disk, InternalError())
          else Handled(o.disk, Response(200, Json(hydrated)))
  }

  /** The products of one vendor, in stored order. */
  function OwnedBy(ps: seq<Product>, vendorId: string): (r: seq<Product>)
    ensures forall i :: 0 <= i < |r| ==> r[i].vendorId == vendorId
    ensures forall p :: p in r ==> p in ps
    ensures forall p :: p in ps && p.vendorId == vendorId ==> p in r
  {
    Seqs.Filter(ps, (p: Product) => p.vendorId == vendorId)
  }

  /** The body of a create-product request. */
  datatype ProductBody = ProductBody(name: Value, category: Value, unit: Value, available: Value, rating: Value)

  /** The rating check: `Number(rating)` must be finite and within [1, 5]. */
  function ValidRating(v: Value, host: Host): (r: Option<real>)
    ensures r.Some? <==> ToNumber(v, host).Finite? && 1.0 <= ToNumber(v, host).v <= 5.0
    ensures r.Some? ==> r.value == ToNumber(v, host).v
  {
    var n := ToNumber(v, host);
    if n.Finite? && 1.0 <= n.v <= 5.0 then Some(n.v) else None
  }

  /** The product a create request builds: category `general` and unit `unit`
      by default, available unless the body says exactly `false`. */
  function NewProduct(id: string, vendor: Vendor, name: string, b: ProductBody, rating: real,
                      image: Option<Image>, now: int): (p: Product)
    ensures p.vendorId == vendor.id && p.name == name && p.image == image
    ensures p.category == (if Truthy(b.category) then b.category else Str("general"))
    ensures p.unit == (if Truthy(b.unit) then b.unit else Str("unit"))
    ensures p.available <==> b.available != Bool(false)
    ensures p.id == id && p.createdAt == now && p.rating == Some(rating)
  {
    Product(id, vendor.id, name, Or(b.category, Str("general")), Or(b.unit, Str("unit")), Some(rating),
            b.available != Bool(false), image, now)
  }

  function AppendStep(d: Doc, p: Product): Option<(Doc, Product)> {
    match ProductCatalog.ProductsOrEmpty(d)
    case None => None
    case Some(ps) => Some((ProductsDoc(ps + [p]), p))
  }

  /** `POST /products`: 400 for a missing or non-string name, for a rating
      that is not a finite number in [1, 5], and for a caller without a
      profile; otherwise the new product is appended last and answered 201.
      `image` is what the photo lookup found for the name. */
  function CreateProduct(disk: AppDisk, user: User, b: ProductBody, host: Host, id: string,
                         image: Option<Image>, now: int): (h: Handled<Product>)
    ensures !(b.name.Str? && b.name.s != "") ==> h == Handled(disk, Reject(400, "name is required."))
    ensures b.name.Str? && b.name.s != "" && ValidRating(b.rating, host).None? ==>
              h == Handled(disk, Reject(400, "rating must be between 1 and 5."))
    ensures b.name.Str? && b.name.s != "" && ValidRating(b.rating, host).Some? &&
            LookupProfile(disk, user.id).answer == Ok(None) ==>
              h == Handled(LookupProfile(disk, user.id).disk, Reject(400, "Vendor profile is required."))
    ensures h.response.status in {201, 400, 500}
    ensures (b.name.Str? && b.name.s != "" && ValidRating(b.rating, host).Some? &&
             LookupProfile(disk, user.id).answer.Err?) ==> h.response == InternalError()
    // a valid product of a vendor is created exactly when the products file works
    ensures (b.name.Str? && b.name.s != "" && ValidRating(b.rating, host).Some? &&
             LookupProfile(disk, user.id).answer.Ok? && LookupProfile(disk, user.id).answer.value.Some?) ==>
              (h.response.status == 201 <==> ProductCatalog.ProductsStoreWorks(LookupProfile(disk, user.id).disk))
    ensures h.response.status == 201 ==>
              && b.name.Str? && ValidRating(b.rating, host).Some?
              && var found := LookupProfile(disk, user.id);
              && found.answer.Ok? && found.answer.value.Some?
              && var p := NewProduct(id, found.answer.value.value, b.name.s, b, ValidRating(b.rating, host).value,
                                     image, now);
              && h.response.body == Json(p)
              && var load := Load(found.disk, DataPaths.Products, Some(ProductsDoc([])));
              && load.Ok? && ProductCatalog.ProductsOrEmpty(load.value).Some?
              && DataPaths.Products in h.disk
              && h.disk[DataPaths.Products] ==
                   Holds(ProductsDoc(ProductCatalog.ProductsOrEmpty(load.value).value + [p]))
  {
    if !Truthy(b.name) || !b.name.Str? then Handled(disk, Reject(400, "name is required."))
    else match ValidRating(b.rating, host)
      case None => Handled(disk, Reject(400, "rating must be between 1 and 5."))
      case Some(rating) =>
        var found := LookupProfile(disk, user.id);
        match found.answer
        case Err(_) => Handled(found.disk, InternalError())
        case Ok(None) => Handled(found.disk, Reject(400, "Vendor profile is required."))
        case Ok(Some(vendor)) =>
          var p := NewProduct(id, vendor, b.name.s, b, rating, image, now);
          var o := Transact(found.disk, DataPaths.Products, Some(ProductsDoc([])), (d: Doc) => AppendStep(d, p));
          if o.answer.Err? then Handled(o.disk, InternalError())
          else Handled(o.disk, Response(201, Json(p)))
  }

  /** A created product joins the end of its vendor's own list: the vendor's
      products after a 201 are those before it, in order, then the new one. */
  lemma CreatedJoinsOwnList(disk: AppDisk, user: User, b: ProductBody, host: Host, id: string,
                            image: Option<Image>, now: int)
    requires CreateProduct(disk, user, b, host, id, image, now).response.status == 201
    ensures var h := CreateProduct(disk, user, b, host, id, image, now);
      var found := LookupProfile(disk, user.id);
      var before := ProductCatalog.ProductsOrEmpty(Load(found.disk, DataPaths.Products, Some(ProductsDoc([]))).value).value;
      var p := h.response.body.value;
      && h.disk[DataPaths.Products] == Holds(ProductsDoc(before + [p]))
      && OwnedBy(before + [p], found.answer.value.value.id) == OwnedBy(before, found.answer.value.value.id) + [p]
  {
    var h := CreateProduct(disk, user, b, host, id, image, now);
    var found := LookupProfile(disk, user.id);
    var before := ProductCatalog.ProductsOrEmpty(Load(found.disk, DataPaths.Products, Some(ProductsDoc([]))).value).value;
    var p := h.response.body.value;
    var vendorId := found.answer.value.value.id;
    assert p.vendorId == vendorId;
    Seqs.FilterConcat(before, [p], (q: Product) => q.vendorId == vendorId);
    assert OwnedBy([p], vendorId) == [p];
  }

  /** The product a delete removes: the first with the id owned by the vendor. */
  function OwnedIndex(ps: seq<Product>, productId: string, vendorId: string): (i: int)
    ensures -1 <= i < |ps|
    ensures i == -1 <==> forall k :: 0 <= k < |ps| ==> !(ps[k].id == productId && ps[k].vendorId == vendorId)
    ensures 0 <= i ==> ps[i].id == productId && ps[i].vendorId == vendorId &&
                       forall k :: 0 <= k < i ==> !(ps[k].id == productId && ps[k].vendorId == vendorId)
  {
    Seqs.IndexOf(ps, (p: Product) => p.id == productId && p.vendorId == vendorId)
  }

  /** The delete transform: without a match the content is persisted as it
      was and the result is null; otherwise the match is spliced out. */
  function DeleteStep(d: Doc, productId: string, vendorId: string): Option<(Doc, Option<Product>)> {
    match ProductCatalog.ProductsOrEmpty(d)
    case None => None
    case Some(ps) =>
      var i := OwnedIndex(ps, productId, vendorId);
      if i < 0 then Some((d, None))
      else Some((ProductsDoc(Seqs.RemoveAt(ps, i)), Some(ps[i])))
  }

  /** `DELETE /products/:productId`: only the caller's own product can go;
      an unknown id, or a product of another vendor, is 404 with the list
      left as it was. */
  function DeleteProduct(disk: AppDisk, user: User, productId: string): (h: Handled<Product>)
    ensures productId == "" ==> h == Handled(disk, Reject(400, "productId is required."))
    ensures productId != "" && LookupProfile(disk, user.id).answer == Ok(None) ==>
              h == Handled(LookupProfile(disk, user.id).disk, Reject(400, "Vendor profile is required."))
    ensures h.response.status in {200, 400, 404, 500}
    ensures productId != "" && LookupProfile(disk, user.id).answer.Err? ==> h.response == InternalError()
    // a vendor's delete is answered (200 or 404) exactly when the products file works
    ensures (productId != "" && LookupProfile(disk, user.id).answer.Ok? &&
             LookupProfile(disk, user.id).answer.value.Some?) ==>
              (h.response.status in {200, 404} <==> ProductCatalog.ProductsStoreWorks(LookupProfile(disk, user.id).disk))
    ensures h.response.status in {200, 404} ==>
              && productId != ""
              && var found := LookupProfile(disk, user.id);
              && found.answer.Ok? && found.answer.value.Some?
              && var vendor := found.answer.value.value;
              && var load := Load(found.disk, DataPaths.Products, Some(ProductsDoc([])));
              && load.Ok? && ProductCatalog.ProductsOrEmpty(load.value).Some?
              && var ps := ProductCatalog.ProductsOrEmpty(load.value).value;
              && var i := OwnedIndex(ps, productId, vendor.id);
              && DataPaths.Products in h.disk
              && (h.response.status == 404 <==> i == -1)
              && (h.response.status == 404 ==>
                    h.response == Reject(404, "Product not found.") &&
                    h.disk[DataPaths.Products] == Holds(load.value))
              && (h.response.status == 200 ==>
                    h.response.body == Json(ps[i]) &&
                    h.disk[DataPaths.Products] == Holds(ProductsDoc(Seqs.RemoveAt(ps, i))))
  {
    if productId == "" then Handled(disk, Reject(400, "productId is required."))
    else
      var found := LookupProfile(disk, user.id);
      match found.answer
      case Err(_) => Handled(found.disk, InternalError())
      case Ok(None) => Handled(found.disk, Reject(400, "Vendor profile is required."))
      case Ok(Some(vendor)) =>
        var o: Outcome<Doc, Option<Product>> :=
          Transact(found.disk, DataPaths.Products, Some(ProductsDoc([])),
                   (d: Doc) => DeleteStep(d, productId, vendor.id));
        match o.answer
        case Err(_) => Handled(o.disk, InternalError())
        case Ok(None) => Handled(o.disk, Reject(404, "Product not found."))
        case Ok(Some(p)) => Handled(o.disk, Response(200, Json(p)))
  }

  /** A delete removes exactly one product, the caller's, and keeps every
      other product in order: as a multiset the list loses just that entry. */
  lemma DeleteRemovesOne(disk: AppDisk, user: User, productId: string)
    requires DeleteProduct(disk, user, productId).response.status == 200
    ensures var found := LookupProfile(disk, user.id);
      var ps := ProductCatalog.ProductsOrEmpty(Load(found.disk, DataPaths.Products, Some(ProductsDoc([]))).value).value;
      var h := DeleteProduct(disk, user, productId);
      var next := h.disk[DataPaths.Products].doc.products;
      && |next| == |ps| - 1
      && h.response.body.value.vendorId == found.answer.value.value.id
      && multiset(next) + multiset{h.response.body.value} == multiset(ps)
  {
    var found := LookupProfile(disk, user.id);
    var ps := ProductCatalog.ProductsOrEmpty(Load(found.disk, DataPaths.Products, Some(ProductsDoc([]))).value).value;
    var i := OwnedIndex(ps, productId, found.answer.value.value.id);
    RemoveAtMultiset(ps, i);
  }

  /** Splicing out one entry loses exactly that entry. */
  lemma RemoveAtMultiset(ps: seq<Product>, i: nat)
    requires i < |ps|
    ensures multiset(Seqs.RemoveAt(ps, i)) + multiset{ps[i]} == multiset(ps)
  {
    assert ps == ps[..i] + [ps[i]] + ps[i + 1..];
  }
}

=== FILE: wrappers.dfy ===
/** Optional values and success/failure results shared by every module of the model. */
module Wrappers {

  /** A value that may be absent: the model's rendering of JavaScript `null`/`undefined`. */
  datatype Option<+T> = None | Some(value: T) {

    /** The wrapped value, or `default` when absent (JavaScript `x ?? default`). */
    function GetOr(default: T): T {
      match this
      case Some(v) => v
      case None => default
    }
  }

  /** The outcome of an operation that can fail with an error of type `E`. */
  datatype Result<+T, +E> = Ok(value: T) | Err(error: E)
}
